=== FILE: README.md ===
# FindUrPal backend core, modelled in Dafny

This project models the server side of FindUrPal, a friend-location app in the style of Zenly. The server is Node.js, Express and socket.io over SQL Server. The model covers:

- **Presence** (`presence.dfy`). The process-wide `userSockets` map of `backend/server.js`, kept up to date by the socket `join` and `disconnect` events.
- **Real-time handlers** (`realtime.dfy`). The socket events `sendMessage`, `updateLocation` and `sendSOS`. Each handler is modelled by what it stores and what it emits, in order, as one trace of effects. The lemmas say who hears what and in which order.
- **Ghost mode** (`ghost_mode.dfy`). Hiding one's location for some hours or until further notice. This covers the deadline rule, the lazy expiry write-back, and the friends list that honours it.
- **Friend graph** (`friend_graph.dfy`). Friend requests, the two-row Friends table, and the friendship status that user search reports.
- **Parental links** (`parental.dfy`). A parent asks, the child accepts or rejects, and the parent sees the child's location.
- **SOS over HTTP** (`sos.dfy`). Raising, resolving and listing alerts. Contacts are friends and accepted parents.
- **Notifications** (`notifications.dfy`) and **chat** (`chat.dfy`). Paged lists, marking items read, and unread counts. Paging is shared in `paging.dfy`.
- **Accounts** (`auth.dfy`). Registration, login with legacy plain-text passwords, Google sign-in, and the reset-token lifecycle.

The rest of the model is supporting code:

- `schema.dfy` holds one class per table. Every handler states its new state table by table, so "nothing else changes" follows from its `modifies` frame.
- `js.dfy` holds the pieces of JavaScript the handlers depend on: `parseInt`, `||` defaults, truthiness, `toString`, `slice(-n)` and `toLowerCase`.
- `common.dfy` holds identifiers, the handler reply type, and the enumeration of query rows in an order the database chooses.

Effects outside the model become parameters:

- Database failures become `dbOk`/`txOk` flags.
- Mail failure becomes `mailOk`.
- bcrypt's `hash`/`compare` become function parameters.
- Random tokens and secrets are values passed in.
- The clock is a `now` parameter.
- The order in which SQL returns rows is a ghost out-parameter that the contracts constrain by its multiset.

The model follows the code, including these behaviours a reader may not expect:

- A user has one socket. The later `join` wins, and `disconnect` removes the user's entry whichever socket it names.
- A socket handler takes the user id from the event payload. It does not check that the connection has joined.
- The socket `updateLocation` friends query has no DISTINCT, so every online friend gets each move twice.
- The socket `sendSOS` alerts friends only. The HTTP `sendSOS` alerts friends and accepted parents.
- A failure in the socket `updateLocation` is only logged.
- `join` followed by `disconnect` does not restore an earlier registration of the same user.

## Model

| member | source | states |
|---|---|---|
| Common.Enumerate | backend/controllers/userController.js:921-931 | the rows of a DISTINCT query list every element of the set exactly once, in some order |
| Common.EnumerateBag | backend/server.js:111-121 | the rows of a query without DISTINCT list every element as often as the join produces it |
| Common.EnumeratedOnce | backend/server.js:162-172 | in the rows of a DISTINCT query an element occurs once if it is in the result set and never otherwise |
| Js.TrimStart | backend/controllers/chatController.js:7 | the white space `parseInt` skips: the result is a suffix of the input and does not start with white space |
| Js.DigitRun | backend/controllers/chatController.js:7 | the digits `parseInt` reads: the longest prefix of digits of the radix, where the next character is no digit |
| Js.ParseInt | backend/controllers/chatController.js:7 | `parseInt` yields a number only for a given text that holds at least one decimal digit; `undefined` and a text without digits are NaN |
| Js.IntOr | backend/controllers/notificationController.js:7-8 | `parseInt(x) \|\| d` is the parsed value when it is a non-zero integer, and `d` when `x` is missing, unreadable or reads as 0 |
| Js.TextOr | backend/server.js:149 | `s \|\| d` is the given string when it is non-empty, and `d` when it is missing or empty |
| Js.DecimalString | backend/controllers/authController.js:132 | `n.toString()` is non-empty, all decimal digits, and has no leading zero unless `n` is 0 |
| Js.SliceLast | backend/controllers/authController.js:132 | `slice(-n)` is the last `n` characters, or the whole string when it is shorter |
| Js.ToLower | backend/controllers/authController.js:132 | `toLowerCase` keeps the length and lowers each ASCII letter in place |
| Js.ParseIntOfDecimal | backend/controllers/userController.js:652 | `parseInt` of `n.toString()` followed by a unit such as "h" is `n` again |
| Js.ParseIntOfNumber | backend/controllers/chatController.js:7 | `parseInt(n.toString())` is `n` |
| Js.LowerIsIdempotent | backend/controllers/authController.js:132 | lower-casing twice equals lower-casing once, and leaves no upper-case ASCII letter |
| Schema.UserTable.Insert | backend/controllers/authController.js:37-45 | an IDENTITY insert adds exactly one row under a fresh id |
| Schema.SosTable.Insert | backend/server.js:145-153 | the alert insert adds exactly one row under a fresh id |
| Schema.NotificationTable.Insert | backend/controllers/notificationController.js:115-127 | the inserted row has the next id, is unread, carries the insert time, and is appended |
| Schema.MessageTable.Insert | backend/server.js:45-53 | the inserted message has the next id, is unread, carries the insert time, and is appended |
| Presence.Registry.Join | backend/server.js:32-36 | the user's entry names this socket, replacing any earlier one, and the socket remembers the user |
| Presence.Registry.Disconnect | backend/server.js:207-212 | the entry of the socket's user is removed whichever socket it names; a socket that never joined changes nothing |
| Presence.Registry.Lookup | backend/server.js:64 | a socket is found exactly when the user has an entry, and it is the socket stored there |
| Presence.LaterJoinWins | backend/server.js:32-36 | after joins from two tabs only the later tab is reachable |
| Presence.OlderDisconnectDropsNewer | backend/server.js:207-212 | closing the older tab takes the user offline while the newer tab is still open |
| Presence.RejoinLeavesStaleEntry | backend/server.js:207-212 | a socket that rejoins as another user leaves its first entry behind, and its disconnect removes only the second |
| GhostMode.GhostDeadline | backend/controllers/userController.js:649-656 | a deadline is stored iff ghost mode is on, the duration is not 'forever', and `parseInt` reads it as h; it is then h hours after `now` |
| GhostMode.Expired | backend/controllers/userController.js:695 | an unset flag, a NULL deadline and a deadline equal to the present have not passed |
| GhostMode.EffectiveGhost | backend/controllers/userController.js:98 | hidden iff the flag is set and there is no deadline or the present is not after it |
| GhostMode.WriteBackExpiry | backend/controllers/userController.js:695-700 | only the caller's row may change; its stored flag becomes the effective one, and a row not expired stays as it was |
| GhostMode.ClearGhost | backend/controllers/userController.js:697-699 | the expiry write-back clears the flag and the deadline |
| GhostMode.SetGhostMode | backend/controllers/userController.js:644-679 | a deadline outside the `DateTime` range answers 500 with no write; otherwise the flag and the derived deadline are stored on the caller's row only and echoed |
| GhostMode.GetGhostModeStatus | backend/controllers/userController.js:681-711 | reports the effective flag with the deadline read before the write-back, and writes the cleared state back exactly when the deadline has passed |
| GhostMode.FriendViewOf | backend/controllers/userController.js:95-114 | a friend's location is shown iff the friend is not effectively hidden and both coordinates are truthy; `isGhostMode` is the effective flag |
| GhostMode.GetFriends | backend/controllers/userController.js:69-121 | one record per Friends row from the caller to an existing user, and every such record is listed |
| GhostMode.WriteBackSettlesFlag | backend/controllers/userController.js:695-701 | after the write-back the stored flag is the effective one, and the visibility decision is unchanged |
| GhostMode.VisibleStaysVisible | backend/controllers/userController.js:98 | a user visible at one instant stays visible at every later instant |
| GhostMode.DeadlineOfHours | backend/controllers/userController.js:647-655 | the durations "1h", "8h", "24h" and every "<h>h" store a deadline exactly h hours ahead |
| GhostMode.HiddenUntilDeadline | backend/controllers/userController.js:651-655 | switched on for h hours, a user is hidden up to and including the deadline and visible after it |
| GhostMode.OfferedDurationsFit | backend/controllers/userController.js:651-663 | the offered durations of up to 24 hours always give a deadline the `DateTime` parameter accepts |
| GhostMode.HugeDurationOverflows | backend/controllers/userController.js:651-663 | "100000000h" gives a deadline past the `DateTime` range, so `setGhostMode` answers 500 |
| FriendGraph.OutLinked | backend/server.js:114-117 | the users reached by a Friends row from the caller, existing and not the caller |
| FriendGraph.InLinked | backend/server.js:114-117 | the users reaching the caller by a Friends row, existing and not the caller |
| FriendGraph.LinkRows | backend/server.js:114-117 | the friends join without DISTINCT yields a user once per matching Friends row, in either direction |
| FriendGraph.Linked | backend/server.js:162-169 | the same join with DISTINCT: an existing other user with a Friends row in either direction |
| FriendGraph.SendFriendRequest | backend/controllers/userController.js:213-310 | 400 without a target; 404 for an unknown target; 400 for oneself, for a friend, or for a pending pair; otherwise the pair's row is reused or a first one added, pending from the caller |
| FriendGraph.StoreRequest | backend/controllers/userController.js:259-297 | a pending row for the pair refuses; otherwise the pair's only row becomes a pending request from the caller |
| FriendGraph.SentKeepsInvariants | backend/controllers/userController.js:274-297 | reusing the pair's row, or adding its first row, keeps at most one row per unordered pair |
| FriendGraph.GetFriendRequests | backend/controllers/userController.js:313-345 | lists exactly the pending requests received, and those sent, whose other user exists |
| FriendGraph.AcceptFriendRequest | backend/controllers/userController.js:348-412 | a route id `parseInt` cannot read answers 500; otherwise 404 unless the caller received the pending request and its sender exists; the status and both Friends rows commit together or not at all |
| FriendGraph.AcceptRequest | backend/controllers/userController.js:352-412 | with a numeric id: 404 unless the caller received the pending request and its sender exists; 500 and no change on a failed transaction; otherwise accepted with both Friends rows added, keeping the no-pending-request-between-friends invariant |
| FriendGraph.RejectFriendRequest | backend/controllers/userController.js:415-440 | a route id `parseInt` cannot read answers 500; the receiver or the sender of a pending request deletes it; otherwise 404; the failures change nothing |
| FriendGraph.RemoveFriend | backend/controllers/userController.js:443-478 | both directed rows are removed in one transaction, also when the two were not friends |
| FriendGraph.Classify | backend/controllers/userController.js:570-575 | the CASE of the search: 'friend' iff there is a Friends row from the caller; a reported request is pending in the reported direction |
| FriendGraph.SearchUsers | backend/controllers/userController.js:551-591 | nothing for a missing or one-character query; otherwise every other user whose name contains it, with their status |
| FriendGraph.ClassificationIsExact | backend/controllers/userController.js:570-581 | on a consistent database, 'request_sent' and 'request_received' hold exactly in their direction, never both, and never between friends |
| FriendGraph.EachFriendTwice | backend/server.js:111-118 | with symmetric Friends rows the join without DISTINCT lists each friend twice, and with DISTINCT once |
| FriendGraph.AcceptThenRemove | backend/controllers/userController.js:451-467 | accepting and then removing a friend restores the Friends table |
| Parental.MarkParent | backend/controllers/userController.js:753-755 | only the requesting user's row changes, gaining `isParent` |
| Parental.SendParentalRequest | backend/controllers/userController.js:714-762 | 404 for an unknown child name; 400 for oneself or for an existing link of any status; otherwise one pending link and the parent marked |
| Parental.SetLinkStatus | backend/controllers/userController.js:841-848 | only the child a link names can change its status; nothing else changes |
| Parental.AdoptAsWritten | backend/controllers/userController.js:851-859 | as written, the caller's `parentId` becomes the parent of link `requestId`, whoever that link names as child |
| Parental.Adopt | backend/controllers/userController.js:851-859 | a `parentId` changes only for the caller, only through a link naming the caller as child, and to that link's parent |
| Parental.AcceptParentalRequest | backend/controllers/userController.js:834-867 | the link addressed to the caller becomes accepted; the caller's `parentId` takes the parent of link `requestId` whoever it names as child (`AdoptAsWritten`); the reply is success |
| Parental.RejectParentalRequest | backend/controllers/userController.js:869-890 | only the child a link names can reject it; the reply is success |
| Parental.ChildViewOf | backend/controllers/userController.js:788-798 | a child's location is shown iff both coordinates are truthy; ghost mode is not consulted |
| Parental.GetChildren | backend/controllers/userController.js:764-805 | exactly the existing children of the caller's accepted links |
| Parental.GetParentalRequests | backend/controllers/userController.js:807-832 | exactly the pending links naming the caller as child whose parent exists |
| Parental.StatusChangeKeepsPairs | backend/controllers/userController.js:736-744 | accepting or rejecting neither creates nor removes a (parent, child) pair, so a rejected link still blocks a new request |
| Parental.AcceptLinksChild | backend/controllers/userController.js:841-859 | a child accepting their own link is linked to its parent, and the code as written agrees with the corrected step there |
| Parental.ForeignLinkAdopts | backend/controllers/userController.js:851-859 | as written, a user naming someone else's link takes its parent while the link stays unchanged; the corrected step changes nothing |
| Parental.ForeignLinkExample | backend/controllers/userController.js:851-859 | concrete case: user 4 accepts link 1 (parent 2, child 3) and gets parent 2 as written, and none when corrected |
| Sos.NotificationText | backend/controllers/userController.js:936 | the text starts with the sender's name (or "undefined") and "cần giúp đỡ!", and ends with the message when one is given |
| Sos.SosNotifications | backend/controllers/userController.js:931-942 | one unread 'sos' row per contact, in the listed order, with consecutive ids |
| Sos.AcceptedParents | backend/controllers/userController.js:926 | an accepted parent is exactly an existing other user with an accepted link naming the sender as child |
| Sos.Contacts | backend/controllers/userController.js:921-928 | the contacts are the friends and the accepted parents, and never the sender |
| Sos.SendSos | backend/controllers/userController.js:893-952 | stores the alert with the default message when none is given, writes one notification per contact, and reports the alert id and the contact count |
| Sos.NotifyContacts | backend/controllers/userController.js:931-942 | the loop appends exactly the notification rows of the contacts, in order |
| Sos.ResolveAlert | backend/controllers/userController.js:961-968 | only the owner's own alert is closed, with the resolution time; every other alert is unchanged |
| Sos.ResolveSos | backend/controllers/userController.js:954-975 | the alert table becomes the resolved one and the reply is success |
| Sos.ActiveSosOver | backend/controllers/userController.js:984-1001 | each active alert of an existing owner is listed once per matching Friends row, and nothing else is listed |
| Sos.GetActiveSos | backend/controllers/userController.js:984-1001 | every active alert of an existing owner, listed once per Friends row joining the owner to the caller, and nothing else |
| Sos.OneNotificationPerContact | backend/controllers/userController.js:921-942 | each contact gets exactly one SOS notification naming the sender, and nobody else gets one |
| Sos.ActiveAlertsTwice | backend/controllers/userController.js:996-999 | on a consistent database a friend's active alert is listed twice, and a non-friend's never |
| Sos.ResolvedAlertHidden | backend/controllers/userController.js:954-1008 | a resolved alert leaves every user's active list |
| Realtime.PushIfOnline | backend/server.js:122-129 | the push goes out exactly when the user is online, and to their socket |
| Realtime.Broadcast | backend/server.js:121-130 | never more emits than friends rows |
| Realtime.RegisteredCounts | backend/server.js:121-130 | each online user is reached as often as the rows list them, and offline users not at all |
| Realtime.BroadcastTargets | backend/server.js:121-130 | a broadcast is one emit of the event to the socket of each online row, in row order |
| Realtime.BroadcastEach | backend/server.js:121-130 | the `forEach` emits exactly the broadcast of the event over the rows |
| Realtime.MessageTrace | backend/server.js:45-70 | the message is stored first and `messageSent` comes last; one push more when the receiver is online |
| Realtime.SendMessage | backend/server.js:39-75 | stores the message, then pushes `newMessage` to an online receiver, then `messageSent` to the sender; a failed insert emits only `messageError` and stores nothing |
| Realtime.MessageDelivery | backend/server.js:45-70 | the message is stored before any emit; the receiver hears of it exactly when online; the acknowledgement comes last |
| Realtime.Hidden | backend/server.js:85-100 | hidden only when the stored flag is set; without a deadline exactly when it is set |
| Realtime.LocationTrace | backend/server.js:85-131 | the expiry write-back when due, then the location write, then at most one emit per friends row; nothing more when hidden |
| Realtime.StoreLocation | backend/server.js:102-106 | only the mover's row changes: coordinates and time of the update |
| Realtime.UpdateLocation | backend/server.js:78-135 | the expiry write-back when due, then the location write, then the broadcast to the friends rows unless the mover is hidden |
| Realtime.HiddenMoveIsSilent | backend/server.js:85-131 | a hidden user's move pushes nothing |
| Realtime.VisibleMoveReachesFriendsTwice | backend/server.js:109-130 | a visible move reaches every online friend twice and nobody else, after both writes |
| Realtime.VisibleMovePushes | backend/server.js:102-130 | the pushes of a visible move are exactly the broadcast; the writes push nothing |
| Realtime.FanOutSos | backend/server.js:172-197 | the loop appends one notification row per friend and yields, per friend, the write followed by the push if online |
| Realtime.SendSos | backend/server.js:138-204 | stores the alert, notifies and pushes friend by friend, then emits `sosSent`; a failed alert insert emits only `sosError` and writes nothing |
| Realtime.SosStepShape | backend/server.js:174-196 | one iteration writes the friend's notification and pushes at most once, to that friend |
| Realtime.SosFanoutNotifies | backend/server.js:172-197 | the loop writes one notification per friends row, in row order |
| Realtime.SosFanoutPushes | backend/server.js:172-197 | the pushes of the loop are exactly a broadcast of the alert to the friends online |
| Realtime.SosPushFollowsNotification | backend/server.js:172-197 | every push comes right after the notification written for the user it goes to |
| Realtime.SosTrace | backend/server.js:138-204 | the alert is stored first and `sosSent` comes last |
| Realtime.SosTraceShape | backend/server.js:138-204 | the trace notifies the friends in order, its pushes are the alert broadcast, and `sosSent` comes last |
| Realtime.SosTraceNotifies | backend/server.js:138-204 | the whole trace notifies exactly the friends rows, in order |
| Realtime.SosTracePushes | backend/server.js:138-204 | the pushes of the whole trace are the alert broadcast followed by `sosSent` |
| Realtime.SosReachesEachFriendOnce | backend/server.js:162-197 | every friend gets exactly one notification and, when online, exactly one push; nobody else gets either |
| Realtime.SosIgnoresGhostMode | backend/server.js:162-169 | changing any user's ghost-mode fields leaves the SOS audience unchanged |
| Paging.ReadPage | backend/controllers/notificationController.js:7-9 | page and limit are never 0; each is its parsed value when that is a non-zero integer, and 1 or the default limit when the parameter is missing, unreadable or reads as 0 |
| Paging.FetchableIff | backend/controllers/notificationController.js:7-16 | a request can be served iff page and limit are both positive |
| Paging.PositivePageOffset | backend/controllers/notificationController.js:9 | pages from the first on start at a non-negative offset |
| Paging.NegativePageOffset | backend/controllers/notificationController.js:9 | a page number below 0 asks for a negative offset |
| Paging.NoParametersFirstPage | backend/controllers/notificationController.js:7-9 | without parameters the first page of the default size is served |
| Paging.DecimalParameters | backend/controllers/chatController.js:8-9 | page and limit written as decimal numbers reach the query unchanged |
| Paging.Filter | backend/controllers/notificationController.js:30 | a WHERE clause keeps exactly the matching rows, as often as they occur |
| Paging.SortDesc | backend/controllers/notificationController.js:31 | ORDER BY ... DESC gives a permutation of the rows sorted by decreasing key |
| Paging.Window | backend/controllers/notificationController.js:32 | OFFSET/FETCH yields the rows from the offset, at most `limit` of them |
| Paging.Reverse | backend/controllers/chatController.js:40 | `reverse()` places row i at position n-1-i |
| Paging.RowOnItsPage | backend/controllers/notificationController.js:9-32 | row i is shown on page i / limit + 1 at position i % limit |
| Paging.OnePlacePerRow | backend/controllers/notificationController.js:9 | no row appears at two (page, position) places |
| Paging.ReverseSorted | backend/controllers/chatController.js:35-40 | reversing a newest-first list gives it oldest first |
| Paging.ReversedPage | backend/controllers/chatController.js:35-40 | a reversed page is sorted oldest first and holds rows of the list only |
| Paging.ReversedWindowAt | backend/controllers/chatController.js:36-40 | reversed, a window shows its j-th row j places from the end |
| Paging.WindowSorted | backend/controllers/notificationController.js:31-32 | a window of a sorted list is sorted |
| Paging.FirstWindowHasTop | backend/controllers/chatController.js:35-36 | the first window of a non-empty list holds its largest key |
| Notifications.ViewOf | backend/controllers/notificationController.js:18-29 | the view keeps id, read flag and time; the related name is present iff the related user exists |
| Notifications.Inbox | backend/controllers/notificationController.js:30-31 | the caller's notifications and only theirs, newest first |
| Notifications.Views | backend/controllers/notificationController.js:18-29 | one view per row, in order |
| Notifications.GetNotifications | backend/controllers/notificationController.js:4-40 | 500 iff page or limit is not positive; otherwise at most `limit` of the caller's notifications, newest first |
| Notifications.ViewsOfPage | backend/controllers/notificationController.js:17-33 | a page of the inbox shows the caller's notifications, newest first |
| Notifications.MarkOne | backend/controllers/notificationController.js:54-56 | a row is marked read only when both its id and its owner match |
| Notifications.MarkAll | backend/controllers/notificationController.js:76-78 | every unread row of the caller is marked read, and nothing else |
| Notifications.MarkingKeepsIds | backend/controllers/notificationController.js:50-57 | marking changes the read flag only, so the ids and the table invariant stay |
| Notifications.MarkAsRead | backend/controllers/notificationController.js:43-64 | the table scan leaves the table marked for that one id, and the reply is success |
| Notifications.MarkAllAsRead | backend/controllers/notificationController.js:67-86 | the table scan leaves all of the caller's rows read, and the reply is success |
| Notifications.UnreadCount | backend/controllers/notificationController.js:95-103 | the unread count never exceeds the number of rows; its value is fixed by `UnreadCountIsFilter` |
| Notifications.UnreadCountIsFilter | backend/controllers/notificationController.js:95-103 | the count is the number of rows addressed to the caller and unread, as the WHERE clause keeps them |
| Notifications.CreateNotification | backend/controllers/notificationController.js:111-132 | one unread row with the given fields is appended and returned; a failed insert writes nothing and passes the error on |
| Notifications.MarkAllClearsUnread | backend/controllers/notificationController.js:73-79 | afterwards the caller has nothing unread, and every other user's count is unchanged |
| Notifications.MarkOneLowersByOne | backend/controllers/notificationController.js:50-57 | with unique ids the caller's unread count drops by one iff the id names one of their unread rows |
| Notifications.CreateAddsOne | backend/controllers/notificationController.js:111-132 | a created notification adds one to its recipient's unread count and nothing to anyone else's |
| Notifications.PageShowsInbox | backend/controllers/notificationController.js:7-33 | page p, position j shows inbox place (p-1)*limit + j |
| Notifications.InboxIsMine | backend/controllers/notificationController.js:30 | a notification is in the inbox iff it is stored and addressed to the caller |
| Chat.ViewOf | backend/controllers/chatController.js:22-32 | the view keeps the message fields and adds the sender's name |
| Chat.Conversation | backend/controllers/chatController.js:31-35 | the messages between the two users whose sender exists, newest first, each as often as stored |
| Chat.Views | backend/controllers/chatController.js:22-32 | one view per message, in order |
| Chat.GetMessages | backend/controllers/chatController.js:4-49 | 500 iff the friend id is NaN or page/limit is not positive; otherwise at most `limit` messages of the conversation, oldest first; `PageShowsConversation` fixes the content of every page |
| Chat.PageShowsConversation | backend/controllers/chatController.js:7-40 | on page p of size `limit`, the j-th message from the end of the reply is conversation place (p-1)*limit + j, for every parameter that reads as p and `limit` |
| Chat.DecimalPageShowsConversation | backend/controllers/chatController.js:7-40 | the same for the decimal strings of the friend id, page and limit |
| Chat.ServedPage | backend/controllers/chatController.js:7-40 | the reply to a readable request is the views of the reversed window of the conversation |
| Chat.ReplyAtFromEnd | backend/controllers/chatController.js:35-40 | in the views of a reversed window, place j from the end shows the window's j-th message |
| Chat.ViewsOfPage | backend/controllers/chatController.js:35-44 | the views of a page keep its order and show messages of the conversation only |
| Chat.PageOfConversation | backend/controllers/chatController.js:31-40 | a reversed page holds messages of the conversation only, in time order |
| Chat.ConversationRow | backend/controllers/chatController.js:31-34 | every message of the conversation is stored and is between the two users |
| Chat.MarkFrom | backend/controllers/chatController.js:63-65 | exactly the friend's unread messages to the caller become read |
| Chat.MarkingKeepsIds | backend/controllers/chatController.js:59-66 | marking changes the read flag only, so the ids and the table invariant stay |
| Chat.MarkAsRead | backend/controllers/chatController.js:52-73 | a NaN friend id fails with 500 and no change; otherwise the table is marked and the reply is success |
| Chat.UnreadFrom | backend/controllers/chatController.js:85-90 | the per-sender unread count never exceeds the number of rows; its value is fixed by `UnreadFromIsFilter` |
| Chat.UnreadTo | backend/controllers/chatController.js:89 | the caller's unread total never exceeds the number of rows; its value is fixed by `UnreadToIsFilter` |
| Chat.UnreadFromIsFilter | backend/controllers/chatController.js:85-90 | a group's count is the number of unread messages from that sender to the caller |
| Chat.UnreadToIsFilter | backend/controllers/chatController.js:85-89 | the direct count is the number of unread messages to the caller |
| Chat.UnreadSenders | backend/controllers/chatController.js:85-91 | every sender of an unread message to the caller has a group, and every group has such a message |
| Chat.GroupsOf | backend/controllers/chatController.js:85-91 | one group per listed sender, with that sender's unread count |
| Chat.Total | backend/controllers/chatController.js:94 | the reduce is at least every group's count, and zero exactly when every group is |
| Chat.GetUnreadCount | backend/controllers/chatController.js:76-104 | each sender with unread messages is listed once with a positive count, and the total is all unread messages to the caller |
| Chat.SenderHasUnread | backend/controllers/chatController.js:85-91 | a sender listed by the GROUP BY has at least one unread message |
| Chat.GroupsGrow | backend/controllers/chatController.js:94 | one more message adds to the total exactly what it adds to its sender's group |
| Chat.TotalIsUnreadTo | backend/controllers/chatController.js:94 | the reduce over the groups counts every unread message once |
| Chat.ZeroGroups | backend/controllers/chatController.js:94 | with no messages the total is 0 |
| Chat.MarkFromClears | backend/controllers/chatController.js:63-65 | afterwards nothing from that friend is unread; other senders' counts and the caller's own messages are unchanged |
| Chat.ConversationSymmetric | backend/controllers/chatController.js:33-34 | the conversation is the same from either side |
| Chat.LatestPageEndsWithNewest | backend/controllers/chatController.js:35-40 | without a page parameter the answer ends with the newest message of the conversation |
| Chat.FirstPage | backend/controllers/chatController.js:7-40 | without paging parameters the answer is the newest 50 messages, oldest first |
| Auth.AccountOf | backend/controllers/authController.js:49-51 | the answer carries the row's id, username and e-mail |
| Auth.StoredEmail | backend/controllers/authController.js:39 | `email \|\| null` stores an e-mail iff it is non-empty, and then unchanged |
| Auth.Conflict | backend/controllers/authController.js:24-27 | the check query finds a row exactly when the new row would share its username, or its stored non-NULL e-mail, with an existing one |
| Auth.Register | backend/controllers/authController.js:17-57 | 400 and no write when the username or a non-empty e-mail is taken; otherwise one new row with the hashed password |
| Auth.RegisterKeepsUnique | backend/controllers/authController.js:24-31 | registration keeps usernames and non-NULL e-mails unique |
| Auth.LoginMatches | backend/controllers/authController.js:67-69 | the rows whose username or e-mail is the given name |
| Auth.PasswordMatches | backend/controllers/authController.js:78-85 | a plain-text password matches exactly when typed as stored, and a hashed one exactly when bcrypt's compare accepts |
| Auth.LoginAnswer | backend/controllers/authController.js:75-89 | success iff the password matches the stored one, hashed or legacy; otherwise the common 401 |
| Auth.Login | backend/controllers/authController.js:60-108 | an unknown name and a wrong password get the same 401; a success names a matching row whose password matches |
| Auth.RegisteredUserLogsIn | backend/controllers/authController.js:67-89 | after registering, the same username and password log in to the new account |
| Auth.WordIff | backend/controllers/authController.js:132 | a string is a `Word` exactly when no position holds a character `\s` matches |
| Auth.BlankIff | backend/controllers/authController.js:132 | a string is `Blank` exactly when every position holds a character `\s` matches |
| Auth.CollapseSpaces | backend/controllers/authController.js:132 | `replace(/\s+/g, '_')` leaves no white space, does not lengthen the name, and leaves a name without white space unchanged |
| Auth.CollapseKeepsWord | backend/controllers/authController.js:132 | characters outside a white-space run are copied unchanged and in order |
| Auth.CollapseLeadingRun | backend/controllers/authController.js:132 | a leading run of white space, however long, becomes exactly one '_' |
| Auth.CollapseRun | backend/controllers/authController.js:132 | a whole run of white space after a word becomes exactly one '_', the word is kept as it is, and the rest of the name is collapsed in turn |
| Auth.AllSpaceTrimmed | backend/controllers/authController.js:132 | the `\s+` match is greedy: it consumes the whole white-space run and stops at the first other character |
| Auth.GoogleUsername | backend/controllers/authController.js:132 | a derived username is the lower-cased collapsed name, then '_', then the clock's last digits (four once the clock has four); it holds no white space and no upper case |
| Auth.DecimalLength | backend/controllers/authController.js:132 | the clock's string has as many characters as digits, at least four from 1000 on |
| Auth.GoogleMatches | backend/controllers/authController.js:123-126 | the rows with the same Google id or the same e-mail; an absent claim matches nothing |
| Auth.LinkGoogle | backend/controllers/authController.js:149-155 | only the found row changes, gaining the Google id when it had none |
| Auth.GoogleCallback | backend/controllers/authController.js:111-175 | no match: a new account with the derived username, or 500 without a name; a match: that account, linked to the Google id |
| Auth.GoogleSignInFindsAccount | backend/controllers/authController.js:123-155 | after a first sign-in that found nothing and created the account, a second one finds exactly that account and changes nothing |
| Auth.EmailMatches | backend/controllers/authController.js:185-187 | the rows with the given e-mail |
| Auth.IssueToken | backend/controllers/authController.js:196-204 | only the found row changes: the token and a deadline one hour ahead |
| Auth.ForgotPassword | backend/controllers/authController.js:178-239 | 404 and no write for an unknown e-mail; otherwise the token is stored, and a mail failure answers 500 after the write |
| Auth.TokenHolders | backend/controllers/authController.js:249-251 | the rows that hold the token with a deadline still ahead |
| Auth.HoldsValidToken | backend/controllers/authController.js:284 | a consumed token, and any token from its deadline on by the database clock, validates nothing |
| Auth.VerifyResetToken | backend/controllers/authController.js:276-295 | valid iff some user holds the token unexpired; otherwise 400 |
| Auth.ConsumeToken | backend/controllers/authController.js:263-266 | only the holder's row changes: the new hash, and both token columns NULL |
| Auth.ResetPassword | backend/controllers/authController.js:242-273 | accepted exactly when the token is valid; then a holder gets the new hash and loses the token; otherwise nothing changes |
| Auth.TokenLastsOneHour | backend/controllers/authController.js:196-204 | when the database clock reads UTC, a freshly issued token is valid at every later instant before the deadline and at none after |
| Auth.TokenWindowUnderOffset | backend/controllers/authController.js:249-251 | with the database clock `offset` ahead of UTC, a fresh token is valid for one hour minus the offset, and from an offset of one hour on never |
| Auth.TokenIsSingleUse | backend/controllers/authController.js:263-266 | after a reset consumes the token, nobody holds it any more |
| Auth.ResetPasswordLogsIn | backend/controllers/authController.js:263-266 | after a reset the new password logs in |

## Left out

- Route handlers outside the core are not part of this model. These are `getProfile`, the REST `updateLocation`, `getDirections`, `getDistanceMultiMode`, `uploadAvatar` and `getAvatar`. They are routing, file upload or map-service calls, not state the core keeps.
- Authentication middleware, the connection pool, the Express and socket.io wiring, and the frontend are left out. They are infrastructure, or code outside the server core.
- Concurrency is left out: interleaved handlers, and the partial states between a handler's statements.
- A database error in the middle of a multi-statement handler is not modelled, except where a `dbOk`/`txOk` flag stands for it. The 500 answers of the other REST handlers are not modelled either.
- Sos.SendSos: a failure in the middle of the notification loop, which answers 500 after earlier rows were written, is not modelled.
- Realtime.SendSos: only the failure of the alert insert is modelled. A failure after it still emits `sosError`, but only after the earlier writes. That path is left out.
- Realtime.UpdateLocation: a failing statement is only logged. That path is left out.
- Coordinates are integers, because the handlers never compute on them, only store them and test their truthiness. Floating point is not modelled.
- SQL `Int` parameters are unbounded integers. A route id that is not a number fails the `Int` parameter, and that failure is not modelled for `markAsRead`, `resolveSOS` and the parental accept and reject handlers. The chat handlers and the friend-request accept and reject handlers do model it, and in `removeFriend` the `txOk` flag stands for it.
- `GETDATE()` and the JavaScript clock are one `now` parameter, except in `Auth.TokenWindowUnderOffset`. DateTime rounding to 1/300 second is not modelled.
- Auth.TokenLastsOneHour: holds only when the database server's clock reads UTC. The driver writes the deadline in UTC, but `GETDATE()` is the server's local time. `Auth.TokenWindowUnderOffset` states the window for any offset: one hour minus the offset.
- GhostMode.SetGhostMode: the `DateTime` range is taken as the UTC years 1753 to 9999, the bound of the driver's parameter type, which is not part of this model.
- The ordering of rows with equal `createdAt` is left out. SQL leaves it open; the model breaks ties by table order.
- FriendGraph.SearchUsers: returns every match as a set. `TOP 10` and `ORDER BY username` are not modelled. `LIKE` is read as plain substring search, so wildcard characters in the query and the collation's case folding are not modelled. The `q.length < 2` test counts characters, while JavaScript counts UTF-16 code units, so a one-character query outside the Basic Multilingual Plane (an emoji) is searched by the code and answered with nothing by the model.
- Sos.ActiveSosOver: the result is a multiset. The `ORDER BY createdAt DESC` of `getActiveSOS` is not modelled.
- Sos.GetActiveSos: its listing is stated as a multiset, like `Sos.ActiveSosOver`; the `ORDER BY createdAt DESC` is not modelled.
- GhostMode.GetFriends: the result is a set, in no order.
- FriendGraph.GetFriendRequests: the lists are sets, without their `ORDER BY createdAt DESC`.
- Parental.GetChildren: the result is a set, in no order.
- Collation: SQL Server's default collation compares NVARCHAR values without regard to case or trailing spaces. The members below compare exactly, so with "alice" stored, `register` of "Alice" is refused by the code and accepted by the model, and a login as "ALICE" succeeds in the code and fails in the model. The collation is set by the database, which is not part of this model.
- Auth.Conflict: compares usernames and e-mails exactly, not under the collation.
- Auth.Register: compares usernames and e-mails exactly, through `Auth.Conflict`.
- Auth.LoginMatches: compares the name with usernames and e-mails exactly.
- Auth.GoogleMatches: compares Google ids and e-mails exactly.
- Auth.EmailMatches: compares e-mails exactly.
- Auth.TokenHolders: compares tokens exactly, although the collation would also accept the hexadecimal token in upper case.
- FriendGraph.SendFriendRequest: looks the target up by exact username.
- Parental.SendParentalRequest: looks the child up by exact username.
- Js.ToLower: lowers ASCII letters only. JavaScript's full Unicode case mapping is not modelled.
- Signed JWTs in the login replies, the HTTP 201 status of `register`, and the reset e-mail body are not modelled.
- Google credential decoding (base64 and JSON) is not modelled. The model starts from the decoded claims.
- `register` with a missing username is not modelled. The username is always a string.
- The `avatar`, `isOnline` and `lastSeen` columns are not modelled. The handlers only pass them through.

## Findings

| source | as written | input that shows it | evidently intended | confidence | as-written member | corrected member |
|---|---|---|---|---|---|---|
| backend/controllers/userController.js:851-859 | after the guarded status UPDATE, `acceptParentalRequest` reads the link by id alone and sets the caller's `parentId` to its parent | user 4 accepts link 1, which asks child 3 to accept parent 2: the link stays pending, but user 4's `parentId` becomes 2 | set `parentId` only from a link that names the caller as its child, as the status UPDATE does | high; not executed | Parental.ForeignLinkExample | Parental.Adopt |

`Parental.AdoptAsWritten` is the step as the code performs it, and `Parental.AcceptParentalRequest` follows it. `Parental.ForeignLinkAdopts` proves the discrepancy for every foreign link. `Parental.Adopt` is the corrected step, and its contract proves that only the caller's own links change a `parentId`. For a child accepting their own link, `Parental.AcceptLinksChild` proves that the two steps agree.

=== FILE: auth.dfy ===
/** The account handlers of backend/controllers/authController.js: registration, login with
    a password that may still be stored in plain text, sign-in with a Google identity, and
    the reset-token lifecycle (issued for one hour, checked, consumed).

    bcrypt's `hash` and `compare`, `crypto.randomBytes` and the clock are parameters; the
    signed JWT and the e-mail body are not modelled. */
module Auth {
  import opened Common
  import opened Js
  import opened Schema

  /** What `register`, `login` and `googleCallback` hand back about the account. */
  datatype Account = Account(id: UserId, username: string, email: Option<string>)

  function AccountOf(id: UserId, u: User): (a: Account)
    ensures a.id == id && a.username == u.username && a.email == u.email
  {
    Account(id, u.username, u.email)
  }

  /** How long a reset link stays valid: one hour. */
  const ResetWindow: int := 3600000

  // ---------------------------------------------------------------------------------------
  // register

  /** The check query of `register`: the username is taken, or a non-empty e-mail is.
      A NULL e-mail in the table equals nothing. Put differently: the row `register` would
      insert shares its username or its stored (non-NULL) e-mail with an existing row. */
  predicate Conflict(rows: map<UserId, User>, username: string, email: Option<string>)
    ensures Conflict(rows, username, email) <==>
      exists id | id in rows :: rows[id].username == username
        || (StoredEmail(email).Some? && rows[id].email == StoredEmail(email))
  {
    exists id | id in rows ::
      rows[id].username == username || (TextOr(email, "") != "" && rows[id].email == Some(TextOr(email, "")))
  }

  /** `email || null`: an absent or empty e-mail is stored as NULL. */
  function StoredEmail(email: Option<string>): (r: Option<string>)
    ensures r.Some? <==> TruthyText(email)
    ensures r.Some? ==> r == email
  {
    if TruthyText(email) then email else None
  }

  /** No two accounts share a username, and no two share a (non-NULL) e-mail. */
  ghost predicate UniqueAccounts(rows: map<UserId, User>) {
    forall i, j | i in rows && j in rows && i != j ::
      rows[i].username != rows[j].username && (rows[i].email.Some? ==> rows[i].email != rows[j].email)
  }

  /** `register`: 400 when the username or the e-mail is taken; otherwise one new row with
      the bcrypt hash of the password, and the new account in the answer. */
  method Register(users: UserTable, username: string, email: Option<string>, password: string,
                  hash: string -> string)
    returns (r: Reply<Account>)
    requires users.Valid()
    modifies users
    ensures users.Valid()
    ensures Conflict(old(users.rows), username, email) ==>
      r == Err(400, DuplicateAccount) && users.rows == old(users.rows)
    ensures !Conflict(old(users.rows), username, email) ==>
      && r == Ok(Account(old(users.nextId), username, StoredEmail(email)))
      && old(users.nextId) !in old(users.rows)
      && users.rows == old(users.rows)[old(users.nextId) := NewUser(username, StoredEmail(email), hash(password), None)]
  {
    if Conflict(users.rows, username, email) {
      return Err(400, DuplicateAccount);
    }
    var stored := StoredEmail(email);
    var id := users.Insert(NewUser(username, stored, hash(password), None));
    r := Ok(Account(id, username, stored));
  }

  /** Registration keeps usernames and e-mails unique: the check query refuses exactly the
      rows that would clash. */
  lemma RegisterKeepsUnique(rows: map<UserId, User>, id: UserId, username: string, email: Option<string>,
                            hashed: string)
    requires UniqueAccounts(rows) && id !in rows && !Conflict(rows, username, email)
    ensures UniqueAccounts(rows[id := NewUser(username, StoredEmail(email), hashed, None)])
  {
    var after := rows[id := NewUser(username, StoredEmail(email), hashed, None)];
    forall i, j | i in after && j in after && i != j
      ensures after[i].username != after[j].username
      ensures after[i].email.Some? ==> after[i].email != after[j].email
    {
      if i == id {
        assert !(rows[j].username == username || (TextOr(email, "") != "" && rows[j].email == Some(TextOr(email, ""))));
      } else if j == id {
        assert !(rows[i].username == username || (TextOr(email, "") != "" && rows[i].email == Some(TextOr(email, ""))));
      }
    }
  }

  // ---------------------------------------------------------------------------------------
  // login

  /** The rows `login` finds: the name given is a username or an e-mail. */
  function LoginMatches(rows: map<UserId, User>, name: string): (r: set<UserId>)
    ensures forall id :: id in r <==> id in rows && (rows[id].username == name || rows[id].email == Some(name))
  {
    set id | id in rows && (rows[id].username == name || rows[id].email == Some(name))
  }

  /** A stored password that starts with "$2" is a bcrypt hash and goes through `compare`;
      any other is a password from before hashing and is compared as it stands. */
  predicate PasswordMatches(stored: string, given: string, compare: (string, string) -> bool)
    ensures !StartsWith(stored, "$2") ==> (PasswordMatches(stored, given, compare) <==> given == stored)
    ensures StartsWith(stored, "$2") ==> (PasswordMatches(stored, given, compare) <==> compare(given, stored))
  {
    if StartsWith(stored, "$2") then compare(given, stored) else stored == given
  }

  /** The answer for the row `login` looked at. */
  function LoginAnswer(id: UserId, u: User, password: string, compare: (string, string) -> bool)
    : (r: Reply<Account>)
    ensures r.Ok? <==> PasswordMatches(u.password, password, compare)
    ensures r.Ok? ==> r.value == AccountOf(id, u)
    ensures r.Err? ==> r == Err(401, BadCredentials)
  {
    if PasswordMatches(u.password, password, compare) then Ok(AccountOf(id, u))
    else Err(401, BadCredentials)
  }

  /** `login`: the first row found decides. An unknown name and a wrong password get the
      same 401, so the answer does not tell which accounts exist. */
  method Login(users: UserTable, name: string, password: string, compare: (string, string) -> bool)
    returns (r: Reply<Account>)
    ensures LoginMatches(users.rows, name) == {} ==> r == Err(401, BadCredentials)
    ensures LoginMatches(users.rows, name) != {} ==>
      exists id | id in LoginMatches(users.rows, name) :: r == LoginAnswer(id, users.rows[id], password, compare)
    ensures r.Err? ==> r == Err(401, BadCredentials)
    ensures r.Ok? ==>
      r.value.id in LoginMatches(users.rows, name) && PasswordMatches(users.rows[r.value.id].password, password, compare)
  {
    var found := LoginMatches(users.rows, name);
    if found == {} {
      return Err(401, BadCredentials);
    }
    ghost var some := Pick(found);
    var id :| id in found;
    r := LoginAnswer(id, users.rows[id], password, compare);
  }

  /** A bcrypt that recognises its own hashes. */
  ghost predicate HashRoundTrips(hash: string -> string, compare: (string, string) -> bool) {
    forall pw :: StartsWith(hash(pw), "$2") && compare(pw, hash(pw))
  }

  /** Register, then log in with the same username and password: the new account is the
      only match (unless its name is someone's e-mail) and the password is accepted. */
  lemma RegisteredUserLogsIn(rows: map<UserId, User>, id: UserId, username: string, email: Option<string>,
                             password: string, hash: string -> string, compare: (string, string) -> bool)
    requires id !in rows && !Conflict(rows, username, email)
    requires HashRoundTrips(hash, compare)
    requires forall j | j in rows :: rows[j].email != Some(username)
    ensures var after := rows[id := NewUser(username, StoredEmail(email), hash(password), None)];
      && LoginMatches(after, username) == {id}
      && LoginAnswer(id, after[id], password, compare) == Ok(Account(id, username, StoredEmail(email)))
  {
    var after := rows[id := NewUser(username, StoredEmail(email), hash(password), None)];
    forall j
      ensures j in LoginMatches(after, username) <==> j == id
    {
      if j in rows {
        assert !(rows[j].username == username || (TextOr(email, "") != "" && rows[j].email == Some(TextOr(email, ""))));
        assert after[j] == rows[j];
      }
    }
    assert StartsWith(hash(password), "$2") && compare(password, hash(password));
  }

  // ---------------------------------------------------------------------------------------
  // googleCallback

  /** `s` holds no white space. */
  predicate Word(s: string) {
    s == [] || (!IsSpace(s[0]) && Word(s[1..]))
  }

  /** `s` is white space throughout. */
  predicate Blank(s: string) {
    s == [] || (IsSpace(s[0]) && Blank(s[1..]))
  }

  /** `Word` is the absence of white space at every position. */
  lemma {:induction false} WordIff(s: string)
    ensures Word(s) <==> forall i | 0 <= i < |s| :: !IsSpace(s[i])
    decreases |s|
  {
    if s != [] {
      WordIff(s[1..]);
      assert forall i | 1 <= i < |s| :: s[i] == s[1..][i - 1];
    }
  }

  /** `Blank` is white space at every position. */
  lemma {:induction false} BlankIff(s: string)
    ensures Blank(s) <==> forall i | 0 <= i < |s| :: IsSpace(s[i])
    decreases |s|
  {
    if s != [] {
      BlankIff(s[1..]);
      assert forall i | 1 <= i < |s| :: s[i] == s[1..][i - 1];
    }
  }

  /** `replace(/\s+/g, '_')`: every run of white space becomes one '_'. */
  function CollapseSpaces(s: string): (r: string)
    ensures Word(r)
    ensures |r| <= |s|
    ensures Word(s) ==> r == s
    decreases |s|
  {
    if s == [] then []
    else if IsSpace(s[0]) then
      var r := "_" + CollapseSpaces(TrimStart(s[1..]));
      assert r[1..] == CollapseSpaces(TrimStart(s[1..]));
      r
    else
      var r := [s[0]] + CollapseSpaces(s[1..]);
      assert r[1..] == CollapseSpaces(s[1..]);
      r
  }

  /** A run of white space between a word and the rest of the name becomes one '_', and
      the rest is collapsed in turn. */
  lemma CollapseRun(w: string, run: string, rest: string)
    requires Word(w)
    requires run != [] && Blank(run)
    requires rest == [] || !IsSpace(rest[0])
    ensures CollapseSpaces(w + run + rest) == w + "_" + CollapseSpaces(rest)
  {
    Regroup(w, run, rest);
    CollapseKeepsWord(w, run + rest);
    CollapseLeadingRun(run, rest);
    Regroup(w, "_", CollapseSpaces(rest));
  }

  /** A prefix without white space is kept as it is. */
  lemma {:induction false} CollapseKeepsWord(w: string, t: string)
    requires Word(w)
    ensures CollapseSpaces(w + t) == w + CollapseSpaces(t)
    decreases |w|
  {
    if w == [] {
      assert w + t == t;
    } else {
      Regroup([w[0]], w[1..], t);
      assert [w[0]] + w[1..] == w;
      CollapseWordHead(w[0], w[1..] + t);
      CollapseKeepsWord(w[1..], t);
      Regroup([w[0]], w[1..], CollapseSpaces(t));
    }
  }

  /** Concatenation regroups freely. */
  lemma Regroup(a: string, b: string, c: string)
    ensures a + (b + c) == a + b + c
  {
  }

  /** A leading run of white space becomes one '_'. */
  lemma CollapseLeadingRun(run: string, rest: string)
    requires run != [] && Blank(run)
    requires rest == [] || !IsSpace(rest[0])
    ensures CollapseSpaces(run + rest) == "_" + CollapseSpaces(rest)
  {
    var t := run[1..] + rest;
    assert run + rest == [run[0]] + t;
    assert TrimStart(t) == rest by {
      AllSpaceTrimmed(run[1..], rest);
    }
    CollapseSpaceHead(run[0], t);
  }

  /** A white-space character starts a run that becomes one '_'. */
  lemma CollapseSpaceHead(c: char, t: string)
    requires IsSpace(c)
    ensures CollapseSpaces([c] + t) == "_" + CollapseSpaces(TrimStart(t))
  {
    assert ([c] + t)[1..] == t;
  }

  /** Any other character is kept. */
  lemma CollapseWordHead(c: char, t: string)
    requires !IsSpace(c)
    ensures CollapseSpaces([c] + t) == [c] + CollapseSpaces(t)
  {
    assert ([c] + t)[1..] == t;
  }

  /** Trimming skips a run of white space and stops at the first other character. */
  lemma {:induction false} AllSpaceTrimmed(run: string, rest: string)
    requires Blank(run)
    requires rest == [] || !IsSpace(rest[0])
    ensures TrimStart(run + rest) == rest
    decreases |run|
  {
    if run != [] {
      assert (run + rest)[1..] == run[1..] + rest;
      AllSpaceTrimmed(run[1..], rest);
    } else {
      assert run + rest == rest;
    }
  }

  /** The number of decimal digits of `n`, up to four. */
  function DigitsUpToFour(n: nat): (k: nat)
    ensures 1 <= k <= 4
  {
    if n < 10 then 1 else if n < 100 then 2 else if n < 1000 then 3 else 4
  }

  /** A name with no white space and no upper-case ASCII letter that ends in '_' and `k`
      decimal digits. */
  predicate DerivedUsername(r: string, k: nat) {
    && (forall i | 0 <= i < |r| :: !IsSpace(r[i]) && !('A' <= r[i] <= 'Z'))
    && k < |r| && r[|r| - k - 1] == '_'
    && (forall i | |r| - k <= i < |r| :: IsDecimalDigit(r[i]))
  }

  /** The username a first Google sign-in creates: the name with white space runs turned
      into '_', lower-cased, then '_' and the last four digits of the clock. It holds no
      white space and no upper-case ASCII letter, and ends in '_' and the clock's last
      digits: four of them once the clock has four digits. */
  function GoogleUsername(name: string, now: nat): (r: string)
    ensures DerivedUsername(r, DigitsUpToFour(now))
    ensures r[..|r| - DigitsUpToFour(now) - 1] == ToLower(CollapseSpaces(name))
  {
    var r := ToLower(CollapseSpaces(name)) + "_" + SliceLast(DecimalString(now), 4);
    UsernameShape(name, now, r);
    r
  }

  /** The shape `GoogleUsername` promises, proved on its parts. */
  lemma UsernameShape(name: string, now: nat, r: string)
    requires r == ToLower(CollapseSpaces(name)) + "_" + SliceLast(DecimalString(now), 4)
    ensures DerivedUsername(r, DigitsUpToFour(now))
    ensures r[..|r| - DigitsUpToFour(now) - 1] == ToLower(CollapseSpaces(name))
  {
    var lower := ToLower(CollapseSpaces(name));
    var tail := SliceLast(DecimalString(now), 4);
    assert |tail| == DigitsUpToFour(now) && DerivedUsername(r, |tail|) && r[..|lower|] == lower by {
      WordIff(CollapseSpaces(name));
      LowerKeepsNoSpace(CollapseSpaces(name));
      ClockTail(now);
      SuffixShape(lower, tail);
    }
  }

  /** The last four digits of the clock: as many as it has, up to four. */
  lemma ClockTail(now: nat)
    ensures var tail := SliceLast(DecimalString(now), 4);
      |tail| == DigitsUpToFour(now) && forall i | 0 <= i < |tail| :: IsDecimalDigit(tail[i])
  {
    DecimalLength(now);
    var d := DecimalString(now);
    var tail := SliceLast(d, 4);
    forall i | 0 <= i < |tail|
      ensures IsDecimalDigit(tail[i])
    {
      assert tail[i] == d[|d| - |tail| + i];
    }
  }

  /** Lower-casing a string without white space leaves no white space and no upper case. */
  lemma LowerKeepsNoSpace(s: string)
    requires forall i | 0 <= i < |s| :: !IsSpace(s[i])
    ensures forall i | 0 <= i < |ToLower(s)| :: !IsSpace(ToLower(s)[i]) && !('A' <= ToLower(s)[i] <= 'Z')
  {
    LowerIsIdempotent(s);
  }

  lemma SuffixShape(lower: string, tail: string)
    requires forall i | 0 <= i < |lower| :: !IsSpace(lower[i]) && !('A' <= lower[i] <= 'Z')
    requires forall i | 0 <= i < |tail| :: IsDecimalDigit(tail[i])
    ensures var r := lower + "_" + tail;
      && (forall i | 0 <= i < |r| :: !IsSpace(r[i]) && !('A' <= r[i] <= 'Z'))
      && r[|r| - |tail| - 1] == '_'
      && (forall i | |r| - |tail| <= i < |r| :: IsDecimalDigit(r[i]))
      && r[..|lower|] == lower
  {
    var r := lower + "_" + tail;
    assert r[..|lower|] == lower;
    forall i | 0 <= i < |r|
      ensures !IsSpace(r[i]) && !('A' <= r[i] <= 'Z')
    {
      if i < |lower| {
        assert r[i] == lower[i];
      } else if i > |lower| {
        assert r[i] == tail[i - |lower| - 1];
      }
    }
    forall i | |r| - |tail| <= i < |r|
      ensures IsDecimalDigit(r[i])
    {
      assert r[i] == tail[i - |lower| - 1];
    }
  }

  /** `n.toString()` has as many characters as `n` has digits; from 1000 on, at least four. */
  lemma {:induction false} DecimalLength(n: nat)
    ensures n < 1000 ==> |DecimalString(n)| == DigitsUpToFour(n)
    ensures n >= 1000 ==> |DecimalString(n)| >= 4
  {
    if n >= 10 {
      DecimalLength(n / 10);
      assert |DecimalString(n)| == |DecimalString(n / 10)| + 1;
    }
  }

  /** The rows the Google sign-in finds: same Google id, or same e-mail. An absent claim
      is NULL in the query and matches nothing. */
  function GoogleMatches(rows: map<UserId, User>, googleId: Option<string>, email: Option<string>)
    : (r: set<UserId>)
    ensures forall id :: id in r <==>
      id in rows && ((googleId.Some? && rows[id].googleId == googleId) || (email.Some? && rows[id].email == email))
  {
    set id | id in rows
      && ((googleId.Some? && rows[id].googleId == googleId) || (email.Some? && rows[id].email == email))
  }

  /** The found account, with the Google id written in when it had none. */
  function LinkGoogle(rows: map<UserId, User>, id: UserId, googleId: Option<string>): (r: map<UserId, User>)
    requires id in rows
    ensures r.Keys == rows.Keys
    ensures forall j | j in rows && j != id :: r[j] == rows[j]
    ensures TruthyText(rows[id].googleId) ==> r == rows
    ensures r[id] == rows[id].(googleId := if TruthyText(rows[id].googleId) then rows[id].googleId else googleId)
  {
    if TruthyText(rows[id].googleId) then rows else rows[id := rows[id].(googleId := googleId)]
  }

  /** `googleCallback`, from the decoded credential's claims on. No match: a new account with
      the derived username and the hash of a random secret as password; a missing name then
      fails the derivation and the handler answers 500. A match: the first row found, linked
      to the Google id if it had none. */
  method GoogleCallback(users: UserTable, googleId: Option<string>, email: Option<string>, name: Option<string>,
                        now: nat, secret: string, hash: string -> string)
    returns (r: Reply<Account>)
    requires users.Valid()
    modifies users
    ensures users.Valid()
    ensures GoogleMatches(old(users.rows), googleId, email) == {} && name.None? ==>
      r == Err(500, ServerError) && users.rows == old(users.rows)
    ensures GoogleMatches(old(users.rows), googleId, email) == {} && name.Some? ==>
      var u := NewUser(GoogleUsername(name.value, now), email, hash(secret), googleId);
      && r == Ok(AccountOf(old(users.nextId), u))
      && old(users.nextId) !in old(users.rows)
      && users.rows == old(users.rows)[old(users.nextId) := u]
    ensures GoogleMatches(old(users.rows), googleId, email) != {} ==>
      exists id | id in GoogleMatches(old(users.rows), googleId, email) ::
        r == Ok(AccountOf(id, old(users.rows)[id])) && users.rows == LinkGoogle(old(users.rows), id, googleId)
  {
    var found := GoogleMatches(users.rows, googleId, email);
    if found == {} {
      if name.None? {
        return Err(500, ServerError);
      }
      var u := NewUser(GoogleUsername(name.value, now), email, hash(secret), googleId);
      var id := users.Insert(u);
      return Ok(AccountOf(id, u));
    }
    ghost var some := Pick(found);
    var id :| id in found;
    var u := users.rows[id];
    users.rows := LinkGoogle(users.rows, id, googleId);
    r := Ok(AccountOf(id, u));
  }

  /** A second Google sign-in finds exactly the account the first one made, when the first
      found nothing and so created it: its Google id is stored, and linking an account that
      has one changes nothing. */
  lemma GoogleSignInFindsAccount(rows: map<UserId, User>, id: UserId, googleId: string, email: Option<string>,
                                 name: string, now: nat, hashed: string)
    requires id !in rows
    requires GoogleMatches(rows, Some(googleId), email) == {}
    ensures var after := rows[id := NewUser(GoogleUsername(name, now), email, hashed, Some(googleId))];
      GoogleMatches(after, Some(googleId), email) == {id}
    ensures googleId != "" ==>
      var after := rows[id := NewUser(GoogleUsername(name, now), email, hashed, Some(googleId))];
      LinkGoogle(after, id, Some(googleId)) == after
  {
    var u := NewUser(GoogleUsername(name, now), email, hashed, Some(googleId));
    OnlyInsertedMatches(rows, id, u, googleId, email);
  }

  /** Into a table where nothing matches, a row carrying the Google id becomes the only match. */
  lemma OnlyInsertedMatches(rows: map<UserId, User>, id: UserId, u: User, googleId: string, email: Option<string>)
    requires id !in rows && u.googleId == Some(googleId)
    requires GoogleMatches(rows, Some(googleId), email) == {}
    ensures GoogleMatches(rows[id := u], Some(googleId), email) == {id}
  {
    var after := rows[id := u];
    forall j | j in after
      ensures j in GoogleMatches(after, Some(googleId), email) <==> j == id
    {
      if j != id {
        assert j !in GoogleMatches(rows, Some(googleId), email);
      }
    }
  }

  // ---------------------------------------------------------------------------------------
  // The reset token

  /** The rows `forgotPassword` finds by e-mail. */
  function EmailMatches(rows: map<UserId, User>, email: Option<string>): (r: set<UserId>)
    ensures forall id :: id in r <==> id in rows && email.Some? && rows[id].email == email
  {
    set id | id in rows && email.Some? && rows[id].email == email
  }

  /** The user row after `forgotPassword` stored a token. */
  function IssueToken(rows: map<UserId, User>, id: UserId, token: string, now: Millis): (r: map<UserId, User>)
    requires id in rows
    ensures r.Keys == rows.Keys
    ensures forall j | j in rows && j != id :: r[j] == rows[j]
    ensures r[id] == rows[id].(resetToken := Some(token), resetExpires := Some(now + ResetWindow))
  {
    rows[id := rows[id].(resetToken := Some(token), resetExpires := Some(now + ResetWindow))]
  }

  /** `forgotPassword`: 404 and no write for an unknown e-mail; otherwise the token and its
      deadline one hour ahead are stored, and a failed mail answers 500 after that write. */
  method ForgotPassword(users: UserTable, email: Option<string>, token: string, now: Millis, mailOk: bool)
    returns (r: Reply<()>)
    requires users.Valid()
    modifies users
    ensures users.Valid()
    ensures EmailMatches(old(users.rows), email) == {} ==>
      r == Err(404, EmailNotFound) && users.rows == old(users.rows)
    ensures EmailMatches(old(users.rows), email) != {} ==>
      && (r == if mailOk then Ok(()) else Err(500, MailFailed))
      && exists id | id in EmailMatches(old(users.rows), email) ::
           users.rows == IssueToken(old(users.rows), id, token, now)
  {
    var found := EmailMatches(users.rows, email);
    if found == {} {
      return Err(404, EmailNotFound);
    }
    ghost var some := Pick(found);
    var id :| id in found;
    users.rows := IssueToken(users.rows, id, token, now);
    r := if mailOk then Ok(()) else Err(500, MailFailed);
  }

  /** The user holds this token and its deadline lies after `now`, the reading of the
      database clock (`> GETDATE()`). A consumed token, and any token from its deadline on,
      validates nothing. */
  predicate HoldsValidToken(u: User, token: Option<string>, now: Millis)
    ensures u.resetToken.None? ==> !HoldsValidToken(u, token, now)
    ensures u.resetExpires.Some? && now >= u.resetExpires.value ==> !HoldsValidToken(u, token, now)
  {
    token.Some? && u.resetToken == token && u.resetExpires.Some? && u.resetExpires.value > now
  }

  /** The rows `resetPassword` and `verifyResetToken` find. */
  function TokenHolders(rows: map<UserId, User>, token: Option<string>, now: Millis): (r: set<UserId>)
    ensures forall id :: id in r <==> id in rows && HoldsValidToken(rows[id], token, now)
  {
    set id | id in rows && HoldsValidToken(rows[id], token, now)
  }

  /** `verifyResetToken`: valid exactly when some user holds the token unexpired; reads only. */
  function VerifyResetToken(rows: map<UserId, User>, token: Option<string>, now: Millis): (r: Reply<()>)
    ensures r.Ok? <==> exists id | id in rows :: HoldsValidToken(rows[id], token, now)
    ensures r.Err? ==> r == Err(400, InvalidToken)
  {
    SomeHolder(rows, token, now);
    if TokenHolders(rows, token, now) == {} then Err(400, InvalidToken) else Ok(())
  }

  lemma SomeHolder(rows: map<UserId, User>, token: Option<string>, now: Millis)
    ensures TokenHolders(rows, token, now) != {} <==> exists id | id in rows :: HoldsValidToken(rows[id], token, now)
  {
    if TokenHolders(rows, token, now) != {} {
      var id := Pick(TokenHolders(rows, token, now));
    }
  }

  /** The user row after a reset: the new hash stored, both token columns NULL. */
  function ConsumeToken(rows: map<UserId, User>, id: UserId, hashed: string): (r: map<UserId, User>)
    requires id in rows
    ensures r.Keys == rows.Keys
    ensures forall j | j in rows && j != id :: r[j] == rows[j]
    ensures r[id] == rows[id].(password := hashed, resetToken := None, resetExpires := None)
  {
    rows[id := rows[id].(password := hashed, resetToken := None, resetExpires := None)]
  }

  /** `resetPassword`: accepted exactly when `verifyResetToken` would say valid; then the
      first holder gets the hash of the new password and loses the token. */
  method ResetPassword(users: UserTable, token: Option<string>, password: string, now: Millis,
                       hash: string -> string)
    returns (r: Reply<()>)
    requires users.Valid()
    modifies users
    ensures users.Valid()
    ensures r == VerifyResetToken(old(users.rows), token, now)
    ensures r.Err? ==> users.rows == old(users.rows)
    ensures r.Ok? ==> exists id | id in TokenHolders(old(users.rows), token, now) ::
      users.rows == ConsumeToken(old(users.rows), id, hash(password))
  {
    var found := TokenHolders(users.rows, token, now);
    if found == {} {
      return Err(400, InvalidToken);
    }
    ghost var some := Pick(found);
    var id :| id in found;
    users.rows := ConsumeToken(users.rows, id, hash(password));
    r := Ok(());
  }

  /** The deadline is written from the JavaScript clock in UTC, and read against `GETDATE()`,
      the database server's local time. When that clock runs `offset` milliseconds ahead of
      UTC, a fresh token is valid at real time `later` exactly when `later` lies less than one
      hour minus the offset after its issue; from an offset of one hour on, never. */
  lemma TokenWindowUnderOffset(rows: map<UserId, User>, id: UserId, token: string, issued: Millis,
                               later: Millis, offset: int)
    requires id in rows
    requires forall j | j in rows :: rows[j].resetToken != Some(token)
    ensures VerifyResetToken(IssueToken(rows, id, token, issued), Some(token), later + offset).Ok?
      <==> later < issued + ResetWindow - offset
  {
    var after := IssueToken(rows, id, token, issued);
    if later + offset < issued + ResetWindow {
      assert HoldsValidToken(after[id], Some(token), later + offset);
    } else {
      forall j | j in after
        ensures !HoldsValidToken(after[j], Some(token), later + offset)
      {
        if j != id {
          assert after[j] == rows[j];
        }
      }
    }
  }

  /** A token just issued with a fresh value is valid for exactly one hour when the database
      clock reads UTC: at any later instant before the deadline, and at none from it on. */
  lemma TokenLastsOneHour(rows: map<UserId, User>, id: UserId, token: string, issued: Millis, later: Millis)
    requires id in rows
    requires forall j | j in rows :: rows[j].resetToken != Some(token)
    ensures VerifyResetToken(IssueToken(rows, id, token, issued), Some(token), later).Ok?
      <==> later < issued + ResetWindow
  {
    TokenWindowUnderOffset(rows, id, token, issued, later, 0);
  }

  /** A reset token works once: after the reset consumed it, nobody holds it, when only
      one user held it (tokens are 32 random bytes). */
  lemma TokenIsSingleUse(rows: map<UserId, User>, id: UserId, token: string, hashed: string, later: Millis)
    requires id in rows && rows[id].resetToken == Some(token)
    requires forall j | j in rows && rows[j].resetToken == Some(token) :: j == id
    ensures VerifyResetToken(ConsumeToken(rows, id, hashed), Some(token), later) == Err(400, InvalidToken)
  {
    var after := ConsumeToken(rows, id, hashed);
    forall j | j in after
      ensures !HoldsValidToken(after[j], Some(token), later)
    {
      if j != id {
        assert after[j] == rows[j];
      }
    }
  }

  /** After a reset the new password logs in (when the name finds only this account). */
  lemma ResetPasswordLogsIn(rows: map<UserId, User>, id: UserId, password: string, name: string,
                            hash: string -> string, compare: (string, string) -> bool)
    requires id in rows && HashRoundTrips(hash, compare)
    requires LoginMatches(rows, name) == {id}
    ensures var after := ConsumeToken(rows, id, hash(password));
      && LoginMatches(after, name) == {id}
      && LoginAnswer(id, after[id], password, compare) == Ok(AccountOf(id, rows[id]))
  {
    var after := ConsumeToken(rows, id, hash(password));
    assert StartsWith(hash(password), "$2") && compare(password, hash(password));
    assert LoginMatches(after, name) == {id} by {
      forall j | j in after
        ensures j in LoginMatches(after, name) <==> j == id
      {
        assert j in LoginMatches(rows, name) <==> j == id;
      }
    }
  }
}

=== FILE: chat.dfy ===
/** The chat endpoints of backend/controllers/chatController.js: one conversation, paged
    newest first and handed out oldest first; marking a friend's messages read; the unread
    totals per sender. */
module Chat {
  import opened Common
  import opened Js
  import opened Schema
  import opened Paging

  /** `limit` when the query string gives none. */
  const DefaultLimit: int := 50

  /** One row of `getMessages`, with the sender's name from the INNER JOIN on Users. */
  datatype MessageView = MessageView(
    id: int, senderId: UserId, receiverId: UserId, message: string, isRead: bool, createdAt: Millis,
    senderName: string)

  function ViewOf(m: Message, users: map<UserId, User>): (v: MessageView)
    requires m.senderId in users
    ensures v.id == m.id && v.senderId == m.senderId && v.receiverId == m.receiverId
    ensures v.createdAt == m.createdAt && v.senderName == users[m.senderId].username
  {
    MessageView(m.id, m.senderId, m.receiverId, m.message, m.isRead, m.createdAt, users[m.senderId].username)
  }

  /** The message goes from one of the two users to the other. */
  predicate Between(me: UserId, friend: UserId, m: Message) {
    (m.senderId == me && m.receiverId == friend) || (m.senderId == friend && m.receiverId == me)
  }

  /** The WHERE clause of `getMessages`, with the INNER JOIN's demand that the sender exists. */
  predicate InConversation(users: map<UserId, User>, me: UserId, friend: UserId, m: Message) {
    Between(me, friend, m) && m.senderId in users
  }

  function SentAt(m: Message): Millis {
    m.createdAt
  }

  /** The conversation, newest first. */
  function Conversation(rows: seq<Message>, users: map<UserId, User>, me: UserId, friend: UserId)
    : (r: seq<Message>)
    ensures SortedDesc(r, SentAt)
    ensures forall m :: multiset(r)[m] == if InConversation(users, me, friend, m) then multiset(rows)[m] else 0
  {
    SortDesc(Filter(rows, m => InConversation(users, me, friend, m)), SentAt)
  }

  function Views(rows: seq<Message>, users: map<UserId, User>): (r: seq<MessageView>)
    requires forall i | 0 <= i < |rows| :: rows[i].senderId in users
    ensures |r| == |rows| && forall i | 0 <= i < |rows| :: r[i] == ViewOf(rows[i], users)
  {
    seq(|rows|, i requires 0 <= i < |rows| => ViewOf(rows[i], users))
  }

  /** `getMessages`: `friendId` is `parseInt` of the route parameter, and a NaN there fails
      the Int parameter of the query, like a negative offset or limit. */
  function GetMessages(rows: seq<Message>, users: map<UserId, User>, me: UserId, friendParam: Option<string>,
                       page: Option<string>, limit: Option<string>): (r: Reply<seq<MessageView>>)
    ensures var p := ReadPage(page, limit, DefaultLimit);
      && (r.Err? <==> ParseInt(friendParam).None? || !p.Fetchable())
      && (r.Err? ==> r == Err(500, ServerError))
      && (r.Ok? ==> |r.value| <= p.limit)
    ensures r.Ok? ==> forall i | 0 <= i < |r.value| :: ShowsRowOf(rows, users, me, ParseInt(friendParam).value, r.value[i])
    ensures r.Ok? ==> forall i, j | 0 <= i < j < |r.value| :: r.value[i].createdAt <= r.value[j].createdAt
  {
    var friend := ParseInt(friendParam);
    var p := ReadPage(page, limit, DefaultLimit);
    if friend.None? || !p.Fetchable() then Err(500, ServerError)
    else
      var shown := Reverse(Window(Conversation(rows, users, me, friend.value), p.Offset(), p.limit));
      PageOfConversation(rows, users, me, friend.value, p.Offset(), p.limit);
      ViewsOfPage(shown, rows, users, me, friend.value);
      Ok(Views(shown, users))
  }

  /** Page `page` of size `limit` holds the conversation's places `(page - 1) * limit`
      onward, newest first before the `reverse()`: its `j`-th newest message, the last
      but `j` of the reply, is conversation place `(page - 1) * limit + j`. This holds for
      any parameters that read as `friend`, `page` and `limit`, among them their decimal
      strings (`DecimalPageShowsConversation`). */
  lemma PageShowsConversation(rows: seq<Message>, users: map<UserId, User>, me: UserId,
                              friendParam: Option<string>, page: Option<string>, limit: Option<string>,
                              friend: UserId, p: PageRequest, j: nat)
    requires ParseInt(friendParam) == Some(friend) && ReadPage(page, limit, DefaultLimit) == p
    requires p.page > 0 && p.limit > 0 && j < p.limit
    requires p.Offset() + j < |Conversation(rows, users, me, friend)|
    ensures ShowsFromEnd(GetMessages(rows, users, me, friendParam, page, limit),
                         Conversation(rows, users, me, friend), p.Offset(), j, users)
  {
    assert p.Offset() >= 0 by {
      PositivePageOffset(p.page, p.limit);
    }
    ServedPage(rows, users, me, friendParam, page, limit, friend, p);
    ReplyAtFromEnd(GetMessages(rows, users, me, friendParam, page, limit), rows, users, me, friend,
                   p.Offset(), p.limit, j);
  }

  /** The reply succeeded, and its message `j` places from the end is the view of
      conversation place `offset + j`. */
  predicate ShowsFromEnd(r: Reply<seq<MessageView>>, conv: seq<Message>, offset: int, j: nat,
                         users: map<UserId, User>) {
    && r.Ok? && j < |r.value| && 0 <= offset && offset + j < |conv|
    && conv[offset + j].senderId in users
    && r.value[|r.value| - 1 - j] == ViewOf(conv[offset + j], users)
  }

  /** A request that can be served gets the reversed window of the conversation. */
  lemma ServedPage(rows: seq<Message>, users: map<UserId, User>, me: UserId,
                   friendParam: Option<string>, page: Option<string>, limit: Option<string>,
                   friend: UserId, p: PageRequest)
    requires ParseInt(friendParam) == Some(friend) && ReadPage(page, limit, DefaultLimit) == p
    requires p.Fetchable()
    ensures var shown := Reverse(Window(Conversation(rows, users, me, friend), p.Offset(), p.limit));
      && (forall i | 0 <= i < |shown| :: shown[i].senderId in users)
      && GetMessages(rows, users, me, friendParam, page, limit) == Ok(Views(shown, users))
  {
    PageOfConversation(rows, users, me, friend, p.Offset(), p.limit);
  }

  /** A reply holding the reversed window at `offset` has, `j` places from its end, the
      view of conversation place `offset + j`. */
  lemma ReplyAtFromEnd(r: Reply<seq<MessageView>>, rows: seq<Message>, users: map<UserId, User>,
                       me: UserId, friend: UserId, offset: nat, limit: nat, j: nat)
    requires j < limit && offset + j < |Conversation(rows, users, me, friend)|
    requires var shown := Reverse(Window(Conversation(rows, users, me, friend), offset, limit));
      && (forall i | 0 <= i < |shown| :: shown[i].senderId in users)
      && r == Ok(Views(shown, users))
    ensures ShowsFromEnd(r, Conversation(rows, users, me, friend), offset, j, users)
  {
    var conv := Conversation(rows, users, me, friend);
    assert conv[offset + j].senderId in users by {
      ConversationRow(rows, users, me, friend, conv[offset + j]);
    }
    var shown := Reverse(Window(conv, offset, limit));
    ViewAtFromEnd(shown, conv, users, offset, limit, j);
  }

  /** With decimal parameters, the reply's last but `j` message is conversation place
      `(page - 1) * limit + j`. */
  lemma DecimalPageShowsConversation(rows: seq<Message>, users: map<UserId, User>, me: UserId,
                                     friend: nat, page: nat, limit: nat, j: nat)
    requires page > 0 && limit > 0 && j < limit
    requires PageRequest(page, limit).Offset() + j < |Conversation(rows, users, me, friend)|
    ensures ShowsFromEnd(GetMessages(rows, users, me, Some(DecimalString(friend)),
                                     Some(DecimalString(page)), Some(DecimalString(limit))),
                         Conversation(rows, users, me, friend), PageRequest(page, limit).Offset(), j, users)
  {
    DecimalParameters(page, limit, DefaultLimit);
    ParseIntOfNumber(friend);
    PageShowsConversation(rows, users, me, Some(DecimalString(friend)), Some(DecimalString(page)),
                          Some(DecimalString(limit)), friend, PageRequest(page, limit), j);
  }

  /** The view `j` places from the end of a reversed window shows row `offset + j`. */
  lemma ViewAtFromEnd(shown: seq<Message>, conv: seq<Message>, users: map<UserId, User>,
                      offset: nat, limit: nat, j: nat)
    requires j < limit && offset + j < |conv| && conv[offset + j].senderId in users
    requires shown == Reverse(Window(conv, offset, limit))
    requires forall i | 0 <= i < |shown| :: shown[i].senderId in users
    ensures j < |Views(shown, users)|
    ensures Views(shown, users)[|Views(shown, users)| - 1 - j] == ViewOf(conv[offset + j], users)
  {
    ReversedWindowAt(conv, offset, limit, j);
  }

  /** The view shows a message of the conversation between `me` and `friend`. */
  ghost predicate ShowsRowOf(rows: seq<Message>, users: map<UserId, User>, me: UserId, friend: UserId, v: MessageView) {
    exists m | m in rows :: m.senderId in users && Between(me, friend, m) && v == ViewOf(m, users)
  }

  /** The views of a page keep its order and show messages of the conversation only. */
  lemma ViewsOfPage(shown: seq<Message>, rows: seq<Message>, users: map<UserId, User>, me: UserId, friend: UserId)
    requires SortedAsc(shown, SentAt)
    requires forall i | 0 <= i < |shown| :: shown[i] in rows && shown[i].senderId in users && Between(me, friend, shown[i])
    ensures forall i | 0 <= i < |shown| :: ShowsRowOf(rows, users, me, friend, Views(shown, users)[i])
    ensures forall i, j | 0 <= i < j < |shown| :: Views(shown, users)[i].createdAt <= Views(shown, users)[j].createdAt
  {
    forall i | 0 <= i < |shown|
      ensures ShowsRowOf(rows, users, me, friend, Views(shown, users)[i])
    {
      var m := shown[i];
      assert m in rows && m.senderId in users && Between(me, friend, m) && Views(shown, users)[i] == ViewOf(m, users);
    }
    forall i, j | 0 <= i < j < |shown|
      ensures Views(shown, users)[i].createdAt <= Views(shown, users)[j].createdAt
    {
      assert SentAt(shown[i]) <= SentAt(shown[j]);
    }
  }

  /** A page of the conversation, turned oldest first: messages of the conversation only,
      in order of time. */
  lemma PageOfConversation(rows: seq<Message>, users: map<UserId, User>, me: UserId, friend: UserId,
                           offset: nat, limit: nat)
    ensures var shown := Reverse(Window(Conversation(rows, users, me, friend), offset, limit));
      && SortedAsc(shown, SentAt)
      && forall i | 0 <= i < |shown| :: shown[i] in rows && InConversation(users, me, friend, shown[i])
  {
    var conv := Conversation(rows, users, me, friend);
    ReversedPage(conv, offset, limit, SentAt);
    var shown := Reverse(Window(conv, offset, limit));
    forall i | 0 <= i < |shown|
      ensures shown[i] in rows && InConversation(users, me, friend, shown[i])
    {
      ConversationRow(rows, users, me, friend, shown[i]);
    }
  }

  lemma ConversationRow(rows: seq<Message>, users: map<UserId, User>, me: UserId, friend: UserId, m: Message)
    requires m in Conversation(rows, users, me, friend)
    ensures m in rows && InConversation(users, me, friend, m)
  {
    assert m in multiset(Conversation(rows, users, me, friend));
    assert m in multiset(rows);
  }

  /** `markAsRead`: the friend's unread messages to the caller become read. */
  function MarkFrom(rows: seq<Message>, friend: UserId, me: UserId): (r: seq<Message>)
    ensures |r| == |rows|
    ensures forall k | 0 <= k < |rows| ::
      r[k] == if rows[k].senderId == friend && rows[k].receiverId == me && !rows[k].isRead
              then rows[k].(isRead := true) else rows[k]
  {
    seq(|rows|, k requires 0 <= k < |rows| =>
      if rows[k].senderId == friend && rows[k].receiverId == me && !rows[k].isRead
      then rows[k].(isRead := true) else rows[k])
  }

  /** Marking changes `isRead` only, so the ids, and with them the table invariant, stay. */
  lemma MarkingKeepsIds(before: seq<Message>, after: seq<Message>, friend: UserId, me: UserId)
    requires after == MarkFrom(before, friend, me)
    ensures MessageIds(after) == MessageIds(before)
  {
    assert forall k | 0 <= k < |before| :: after[k].id == before[k].id;
  }

  /** The UPDATE of `markAsRead`, a scan over the table; a NaN friend id fails it. */
  method MarkAsRead(table: MessageTable, me: UserId, friendParam: Option<string>) returns (r: Reply<()>)
    requires table.Valid()
    modifies table
    ensures table.Valid() && table.nextId == old(table.nextId)
    ensures ParseInt(friendParam).None? ==> r == Err(500, ServerError) && table.rows == old(table.rows)
    ensures ParseInt(friendParam).Some? ==>
      r == Ok(()) && table.rows == MarkFrom(old(table.rows), ParseInt(friendParam).value, me)
  {
    var friend := ParseInt(friendParam);
    if friend.None? {
      return Err(500, ServerError);
    }
    var k := 0;
    while k < |table.rows|
      invariant 0 <= k <= |table.rows| == |old(table.rows)|
      invariant table.nextId == old(table.nextId)
      invariant forall i | 0 <= i < |table.rows| ::
        table.rows[i] == if i < k then MarkFrom(old(table.rows), friend.value, me)[i] else old(table.rows)[i]
    {
      var m := table.rows[k];
      if m.senderId == friend.value && m.receiverId == me && !m.isRead {
        table.rows := table.rows[k := m.(isRead := true)];
      }
      k := k + 1;
    }
    MarkingKeepsIds(old(table.rows), table.rows, friend.value, me);
    r := Ok(());
  }

  /** The WHERE clause of one `GROUP BY senderId` group: from `sender` to `me`, unread. */
  function UnreadFromTo(sender: UserId, me: UserId): Message -> bool {
    (m: Message) => m.senderId == sender && m.receiverId == me && !m.isRead
  }

  /** The WHERE clause of `getUnreadCount`: to `me`, unread. */
  function UnreadToMe(me: UserId): Message -> bool {
    (m: Message) => m.receiverId == me && !m.isRead
  }

  /** The unread messages `sender` sent to `me`: the `COUNT(*)` of the sender's group. */
  function UnreadFrom(rows: seq<Message>, sender: UserId, me: UserId): (c: nat)
    ensures c <= |rows|
  {
    if rows == [] then 0
    else
      var k := |rows| - 1;
      UnreadFrom(rows[..k], sender, me)
        + (if rows[k].senderId == sender && rows[k].receiverId == me && !rows[k].isRead then 1 else 0)
  }

  /** All unread messages to `me`. */
  function UnreadTo(rows: seq<Message>, me: UserId): (c: nat)
    ensures c <= |rows|
  {
    if rows == [] then 0
    else
      var k := |rows| - 1;
      UnreadTo(rows[..k], me) + (if rows[k].receiverId == me && !rows[k].isRead then 1 else 0)
  }
  /** Each group's count is the number of rows its WHERE clause keeps. */
  lemma {:induction false} UnreadFromIsFilter(rows: seq<Message>, sender: UserId, me: UserId)
    ensures UnreadFrom(rows, sender, me) == |Filter(rows, UnreadFromTo(sender, me))|
  {
    if rows != [] {
      UnreadFromIsFilter(rows[..|rows| - 1], sender, me);
    }
  }

  /** The direct count is the number of rows the WHERE clause of `getUnreadCount` keeps. */
  lemma {:induction false} UnreadToIsFilter(rows: seq<Message>, me: UserId)
    ensures UnreadTo(rows, me) == |Filter(rows, UnreadToMe(me))|
  {
    if rows != [] {
      UnreadToIsFilter(rows[..|rows| - 1], me);
    }
  }


  /** The groups of `GROUP BY senderId` over the unread messages to `me`: one per sender of
      such a message. */
  function UnreadSenders(rows: seq<Message>, me: UserId): (r: set<UserId>)
    ensures forall i | 0 <= i < |rows| && rows[i].receiverId == me && !rows[i].isRead :: rows[i].senderId in r
    ensures forall s | s in r :: exists i | 0 <= i < |rows| :: UnreadFromTo(s, me)(rows[i])
  {
    set m | m in rows && m.receiverId == me && !m.isRead :: m.senderId
  }

  datatype UnreadGroup = UnreadGroup(senderId: UserId, unreadCount: nat)

  datatype UnreadSummary = UnreadSummary(totalUnread: nat, byUser: seq<UnreadGroup>)

  /** One group per listed sender, in the listed order. */
  function GroupsOf(order: seq<UserId>, rows: seq<Message>, me: UserId): (g: seq<UnreadGroup>)
    ensures |g| == |order|
    ensures forall i | 0 <= i < |order| :: g[i] == UnreadGroup(order[i], UnreadFrom(rows, order[i], me))
  {
    if order == [] then []
    else
      var k := |order| - 1;
      GroupsOf(order[..k], rows, me) + [UnreadGroup(order[k], UnreadFrom(rows, order[k], me))]
  }

  /** `recordset.reduce((sum, r) => sum + r.unreadCount, 0)`: no group counts more than the
      total, and the total is zero exactly when every group is. */
  function Total(groups: seq<UnreadGroup>): (t: nat)
    ensures forall i | 0 <= i < |groups| :: groups[i].unreadCount <= t
    ensures t == 0 <==> forall i | 0 <= i < |groups| :: groups[i].unreadCount == 0
  {
    if groups == [] then 0
    else
      var k := |groups| - 1;
      Total(groups[..k]) + groups[k].unreadCount
  }

  function Senders(groups: seq<UnreadGroup>): (s: seq<UserId>)
    ensures |s| == |groups| && forall i | 0 <= i < |groups| :: s[i] == groups[i].senderId
  {
    seq(|groups|, i requires 0 <= i < |groups| => groups[i].senderId)
  }

  /** `getUnreadCount`: the database lists the groups in an order of its choosing. */
  method GetUnreadCount(table: MessageTable, me: UserId) returns (r: UnreadSummary)
    ensures multiset(Senders(r.byUser)) == multiset(UnreadSenders(table.rows, me))
    ensures forall i | 0 <= i < |r.byUser| ::
      r.byUser[i].unreadCount == UnreadFrom(table.rows, r.byUser[i].senderId, me) && r.byUser[i].unreadCount > 0
    ensures r.totalUnread == UnreadTo(table.rows, me)
  {
    var senders := UnreadSenders(table.rows, me);
    var order := Enumerate(senders);
    forall s | s in senders
      ensures s in order
    {
      assert s in multiset(order);
    }
    var groups := GroupsOf(order, table.rows, me);
    assert Senders(groups) == order;
    forall i | 0 <= i < |groups|
      ensures groups[i].unreadCount > 0
    {
      assert order[i] in multiset(order);
      SenderHasUnread(table.rows, me, order[i]);
    }
    assert Total(groups) == UnreadTo(table.rows, me) by {
      TotalIsUnreadTo(order, table.rows, me);
    }
    r := UnreadSummary(Total(groups), groups);
  }

  // ---------------------------------------------------------------------------------------
  // Properties

  /** A sender listed by the GROUP BY has at least one unread message to the caller. */
  lemma {:induction false} SenderHasUnread(rows: seq<Message>, me: UserId, s: UserId)
    requires s in UnreadSenders(rows, me)
    ensures UnreadFrom(rows, s, me) > 0
  {
    var k := |rows| - 1;
    if !(rows[k].senderId == s && rows[k].receiverId == me && !rows[k].isRead) {
      var m :| m in rows && m.receiverId == me && !m.isRead && m.senderId == s;
      var i :| 0 <= i < |rows| && rows[i] == m;
      assert i < k && rows[..k][i] == m;
      SenderHasUnread(rows[..k], me, s);
    }
  }

  /** One more message row adds to the groups exactly what it adds to its sender's group. */
  lemma {:induction false} GroupsGrow(order: seq<UserId>, rows: seq<Message>, m: Message, me: UserId)
    ensures Total(GroupsOf(order, rows + [m], me)) ==
      Total(GroupsOf(order, rows, me)) + (if m.receiverId == me && !m.isRead then multiset(order)[m.senderId] else 0)
  {
    assert (rows + [m])[..|rows|] == rows;
    if order != [] {
      var k := |order| - 1;
      GroupsGrow(order[..k], rows, m, me);
      assert GroupsOf(order, rows + [m], me)[..k] == GroupsOf(order[..k], rows + [m], me);
      assert GroupsOf(order, rows, me)[..k] == GroupsOf(order[..k], rows, me);
      assert order == order[..k] + [order[k]];
    }
  }

  /** `totalUnread` counts every unread message to the caller once, when the groups list
      each of their senders once. */
  lemma {:induction false} TotalIsUnreadTo(order: seq<UserId>, rows: seq<Message>, me: UserId)
    requires forall s :: multiset(order)[s] <= 1
    requires UnreadSenders(rows, me) <= set s | s in order
    ensures Total(GroupsOf(order, rows, me)) == UnreadTo(rows, me)
  {
    if rows == [] {
      ZeroGroups(order, me);
    } else {
      var k := |rows| - 1;
      var m := rows[k];
      assert rows == rows[..k] + [m];
      assert UnreadSenders(rows[..k], me) <= UnreadSenders(rows, me);
      TotalIsUnreadTo(order, rows[..k], me);
      GroupsGrow(order, rows[..k], m, me);
      if m.receiverId == me && !m.isRead {
        assert m.senderId in UnreadSenders(rows, me);
        assert m.senderId in order;
      }
    }
  }

  lemma {:induction false} ZeroGroups(order: seq<UserId>, me: UserId)
    ensures Total(GroupsOf(order, [], me)) == 0
  {
    if order != [] {
      var k := |order| - 1;
      ZeroGroups(order[..k], me);
      assert GroupsOf(order, [], me)[..k] == GroupsOf(order[..k], [], me);
    }
  }

  /** After `markAsRead` nothing from that friend is unread, the caller's own messages are
      untouched, and unread messages from anybody else stay unread. */
  lemma {:induction false} MarkFromClears(rows: seq<Message>, friend: UserId, me: UserId, other: UserId)
    requires other != friend
    ensures UnreadFrom(MarkFrom(rows, friend, me), friend, me) == 0
    ensures UnreadFrom(MarkFrom(rows, friend, me), other, me) == UnreadFrom(rows, other, me)
    ensures friend != me ==> forall k | 0 <= k < |rows| && rows[k].senderId == me :: MarkFrom(rows, friend, me)[k] == rows[k]
  {
    if rows != [] {
      var k := |rows| - 1;
      assert MarkFrom(rows, friend, me)[..k] == MarkFrom(rows[..k], friend, me);
      MarkFromClears(rows[..k], friend, me, other);
    }
  }

  /** The conversation is the same seen from either side. */
  lemma {:induction false} ConversationSymmetric(rows: seq<Message>, users: map<UserId, User>, me: UserId, friend: UserId)
    ensures Conversation(rows, users, me, friend) == Conversation(rows, users, friend, me)
  {
    SameFilter(rows, users, me, friend);
  }

  lemma {:induction false} SameFilter(rows: seq<Message>, users: map<UserId, User>, me: UserId, friend: UserId)
    ensures Filter(rows, m => InConversation(users, me, friend, m)) == Filter(rows, m => InConversation(users, friend, me, m))
  {
    if rows != [] {
      var k := |rows| - 1;
      var m := rows[k];
      SameFilter(rows[..k], users, me, friend);
      assert InConversation(users, me, friend, m) == InConversation(users, friend, me, m);
      assert Filter(rows, m => InConversation(users, me, friend, m))
          == Filter(rows[..k], m => InConversation(users, me, friend, m))
             + (if InConversation(users, me, friend, m) then [m] else []);
      assert Filter(rows, m => InConversation(users, friend, me, m))
          == Filter(rows[..k], m => InConversation(users, friend, me, m))
             + (if InConversation(users, friend, me, m) then [m] else []);
    }
  }

  /** Without a page parameter the caller gets the latest messages, ending with the newest
      one of the conversation. */
  lemma LatestPageEndsWithNewest(rows: seq<Message>, users: map<UserId, User>, me: UserId, friend: nat,
                                 m: Message)
    requires m in rows && InConversation(users, me, friend, m)
    ensures var r := GetMessages(rows, users, me, Some(DecimalString(friend)), None, None);
      r.Ok? && r.value != [] && r.value[|r.value| - 1].createdAt >= m.createdAt
  {
    var conv := Conversation(rows, users, me, friend);
    assert m in conv by {
      assert m in multiset(rows);
      assert m in multiset(conv);
    }
    var i :| 0 <= i < |conv| && conv[i] == m;
    var w := Window(conv, 0, DefaultLimit);
    assert w != [] && SentAt(w[0]) >= SentAt(conv[i]) by {
      FirstWindowHasTop(conv, DefaultLimit, SentAt);
    }
    var shown := Reverse(w);
    assert shown[|shown| - 1] == w[0];
    FirstPage(rows, users, me, friend);
    var views := Views(shown, users);
    assert views[|views| - 1].createdAt == w[0].createdAt;
  }

  /** Without paging parameters, `getMessages` shows the newest `DefaultLimit` messages. */
  lemma FirstPage(rows: seq<Message>, users: map<UserId, User>, me: UserId, friend: nat)
    ensures var shown := Reverse(Window(Conversation(rows, users, me, friend), 0, DefaultLimit));
      && (forall i | 0 <= i < |shown| :: shown[i].senderId in users)
      && GetMessages(rows, users, me, Some(DecimalString(friend)), None, None) == Ok(Views(shown, users))
  {
    ParseIntOfNumber(friend);
    NoParametersFirstPage(DefaultLimit);
    PageOfConversation(rows, users, me, friend, 0, DefaultLimit);
  }
}

=== FILE: common.dfy ===
/** Identifiers, handler replies and a set enumerator shared by every part of the backend. */
module Common {

  /** A row id of the Users table. */
  type UserId = int

  /** The id socket.io gives a connection. */
  type SocketId = string

  /** A point in time, in milliseconds. */
  type Millis = int

  /** A stored latitude or longitude. The handlers never compute on a coordinate; the only
      thing ever asked of one is its JavaScript truthiness, i.e. whether it is non-zero. */
  type Coord = int

  datatype Option<T> = None | Some(value: T)

  /** Why a handler answered with an error status instead of success. */
  datatype Reason =
    | MissingTarget        // neither a receiver id nor a username was given
    | UserNotFound
    | SelfRelation         // befriending or adopting oneself
    | AlreadyFriends
    | RequestPending       // a pending friend request already links the pair
    | RequestNotFound
    | LinkExists           // a parental link already exists for the pair
    | DuplicateAccount     // username or e-mail already registered
    | BadCredentials       // the one answer for an unknown login and a wrong password
    | EmailNotFound
    | InvalidToken         // reset token unknown or expired
    | MailFailed
    | ServerError          // a database statement failed

  /** What an Express handler sends back: a success payload, or a status code and a reason. */
  datatype Reply<T> = Ok(value: T) | Err(status: int, reason: Reason)

  /** The rows a SQL query returns come in an order the database chooses; this lists the
      elements of `s` in an arbitrary order, each exactly once. */
  method Enumerate<T>(s: set<T>) returns (order: seq<T>)
    ensures multiset(order) == multiset(s)
    ensures |order| == |s|
  {
    order := [];
    var rest := s;
    while rest != {}
      invariant rest <= s
      invariant multiset(order) + multiset(rest) == multiset(s)
      decreases |rest|
    {
      var x :| x in rest;
      assert multiset(rest) == multiset(rest - {x}) + multiset{x};
      order := order + [x];
      rest := rest - {x};
    }
  }

  /** The rows of a query without DISTINCT: each element of the bag listed as often as it
      occurs, in an order the database chooses. */
  method EnumerateBag<T>(m: multiset<T>) returns (order: seq<T>)
    ensures multiset(order) == m
  {
    order := [];
    var rest := m;
    while rest != multiset{}
      invariant multiset(order) + rest == m
      decreases |rest|
    {
      var x :| x in rest;
      order := order + [x];
      rest := rest - multiset{x};
    }
  }

  /** Some element of a non-empty set. */
  ghost function Pick<T>(s: set<T>): (x: T)
    requires s != {}
    ensures x in s
  {
    var x :| x in s; x
  }

  /** An element listed by `Enumerate` occurs exactly once. */
  lemma EnumeratedOnce<T>(order: seq<T>, s: set<T>, x: T)
    requires multiset(order) == multiset(s)
    ensures multiset(order)[x] == (if x in s then 1 else 0)
    ensures x in order <==> x in s
  {
    assert x in multiset(order) <==> x in order;
  }
}

=== FILE: friend_graph.dfy ===
/** The friend graph of backend/controllers/userController.js: friend requests, the
    symmetric Friends table they feed, and the friendship status the user search reports. */
module FriendGraph {
  import opened Common
  import opened Js
  import opened Schema

  // ---------------------------------------------------------------------------------------
  // Relations the queries compute

  /** Users reached by a Friends row (me, v): the `f.userId = me AND f.friendId = u.id`
      half of the friends joins, restricted to existing users other than me. */
  function OutLinked(friends: set<(UserId, UserId)>, users: map<UserId, User>, me: UserId): (r: set<UserId>)
    ensures forall v :: v in r <==> (me, v) in friends && v in users && v != me
  {
    set p | p in friends && p.0 == me && p.1 in users && p.1 != me :: p.1
  }

  /** Users reaching me by a Friends row (v, me): the other half of the join. */
  function InLinked(friends: set<(UserId, UserId)>, users: map<UserId, User>, me: UserId): (r: set<UserId>)
    ensures forall v :: v in r <==> (v, me) in friends && v in users && v != me
  {
    set p | p in friends && p.1 == me && p.0 in users && p.0 != me :: p.0
  }

  /** The rows of a friends join without DISTINCT: the join condition is a disjunction, so a
      user appears once per matching Friends row, in either direction. */
  function LinkRows(friends: set<(UserId, UserId)>, users: map<UserId, User>, me: UserId): (r: multiset<UserId>)
    ensures forall v :: r[v] == (if (me, v) in friends && v in users && v != me then 1 else 0)
                              + (if (v, me) in friends && v in users && v != me then 1 else 0)
  {
    multiset(OutLinked(friends, users, me)) + multiset(InLinked(friends, users, me))
  }

  /** The same join with DISTINCT. */
  function Linked(friends: set<(UserId, UserId)>, users: map<UserId, User>, me: UserId): (r: set<UserId>)
    ensures forall v :: v in r <==> v in users && v != me && ((me, v) in friends || (v, me) in friends)
  {
    OutLinked(friends, users, me) + InLinked(friends, users, me)
  }

  /** A pending request from `s` to `t` exists. */
  predicate PendingFrom(requests: map<int, FriendRequest>, s: UserId, t: UserId) {
    exists id | id in requests :: requests[id].status == Pending
      && requests[id].senderId == s && requests[id].receiverId == t
  }

  /** A pending request links the unordered pair {a, b}. */
  predicate PendingBetween(requests: map<int, FriendRequest>, a: UserId, b: UserId) {
    exists id | id in requests :: requests[id].status == Pending && Links(requests[id], a, b)
  }

  // ---------------------------------------------------------------------------------------
  // sendFriendRequest

  /** `t` is the user the request names: by id when `receiverId` is truthy, otherwise by
      username when `friendUsername` is truthy. */
  predicate Resolves(users: map<UserId, User>, receiverId: Option<int>, friendUsername: Option<string>, t: UserId) {
    t in users &&
    if TruthyNumber(receiverId) then t == receiverId.value
    else TruthyText(friendUsername) && users[t].username == friendUsername.value
  }

  /** The row a successful request leaves for the pair: the pair's old row taken over (sender,
      receiver, status and creation time rewritten, `updatedAt` kept), or a new one. */
  ghost predicate RequestSent(before: map<int, FriendRequest>, after: map<int, FriendRequest>,
                              newId: int, me: UserId, f: UserId, now: Millis) {
    || (exists id | id in before && Links(before[id], me, f) ::
          after == before[id := before[id].(senderId := me, receiverId := f, status := Pending, createdAt := now)])
    || (newId !in before && after == before[newId := FriendRequest(me, f, Pending, now, None)])
  }

  /** `sendFriendRequest`. The out-parameter `target` is the user the lookup found. */
  method SendFriendRequest(db: Database, me: UserId, receiverId: Option<int>, friendUsername: Option<string>, now: Millis)
    returns (r: Reply<UserId>, target: Option<UserId>)
    requires db.Valid()
    modifies db.requests
    ensures db.Valid()
    ensures target.None? <==> forall t :: !Resolves(db.users.rows, receiverId, friendUsername, t)
    ensures target.Some? ==> Resolves(db.users.rows, receiverId, friendUsername, target.value)
    ensures target.None? ==>
      r == if !TruthyNumber(receiverId) && !TruthyText(friendUsername) then Err(400, MissingTarget)
           else Err(404, UserNotFound)
    ensures target.Some? ==>
      var f := target.value;
      r == if f == me then Err(400, SelfRelation)
           else if (me, f) in db.friends.rows then Err(400, AlreadyFriends)
           else if PendingBetween(old(db.requests.rows), me, f) then Err(400, RequestPending)
           else Ok(f)
    ensures r.Err? ==> db.requests.rows == old(db.requests.rows)
    ensures r.Ok? ==> RequestSent(old(db.requests.rows), db.requests.rows, old(db.requests.nextId), me, r.value, now)
    ensures r.Ok? ==> forall id | id in db.requests.rows && Links(db.requests.rows[id], me, r.value) ::
      db.requests.rows[id].senderId == me && db.requests.rows[id].receiverId == r.value
      && db.requests.rows[id].status == Pending
  {
    var users := db.users.rows;
    if TruthyNumber(receiverId) {
      if receiverId.value !in users {
        return Err(404, UserNotFound), None;
      }
      target := Some(receiverId.value);
    } else if TruthyText(friendUsername) {
      if !exists t :: t in users && users[t].username == friendUsername.value {
        return Err(404, UserNotFound), None;
      }
      var t :| t in users && users[t].username == friendUsername.value;
      target := Some(t);
    } else {
      return Err(400, MissingTarget), None;
    }
    var f := target.value;
    assert Resolves(users, receiverId, friendUsername, f);
    if f == me {
      return Err(400, SelfRelation), target;
    }
    if (me, f) in db.friends.rows {
      return Err(400, AlreadyFriends), target;
    }
    r := StoreRequest(db, me, f, now);
  }

  /** The FriendRequests part of `sendFriendRequest`, once the target is known and is not a
      friend: the row found for the pair refuses while pending and is otherwise turned into a
      pending request from `me`; without a row, a first one is added. */
  method StoreRequest(db: Database, me: UserId, f: UserId, now: Millis) returns (r: Reply<UserId>)
    requires db.Valid() && me != f && (me, f) !in db.friends.rows
    modifies db.requests
    ensures db.Valid()
    ensures r == if PendingBetween(old(db.requests.rows), me, f) then Err(400, RequestPending) else Ok(f)
    ensures r.Err? ==> db.requests.rows == old(db.requests.rows)
    ensures r.Ok? ==> RequestSent(old(db.requests.rows), db.requests.rows, old(db.requests.nextId), me, f, now)
    ensures r.Ok? ==> forall id | id in db.requests.rows && Links(db.requests.rows[id], me, f) ::
      db.requests.rows[id].senderId == me && db.requests.rows[id].receiverId == f
      && db.requests.rows[id].status == Pending
  {
    var rows := db.requests.rows;
    if exists id :: id in rows && Links(rows[id], me, f) {
      var id :| id in rows && Links(rows[id], me, f);
      if rows[id].status == Pending {
        return Err(400, RequestPending);
      }
      assert !PendingBetween(rows, me, f) by {
        forall j | j in rows && Links(rows[j], me, f)
          ensures j == id
        {
          assert SamePair(rows[j], rows[id]);
        }
      }
      db.requests.rows := rows[id := rows[id].(senderId := me, receiverId := f, status := Pending, createdAt := now)];
      assert RequestSent(rows, db.requests.rows, db.requests.nextId, me, f, now);
      SentKeepsInvariants(rows, db.requests.rows, id, me, f);
    } else {
      var id := db.requests.nextId;
      db.requests.rows := rows[id := FriendRequest(me, f, Pending, now, None)];
      db.requests.nextId := id + 1;
      SentKeepsInvariants(rows, db.requests.rows, id, me, f);
    }
    r := Ok(f);
  }

  /** Replacing the pair's only row, or adding the pair's first row, keeps one row per pair. */
  lemma SentKeepsInvariants(before: map<int, FriendRequest>, after: map<int, FriendRequest>,
                            id: int, me: UserId, f: UserId)
    requires UniquePairs(before) && me != f
    requires id in after && after == before[id := after[id]]
    requires after[id].senderId == me && after[id].receiverId == f
    requires forall j | j in before && j != id :: !Links(before[j], me, f)
    ensures UniquePairs(after)
    ensures forall j | j in after && Links(after[j], me, f) :: j == id
  {
    forall i, j | i in after && j in after && SamePair(after[i], after[j])
      ensures i == j
    {
      if i != id && j != id {
        assert SamePair(before[i], before[j]);
      }
    }
  }

  // ---------------------------------------------------------------------------------------
  // getFriendRequests, acceptFriendRequest, rejectFriendRequest, removeFriend

  datatype RequestView = RequestView(id: int, otherId: UserId, createdAt: Millis, otherUsername: string)

  /** `getFriendRequests`: the pending requests the caller received, each with its sender's
      name, and those the caller sent, each with its receiver's name. */
  function GetFriendRequests(requests: map<int, FriendRequest>, users: map<UserId, User>, me: UserId)
    : (r: (set<RequestView>, set<RequestView>))
    ensures forall v | v in r.0 ::
      (v.id in requests && requests[v.id].receiverId == me && requests[v.id].status == Pending
       && v.otherId == requests[v.id].senderId && v.otherId in users)
    ensures forall v | v in r.1 ::
      (v.id in requests && requests[v.id].senderId == me && requests[v.id].status == Pending
       && v.otherId == requests[v.id].receiverId && v.otherId in users)
    ensures forall id | id in requests && requests[id].status == Pending && requests[id].receiverId == me
      && requests[id].senderId in users :: exists v | v in r.0 :: v.id == id
    ensures forall id | id in requests && requests[id].status == Pending && requests[id].senderId == me
      && requests[id].receiverId in users :: exists v | v in r.1 :: v.id == id
  {
    var received := set id | id in requests && requests[id].receiverId == me && requests[id].status == Pending
      && requests[id].senderId in users
      :: RequestView(id, requests[id].senderId, requests[id].createdAt, users[requests[id].senderId].username);
    var sent := set id | id in requests && requests[id].senderId == me && requests[id].status == Pending
      && requests[id].receiverId in users
      :: RequestView(id, requests[id].receiverId, requests[id].createdAt, users[requests[id].receiverId].username);
    assert forall id | id in requests && requests[id].status == Pending && requests[id].receiverId == me
      && requests[id].senderId in users ::
      RequestView(id, requests[id].senderId, requests[id].createdAt, users[requests[id].senderId].username) in received;
    assert forall id | id in requests && requests[id].status == Pending && requests[id].senderId == me
      && requests[id].receiverId in users ::
      RequestView(id, requests[id].receiverId, requests[id].createdAt, users[requests[id].receiverId].username) in sent;
    (received, sent)
  }

  /** The pending request `requestId` that `me` received, from a sender who still exists:
      what the SELECT of `acceptFriendRequest` finds. */
  predicate Acceptable(requests: map<int, FriendRequest>, users: map<UserId, User>, me: UserId, requestId: int) {
    requestId in requests && requests[requestId].receiverId == me
    && requests[requestId].status == Pending && requests[requestId].senderId in users
  }

  /** `acceptFriendRequest`: only the receiver of a pending request whose sender still exists
      may accept it; the status change and both Friends rows commit together or not at all.
      The route parameter goes through `parseInt`; NaN fails the `Int` parameter of the first
      query, and the handler answers 500 without a write. */
  method AcceptFriendRequest(db: Database, me: UserId, requestParam: Option<string>, now: Millis, txOk: bool)
    returns (r: Reply<UserId>)
    requires db.Valid()
    modifies db.requests, db.friends
    ensures db.Valid()
    ensures var rows := old(db.requests.rows);
      var id := ParseInt(requestParam);
      var found := id.Some? && Acceptable(rows, db.users.rows, me, id.value);
      && (id.None? ==> r == Err(500, ServerError))
      && (id.Some? && !found ==> r == Err(404, RequestNotFound))
      && (found && !txOk ==> r == Err(500, ServerError))
      && (r.Err? ==> db.requests.rows == rows && db.friends.rows == old(db.friends.rows))
      && (found && txOk ==>
            var s := rows[id.value].senderId;
            && r == Ok(s)
            && db.requests.rows == rows[id.value := rows[id.value].(status := Accepted, updatedAt := Some(now))]
            && db.friends.rows == old(db.friends.rows) + {(s, me), (me, s)})
  {
    var parsed := ParseInt(requestParam);
    if parsed.None? {
      return Err(500, ServerError);
    }
    r := AcceptRequest(db, me, parsed.value, now, txOk);
  }

  /** The handler once the route id is a number. */
  method AcceptRequest(db: Database, me: UserId, requestId: int, now: Millis, txOk: bool) returns (r: Reply<UserId>)
    requires db.Valid()
    modifies db.requests, db.friends
    ensures db.Valid()
    ensures var rows := old(db.requests.rows);
      var found := Acceptable(rows, db.users.rows, me, requestId);
      && (!found ==> r == Err(404, RequestNotFound))
      && (found && !txOk ==> r == Err(500, ServerError))
      && (r.Err? ==> db.requests.rows == rows && db.friends.rows == old(db.friends.rows))
      && (found && txOk ==>
            var s := rows[requestId].senderId;
            && r == Ok(s)
            && db.requests.rows == rows[requestId := rows[requestId].(status := Accepted, updatedAt := Some(now))]
            && db.friends.rows == old(db.friends.rows) + {(s, me), (me, s)})
  {
    var rows := db.requests.rows;
    if !Acceptable(rows, db.users.rows, me, requestId) {
      return Err(404, RequestNotFound);
    }
    if !txOk {
      return Err(500, ServerError);
    }
    var s := rows[requestId].senderId;
    db.requests.rows := rows[requestId := rows[requestId].(status := Accepted, updatedAt := Some(now))];
    db.friends.rows := db.friends.rows + {(s, me), (me, s)};
    forall id | id in db.requests.rows && db.requests.rows[id].status == Pending
      ensures (db.requests.rows[id].senderId, db.requests.rows[id].receiverId) !in db.friends.rows
    {
      assert id != requestId;
      assert !SamePair(rows[id], rows[requestId]);
    }
    r := Ok(s);
  }

  /** `rejectFriendRequest`: the receiver declines or the sender withdraws a pending request;
      the row is deleted. A route parameter `parseInt` cannot read answers 500. */
  method RejectFriendRequest(db: Database, me: UserId, requestParam: Option<string>) returns (r: Reply<()>)
    requires db.Valid()
    modifies db.requests
    ensures db.Valid()
    ensures var rows := old(db.requests.rows);
      var id := ParseInt(requestParam);
      var found := id.Some? && id.value in rows && rows[id.value].status == Pending
        && (rows[id.value].receiverId == me || rows[id.value].senderId == me);
      && (id.None? ==> r == Err(500, ServerError) && db.requests.rows == rows)
      && (found ==> r == Ok(()) && db.requests.rows == rows - {id.value})
      && (id.Some? && !found ==> r == Err(404, RequestNotFound) && db.requests.rows == rows)
  {
    var parsed := ParseInt(requestParam);
    if parsed.None? {
      return Err(500, ServerError);
    }
    var requestId := parsed.value;
    var rows := db.requests.rows;
    if requestId in rows && rows[requestId].status == Pending
       && (rows[requestId].receiverId == me || rows[requestId].senderId == me) {
      db.requests.rows := rows - {requestId};
      r := Ok(());
    } else {
      r := Err(404, RequestNotFound);
    }
  }

  /** `removeFriend`: both directed rows go in one transaction; succeeds also when the two
      were not friends. */
  method RemoveFriend(db: Database, me: UserId, friendId: UserId, txOk: bool) returns (r: Reply<()>)
    requires db.Valid()
    modifies db.friends
    ensures db.Valid()
    ensures txOk ==> r == Ok(()) && db.friends.rows == old(db.friends.rows) - {(me, friendId), (friendId, me)}
    ensures !txOk ==> r == Err(500, ServerError) && db.friends.rows == old(db.friends.rows)
  {
    if !txOk {
      return Err(500, ServerError);
    }
    db.friends.rows := db.friends.rows - {(me, friendId), (friendId, me)};
    r := Ok(());
  }

  // ---------------------------------------------------------------------------------------
  // searchUsers

  datatype FriendStatus = IsFriend | RequestSentTo | RequestReceivedFrom | NoRelation

  /** The CASE of `searchUsers`: a Friends row from the caller wins, then a pending request
      in either direction, told apart by its sender. */
  function Classify(friends: set<(UserId, UserId)>, requests: map<int, FriendRequest>, me: UserId, u: UserId)
    : (s: FriendStatus)
    ensures s == IsFriend <==> (me, u) in friends
    ensures s == RequestSentTo ==> PendingFrom(requests, me, u)
    ensures s == RequestReceivedFrom ==> PendingFrom(requests, u, me)
    ensures s == NoRelation ==> (me, u) !in friends && !PendingBetween(requests, me, u)
  {
    if (me, u) in friends then IsFriend
    else if PendingFrom(requests, me, u) then RequestSentTo
    else if PendingFrom(requests, u, me) then RequestReceivedFrom
    else NoRelation
  }

  /** `part` occurs in `s` starting at index i. */
  predicate OccursAt(s: string, part: string, i: int) {
    0 <= i && i + |part| <= |s| && s[i..i + |part|] == part
  }

  /** `s LIKE '%part%'`, read as plain substring search. */
  predicate Contains(s: string, part: string) {
    exists i | 0 <= i <= |s| - |part| :: OccursAt(s, part, i)
  }

  datatype SearchHit = SearchHit(id: UserId, username: string, status: FriendStatus)

  /** `searchUsers`: nothing for a missing or one-character query; otherwise every other user
      whose name contains the query, with the caller's friendship status towards them. */
  function SearchUsers(users: map<UserId, User>, friends: set<(UserId, UserId)>,
                       requests: map<int, FriendRequest>, me: UserId, q: Option<string>)
    : (r: set<SearchHit>)
    ensures (q.None? || |q.value| < 2) ==> r == {}
    ensures forall h | h in r ::
      (h.id in users && h.id != me && h.username == users[h.id].username
       && Contains(h.username, q.value) && h.status == Classify(friends, requests, me, h.id))
    ensures q.Some? && |q.value| >= 2 ==> forall id | id in users && id != me && Contains(users[id].username, q.value) ::
      SearchHit(id, users[id].username, Classify(friends, requests, me, id)) in r
  {
    if q.None? || |q.value| < 2 then {}
    else set id | id in users && id != me && Contains(users[id].username, q.value)
      :: SearchHit(id, users[id].username, Classify(friends, requests, me, id))
  }

  // ---------------------------------------------------------------------------------------
  // Properties

  /** On a consistent database the status is exact: exactly one of the four holds, a request
      is reported in the direction it was sent, and friends have no request pending. */
  lemma ClassificationIsExact(friends: set<(UserId, UserId)>, requests: map<int, FriendRequest>, me: UserId, u: UserId)
    requires me != u
    requires UniquePairs(requests) && PendingNotFriends(requests, friends) && Symmetric(friends)
    ensures Classify(friends, requests, me, u) == RequestSentTo <==> PendingFrom(requests, me, u)
    ensures Classify(friends, requests, me, u) == RequestReceivedFrom <==> PendingFrom(requests, u, me)
    ensures !(PendingFrom(requests, me, u) && PendingFrom(requests, u, me))
    ensures (me, u) in friends ==> !PendingBetween(requests, me, u)
  {
    if PendingFrom(requests, me, u) && PendingFrom(requests, u, me) {
      var i :| i in requests && requests[i].status == Pending && requests[i].senderId == me && requests[i].receiverId == u;
      var j :| j in requests && requests[j].status == Pending && requests[j].senderId == u && requests[j].receiverId == me;
      assert SamePair(requests[i], requests[j]);
    }
    if (me, u) in friends {
      assert (u, me) in friends;
      forall id | id in requests && requests[id].status == Pending
        ensures !Links(requests[id], me, u)
      {
      }
    }
  }

  /** Friends rows are symmetric, so a friend of me is reached by both halves of the join:
      every friends query without DISTINCT lists each friend twice, and DISTINCT once. */
  lemma {:induction false} EachFriendTwice(friends: set<(UserId, UserId)>, users: map<UserId, User>, me: UserId, v: UserId)
    requires Symmetric(friends) && Irreflexive(friends)
    ensures LinkRows(friends, users, me)[v] == (if (me, v) in friends && v in users then 2 else 0)
    ensures v in Linked(friends, users, me) <==> (me, v) in friends && v in users
  {
    if (me, v) in friends {
      assert (v, me) in friends && me != v;
    }
    if (v, me) in friends {
      assert (me, v) in friends;
    }
  }

  /** Accepting and then removing a friend restores the Friends table of before. */
  lemma AcceptThenRemove(friends: set<(UserId, UserId)>, s: UserId, me: UserId)
    requires (s, me) !in friends && (me, s) !in friends
    ensures (friends + {(s, me), (me, s)}) - {(me, s), (s, me)} == friends
  {
  }
}

=== FILE: ghost_mode.dfy ===
/** Ghost mode: a user hides their location, for a number of hours or until further notice.
    The flag is stored with an optional deadline; a deadline in the past makes the flag void,
    and two of the three places that test it also write the cleared state back
    (backend/server.js, backend/controllers/userController.js). */
module GhostMode {
  import opened Common
  import opened Js
  import opened Schema

  const HourMillis: int := 3600000

  /** The stored flag is set but its deadline has passed. The handlers compare
      `new Date(until) < new Date()`, so a deadline equal to the present has not passed. */
  predicate Expired(flag: bool, until: Option<Millis>, now: Millis)
    ensures !flag || until.None? ==> !Expired(flag, until, now)
    ensures until.Some? && until.value == now ==> !Expired(flag, until, now)
  {
    flag && until.Some? && until.value < now
  }

  /** Whether a user is hidden at `now`: the one visibility rule every handler applies. */
  predicate EffectiveGhost(flag: bool, until: Option<Millis>, now: Millis)
    ensures EffectiveGhost(flag, until, now) <==> flag && (until.None? || now <= until.value)
  {
    flag && !Expired(flag, until, now)
  }

  /** The first and the last millisecond the `DateTime` parameter type of the database
      driver accepts: the years 1753 to 9999 of the UTC calendar. */
  const MinDateTime: int := -6847804800000
  const MaxDateTime: int := 253402300799999

  predicate InDateTimeRange(t: Millis) {
    MinDateTime <= t <= MaxDateTime
  }

  /** The deadline `setGhostMode` stores: `now + h` hours when ghost mode is switched on, the
      duration is not 'forever' and `parseInt` reads an integer h from it; NULL otherwise. */
  function GhostDeadline(enabled: bool, duration: Option<string>, now: Millis): (r: Option<Millis>)
    ensures r.Some? <==> enabled && duration != Some("forever") && ParseInt(duration).Some?
    ensures r.Some? ==> r.value == now + ParseInt(duration).value * HourMillis
  {
    if enabled && duration != Some("forever") then
      var hours := ParseInt(duration);
      if hours.Some? then Some(now + hours.value * HourMillis) else None
    else None
  }

  /** The user row after the lazy expiry correction: flag cleared, deadline NULL. */
  function ClearGhost(u: User): (r: User)
    ensures !r.ghostMode && r.ghostModeUntil.None?
  {
    u.(ghostMode := false, ghostModeUntil := None)
  }

  /** The lazy expiry correction of `getGhostModeStatus` and of the socket `updateLocation`:
      the UPDATE runs only when the flag is set and its deadline has passed. */
  function WriteBackExpiry(rows: map<UserId, User>, id: UserId, now: Millis): (r: map<UserId, User>)
    ensures r.Keys == rows.Keys
    ensures forall j | j in rows && j != id :: r[j] == rows[j]
    ensures id in rows ==> r[id].ghostMode == EffectiveGhost(rows[id].ghostMode, rows[id].ghostModeUntil, now)
    ensures id in rows && !Expired(rows[id].ghostMode, rows[id].ghostModeUntil, now) ==> r[id] == rows[id]
  {
    if id in rows && Expired(rows[id].ghostMode, rows[id].ghostModeUntil, now)
    then rows[id := ClearGhost(rows[id])]
    else rows
  }

  datatype GhostSetting = GhostSetting(ghostMode: bool, ghostModeUntil: Option<Millis>)

  /** What `getGhostModeStatus` answers; `None` for the flag means `undefined` (no such user). */
  datatype GhostStatus = GhostStatus(ghostMode: Option<bool>, ghostModeUntil: Option<Millis>)

  /** `setGhostMode`: store `enabled ? 1 : 0` and the deadline, and echo both back. The
      UPDATE matches no row when the caller's row is gone. A deadline outside the range of
      the `DateTime` parameter fails the UPDATE, and the handler answers 500. */
  method SetGhostMode(users: UserTable, me: UserId, enabled: bool, duration: Option<string>, now: Millis)
    returns (r: Reply<GhostSetting>)
    requires users.Valid()
    modifies users
    ensures users.Valid()
    ensures var until := GhostDeadline(enabled, duration, now);
      && (until.Some? && !InDateTimeRange(until.value) ==>
            r == Err(500, ServerError) && users.rows == old(users.rows))
      && (until.None? || InDateTimeRange(until.value) ==>
            && r == Ok(GhostSetting(enabled, until))
            && users.rows == if me in old(users.rows)
                 then old(users.rows)[me := old(users.rows)[me].(ghostMode := enabled, ghostModeUntil := until)]
                 else old(users.rows))
  {
    var until := GhostDeadline(enabled, duration, now);
    if until.Some? && !InDateTimeRange(until.value) {
      return Err(500, ServerError);
    }
    if me in users.rows {
      users.rows := users.rows[me := users.rows[me].(ghostMode := enabled, ghostModeUntil := until)];
    }
    r := Ok(GhostSetting(enabled, until));
  }

  /** `getGhostModeStatus`: report the effective flag, writing the cleared state back when the
      deadline has passed. The reported deadline is the one read before the write-back, so an
      expired answer still carries the stale deadline. */
  method GetGhostModeStatus(users: UserTable, me: UserId, now: Millis) returns (r: GhostStatus)
    requires users.Valid()
    modifies users
    ensures users.Valid()
    ensures users.rows == WriteBackExpiry(old(users.rows), me, now)
    ensures me !in old(users.rows) ==> r == GhostStatus(None, None)
    ensures me in old(users.rows) ==>
      var u := old(users.rows)[me];
      r == GhostStatus(Some(EffectiveGhost(u.ghostMode, u.ghostModeUntil, now)), u.ghostModeUntil)
  {
    if me !in users.rows {
      return GhostStatus(None, None);
    }
    var u := users.rows[me];
    var isGhostMode := u.ghostMode;
    if Expired(isGhostMode, u.ghostModeUntil, now) {
      users.rows := users.rows[me := ClearGhost(u)];
      isGhostMode := false;
    }
    r := GhostStatus(Some(isGhostMode), u.ghostModeUntil);
  }

  /** One entry of the `getFriends` answer. */
  datatype FriendView = FriendView(
    id: UserId, username: string, location: Option<(Coord, Coord)>,
    lastUpdate: Option<Millis>, isGhostMode: bool)

  /** The record `getFriends` makes of a friend's row. It uses the visibility rule but never
      writes the correction back. */
  function FriendViewOf(id: UserId, u: User, now: Millis): (v: FriendView)
    ensures v.id == id && v.username == u.username
    ensures v.isGhostMode == EffectiveGhost(u.ghostMode, u.ghostModeUntil, now)
    ensures v.location.Some? <==>
      !EffectiveGhost(u.ghostMode, u.ghostModeUntil, now) && TruthyNumber(u.latitude) && TruthyNumber(u.longitude)
    ensures v.location.Some? ==> v.location.value == (u.latitude.value, u.longitude.value)
  {
    var hidden := EffectiveGhost(u.ghostMode, u.ghostModeUntil, now);
    var shown := !hidden && TruthyNumber(u.latitude) && TruthyNumber(u.longitude);
    FriendView(id, u.username,
      if shown then Some((u.latitude.value, u.longitude.value)) else None,
      u.lastUpdate, hidden)
  }

  /** `getFriends`: one record per Friends row leaving the caller whose target user exists. */
  function GetFriends(users: map<UserId, User>, friends: set<(UserId, UserId)>, me: UserId, now: Millis)
    : (r: set<FriendView>)
    ensures forall v | v in r :: (me, v.id) in friends && v.id in users && v == FriendViewOf(v.id, users[v.id], now)
    ensures forall f | (me, f) in friends && f in users :: FriendViewOf(f, users[f], now) in r
  {
    set p | p in friends && p.0 == me && p.1 in users :: FriendViewOf(p.1, users[p.1], now)
  }

  // ---------------------------------------------------------------------------------------
  // Properties

  /** After the write-back the stored flag is the effective one, and the decision taken at
      `now` is the same before and after it. */
  lemma WriteBackSettlesFlag(rows: map<UserId, User>, id: UserId, now: Millis)
    requires id in rows
    ensures var after := WriteBackExpiry(rows, id, now)[id];
      && after.ghostMode == EffectiveGhost(rows[id].ghostMode, rows[id].ghostModeUntil, now)
      && EffectiveGhost(after.ghostMode, after.ghostModeUntil, now) == EffectiveGhost(rows[id].ghostMode, rows[id].ghostModeUntil, now)
  {
  }

  /** Once a deadline has passed it stays passed: a user visible at `t1` is visible later. */
  lemma VisibleStaysVisible(flag: bool, until: Option<Millis>, t1: Millis, t2: Millis)
    requires t1 <= t2 && !EffectiveGhost(flag, until, t1)
    ensures !EffectiveGhost(flag, until, t2)
  {
  }

  /** The durations the client offers, "1h", "8h" and "24h", and every other "<h>h", give a
      deadline h hours ahead. */
  lemma {:induction false} DeadlineOfHours(h: nat, now: Millis)
    ensures GhostDeadline(true, Some(DecimalString(h) + "h"), now) == Some(now + h * HourMillis)
  {
    var d := DecimalString(h) + "h";
    assert d != "forever" by {
      assert d[0] == DecimalString(h)[0] && IsDecimalDigit(d[0]);
      assert "forever"[0] == 'f';
    }
    assert ParseInt(Some(d)) == Some(h) by {
      ParseIntOfDecimal(h, "h");
    }
  }

  /** Switched on for h hours at `now`, a user is hidden exactly up to and including the
      deadline, and visible from the millisecond after it. */
  lemma {:induction false} HiddenUntilDeadline(h: nat, now: Millis, later: Millis)
    ensures var until := GhostDeadline(true, Some(DecimalString(h) + "h"), now);
      EffectiveGhost(true, until, later) <==> later <= now + h * HourMillis
  {
    DeadlineOfHours(h, now);
  }

  /** The durations the client offers, up to 24 hours, store a deadline the `DateTime`
      parameter accepts whenever the clock is at least a day before the end of its range. */
  lemma {:induction false} OfferedDurationsFit(h: nat, now: Millis)
    requires h <= 24 && MinDateTime <= now <= MaxDateTime - 24 * HourMillis
    ensures var until := GhostDeadline(true, Some(DecimalString(h) + "h"), now);
      until.Some? && InDateTimeRange(until.value)
  {
    var until := GhostDeadline(true, Some(DecimalString(h) + "h"), now);
    assert until == Some(now + h * HourMillis) by {
      DeadlineOfHours(h, now);
    }
    assert h * HourMillis <= 24 * HourMillis by {
      assert HourMillis == 3600000;
    }
  }

  /** A duration of a hundred million hours, about 11,400 years, gives a deadline past the
      `DateTime` range from any clock reading after 1970, so `setGhostMode` answers 500. */
  lemma {:induction false} HugeDurationOverflows(now: Millis)
    requires now >= 0
    ensures var until := GhostDeadline(true, Some(DecimalString(100000000) + "h"), now);
      until.Some? && !InDateTimeRange(until.value)
  {
    var until := GhostDeadline(true, Some(DecimalString(100000000) + "h"), now);
    assert until == Some(now + 100000000 * HourMillis) by {
      DeadlineOfHours(100000000, now);
    }
  }
}

=== FILE: js.dfy ===
/** The pieces of JavaScript's own semantics the handlers lean on: `parseInt`, the `||`
    default idiom, `Number.prototype.toString`, `String.prototype.slice(-n)`,
    `startsWith`, the `\s` class of regular expressions and `toLowerCase`. */
module Js {
  import opened Common

  /** The characters `\s` matches and `parseInt` skips: ECMAScript WhiteSpace and
      LineTerminator. */
  predicate IsSpace(c: char) {
    c == ' ' || c == '\t' || c == '\n' || c == '\r' || c == '\U{000B}' || c == '\U{000C}'
    || c == '\U{00A0}' || c == '\U{1680}' || ('\U{2000}' <= c <= '\U{200A}')
    || c == '\U{2028}' || c == '\U{2029}' || c == '\U{202F}' || c == '\U{205F}'
    || c == '\U{3000}' || c == '\U{FEFF}'
  }

  function TrimStart(s: string): (r: string)
    ensures |r| <= |s| && r == s[|s| - |r|..]
    ensures r == [] || !IsSpace(r[0])
  {
    if s != [] && IsSpace(s[0]) then TrimStart(s[1..]) else s
  }

  predicate IsDecimalDigit(c: char) {
    '0' <= c <= '9'
  }

  /** The value of `c` as a digit in radices up to 36; 36 when it is no digit at all. */
  function DigitValue(c: char): (d: nat)
    ensures d <= 36
  {
    if '0' <= c <= '9' then c as int - '0' as int
    else if 'a' <= c <= 'z' then c as int - 'a' as int + 10
    else if 'A' <= c <= 'Z' then c as int - 'A' as int + 10
    else 36
  }

  /** The longest prefix of `s` made of digits of the given radix. */
  function DigitRun(s: string, radix: nat): (r: string)
    ensures |r| <= |s| && r == s[..|r|]
    ensures forall i :: 0 <= i < |r| ==> DigitValue(r[i]) < radix
    ensures |r| < |s| ==> DigitValue(s[|r|]) >= radix
  {
    if s != [] && DigitValue(s[0]) < radix then [s[0]] + DigitRun(s[1..], radix) else []
  }

  /** The number a digit string denotes, most significant digit first. */
  function Value(s: string, radix: nat): nat {
    if s == [] then 0 else Value(s[..|s| - 1], radix) * radix + DigitValue(s[|s| - 1])
  }

  /** `parseInt(x)` without a radix argument: skip leading white space, read one sign, read
      the hexadecimal prefix `0x`/`0X` if present, then the longest run of digits; NaN (here
      `None`) when that run is empty. `None` for the argument stands for `undefined`, which
      `parseInt` reads as the string "undefined". Either way, a text without any decimal
      digit is NaN. */
  function ParseInt(x: Option<string>): (r: Option<int>)
    ensures r.Some? ==> x.Some? && exists i | 0 <= i < |x.value| :: IsDecimalDigit(x.value[i])
  {
    if x.None? then None
    else
      var t := TrimStart(x.value);
      assert forall i | 0 <= i < |t| :: t[i] == x.value[|x.value| - |t| + i];
      if t != [] && t[0] == '-' then
        var m := ParseUnsigned(t[1..]);
        if m.None? then None else Some(0 - m.value as int)
      else if t != [] && t[0] == '+' then ParseUnsigned(t[1..])
      else ParseUnsigned(t)
  }

  /** What `parseInt` reads after the sign: hexadecimal behind `0x`/`0X`, decimal otherwise. */
  function ParseUnsigned(u: string): (r: Option<nat>)
    ensures r.Some? ==> exists i | 0 <= i < |u| :: IsDecimalDigit(u[i])
  {
    var hex := |u| >= 2 && u[0] == '0' && (u[1] == 'x' || u[1] == 'X');
    var radix := if hex then 16 else 10;
    var run := DigitRun(if hex then u[2..] else u, radix);
    if run == [] then None else Some(Value(run, radix))
  }

  /** `parseInt(x) || d`: NaN and 0 are both falsy, so both fall back to `d`. */
  function IntOr(p: Option<int>, d: int): (r: int)
    ensures r == d || (p.Some? && r == p.value && r != 0)
    ensures p.Some? && p.value != 0 ==> r == p.value
    ensures p.None? || p.value == 0 ==> r == d
  {
    if p.Some? && p.value != 0 then p.value else d
  }

  /** `s || d` for a string that may be `undefined` or `null` (`None`) or empty. */
  function TextOr(s: Option<string>, d: string): (r: string)
    ensures r == d || (s.Some? && r == s.value && r != [])
    ensures s.Some? && s.value != [] ==> r == s.value
    ensures s.None? || s.value == [] ==> r == d
  {
    if s.Some? && s.value != [] then s.value else d
  }

  /** JavaScript truthiness of an optional number column: NULL and 0 are falsy. */
  predicate TruthyNumber(x: Option<int>) {
    x.Some? && x.value != 0
  }

  /** JavaScript truthiness of an optional string column: NULL and '' are falsy. */
  predicate TruthyText(s: Option<string>) {
    s.Some? && s.value != []
  }

  function DigitChar(d: nat): (c: char)
    requires d < 10
    ensures IsDecimalDigit(c) && DigitValue(c) == d
  {
    ('0' as int + d) as char
  }

  /** `n.toString()` for a non-negative integer. */
  function DecimalString(n: nat): (s: string)
    ensures s != []
    ensures forall i :: 0 <= i < |s| ==> IsDecimalDigit(s[i])
    ensures s[0] == '0' ==> n == 0
  {
    if n < 10 then [DigitChar(n)] else DecimalString(n / 10) + [DigitChar(n % 10)]
  }

  /** `s.slice(-n)` for n > 0: the last n characters, or all of `s` when it is shorter. */
  function SliceLast(s: string, n: nat): (r: string)
    ensures |r| == if |s| < n then |s| else n
    ensures r == s[|s| - |r|..]
  {
    if |s| < n then s else s[|s| - n..]
  }

  function StartsWith(s: string, prefix: string): bool {
    |prefix| <= |s| && s[..|prefix|] == prefix
  }

  /** `toLowerCase` on the ASCII letters; every other character is kept. */
  function LowerChar(c: char): char {
    if 'A' <= c <= 'Z' then (c as int + 32) as char else c
  }

  function ToLower(s: string): (r: string)
    ensures |r| == |s|
    ensures forall i :: 0 <= i < |s| ==> r[i] == LowerChar(s[i])
  {
    if s == [] then [] else [LowerChar(s[0])] + ToLower(s[1..])
  }

  // ---------------------------------------------------------------------------------------
  // Properties

  /** `toString` and `parseInt` are inverse on non-negative integers, also when a unit
      follows the digits, as in the ghost-mode durations "1h", "8h", "24h". */
  lemma {:induction false} ParseIntOfDecimal(n: nat, unit: string)
    requires unit == [] || (!IsDecimalDigit(unit[0]) && unit[0] != 'x' && unit[0] != 'X')
    ensures ParseInt(Some(DecimalString(n) + unit)) == Some(n)
  {
    var d := DecimalString(n);
    var s := d + unit;
    assert s[0] == d[0] && IsDecimalDigit(s[0]);
    assert !IsSpace(s[0]);
    assert TrimStart(s) == s;
    assert !(|s| >= 2 && s[0] == '0' && (s[1] == 'x' || s[1] == 'X')) by {
      if |s| >= 2 && s[0] == '0' {
        assert n == 0 && |d| == 1;
        assert s[1] == unit[0];
      }
    }
    DigitRunOfDecimal(d, unit);
    ValueOfDecimal(n);
    assert ParseUnsigned(s) == Some(n);
  }

  /** `parseInt(n.toString())` is `n`. */
  lemma ParseIntOfNumber(n: nat)
    ensures ParseInt(Some(DecimalString(n))) == Some(n)
  {
    ParseIntOfDecimal(n, "");
    assert DecimalString(n) + "" == DecimalString(n);
  }

  lemma {:induction false} DigitRunOfDecimal(d: string, unit: string)
    requires forall i :: 0 <= i < |d| ==> IsDecimalDigit(d[i])
    requires unit == [] || !IsDecimalDigit(unit[0])
    ensures DigitRun(d + unit, 10) == d
  {
    if d != [] {
      assert (d + unit)[1..] == d[1..] + unit;
      DigitRunOfDecimal(d[1..], unit);
    } else {
      assert unit != [] ==> DigitValue(unit[0]) >= 10;
    }
  }

  lemma {:induction false} ValueOfDecimal(n: nat)
    ensures Value(DecimalString(n), 10) == n
  {
    if n >= 10 {
      var s := DecimalString(n);
      assert s[..|s| - 1] == DecimalString(n / 10);
      ValueOfDecimal(n / 10);
    }
  }

  /** `toLowerCase` leaves no upper-case ASCII letter behind and changes nothing twice. */
  lemma LowerIsIdempotent(s: string)
    ensures ToLower(ToLower(s)) == ToLower(s)
    ensures forall i :: 0 <= i < |s| ==> !('A' <= ToLower(s)[i] <= 'Z')
  {
    var t := ToLower(s);
    forall i | 0 <= i < |s|
      ensures ToLower(t)[i] == t[i] && !('A' <= t[i] <= 'Z')
    {
      assert t[i] == LowerChar(s[i]);
      assert ToLower(t)[i] == LowerChar(t[i]);
    }
  }
}

=== FILE: notifications.dfy ===
/** The notification endpoints of backend/controllers/notificationController.js: a paged
    list, newest first; marking one or all as read; the unread count; and the insert helper
    the other controllers may call. */
module Notifications {
  import opened Common
  import opened Js
  import opened Schema
  import opened Paging

  /** `limit` when the query string gives none. */
  const DefaultLimit: int := 20

  /** One row of `getNotifications`: the notification and, through the LEFT JOIN, the name
      of the user it is about when there is one. */
  datatype NotificationView = NotificationView(
    id: int, kind: string, title: string, message: string, isRead: bool, createdAt: Millis,
    relatedUserId: Option<UserId>, relatedUsername: Option<string>)

  function ViewOf(n: Notification, users: map<UserId, User>): (v: NotificationView)
    ensures v.id == n.id && v.isRead == n.isRead && v.createdAt == n.createdAt
    ensures v.relatedUsername.Some? <==> n.relatedUserId.Some? && n.relatedUserId.value in users
  {
    var name := if n.relatedUserId.Some? && n.relatedUserId.value in users
      then Some(users[n.relatedUserId.value].username) else None;
    NotificationView(n.id, n.kind, n.title, n.message, n.isRead, n.createdAt, n.relatedUserId, name)
  }

  predicate IsFor(me: UserId, n: Notification) {
    n.userId == me
  }

  function CreatedAt(n: Notification): Millis {
    n.createdAt
  }

  /** `WHERE n.userId = @userId ORDER BY n.createdAt DESC`. */
  function Inbox(rows: seq<Notification>, me: UserId): (r: seq<Notification>)
    ensures SortedDesc(r, CreatedAt)
    ensures forall n :: multiset(r)[n] == if n.userId == me then multiset(rows)[n] else 0
  {
    SortDesc(Filter(rows, n => IsFor(me, n)), CreatedAt)
  }

  function Views(rows: seq<Notification>, users: map<UserId, User>): (r: seq<NotificationView>)
    ensures |r| == |rows| && forall i | 0 <= i < |rows| :: r[i] == ViewOf(rows[i], users)
  {
    seq(|rows|, i requires 0 <= i < |rows| => ViewOf(rows[i], users))
  }

  /** `getNotifications`. */
  function GetNotifications(rows: seq<Notification>, users: map<UserId, User>, me: UserId,
                            page: Option<string>, limit: Option<string>): (r: Reply<seq<NotificationView>>)
    ensures var p := ReadPage(page, limit, DefaultLimit);
      && (r.Err? <==> !p.Fetchable())
      && (r.Err? ==> r == Err(500, ServerError))
      && (r.Ok? ==> |r.value| <= p.limit)
    ensures r.Ok? ==> forall i | 0 <= i < |r.value| :: ShowsRowOf(rows, users, me, r.value[i])
    ensures r.Ok? ==> forall i, j | 0 <= i < j < |r.value| :: r.value[i].createdAt >= r.value[j].createdAt
  {
    var p := ReadPage(page, limit, DefaultLimit);
    if !p.Fetchable() then Err(500, ServerError)
    else
      var w := Window(Inbox(rows, me), p.Offset(), p.limit);
      ViewsOfPage(rows, users, me, p.Offset(), p.limit);
      Ok(Views(w, users))
  }

  /** The view shows one of the caller's notifications. */
  ghost predicate ShowsRowOf(rows: seq<Notification>, users: map<UserId, User>, me: UserId, v: NotificationView) {
    exists n | n in rows :: n.userId == me && v == ViewOf(n, users)
  }

  /** A page of the inbox shows the caller's notifications, newest first. */
  lemma ViewsOfPage(rows: seq<Notification>, users: map<UserId, User>, me: UserId, offset: nat, limit: nat)
    ensures var v := Views(Window(Inbox(rows, me), offset, limit), users);
      && (forall i | 0 <= i < |v| :: ShowsRowOf(rows, users, me, v[i]))
      && (forall i, j | 0 <= i < j < |v| :: v[i].createdAt >= v[j].createdAt)
  {
    var inbox := Inbox(rows, me);
    var w := Window(inbox, offset, limit);
    var v := Views(w, users);
    forall i | 0 <= i < |v|
      ensures ShowsRowOf(rows, users, me, v[i])
    {
      var n := w[i];
      assert n == inbox[offset + i];
      assert n in multiset(inbox);
      assert n in multiset(rows) && n.userId == me;
      assert v[i] == ViewOf(n, users);
    }
    forall i, j | 0 <= i < j < |v|
      ensures v[i].createdAt >= v[j].createdAt
    {
      assert CreatedAt(inbox[offset + i]) >= CreatedAt(inbox[offset + j]);
    }
  }

  /** `markAsRead`: the row is marked only when both its id and its owner match. */
  function MarkOne(rows: seq<Notification>, me: UserId, id: int): (r: seq<Notification>)
    ensures |r| == |rows|
    ensures forall k | 0 <= k < |rows| ::
      r[k] == if rows[k].id == id && rows[k].userId == me then rows[k].(isRead := true) else rows[k]
  {
    seq(|rows|, k requires 0 <= k < |rows| =>
      if rows[k].id == id && rows[k].userId == me then rows[k].(isRead := true) else rows[k])
  }

  /** `markAllAsRead`: every unread row of the caller is marked. */
  function MarkAll(rows: seq<Notification>, me: UserId): (r: seq<Notification>)
    ensures |r| == |rows|
    ensures forall k | 0 <= k < |rows| ::
      r[k] == if rows[k].userId == me && !rows[k].isRead then rows[k].(isRead := true) else rows[k]
  {
    seq(|rows|, k requires 0 <= k < |rows| =>
      if rows[k].userId == me && !rows[k].isRead then rows[k].(isRead := true) else rows[k])
  }

  /** Marking changes `isRead` only, so the ids, and with them the table invariant, stay. */
  lemma MarkingKeepsIds(before: seq<Notification>, after: seq<Notification>)
    requires |after| == |before|
    requires forall k | 0 <= k < |before| :: after[k] == before[k] || after[k] == before[k].(isRead := true)
    ensures NotificationIds(after) == NotificationIds(before)
  {
    assert forall k | 0 <= k < |before| :: after[k].id == before[k].id;
  }

  /** The UPDATE of `markAsRead`, a scan over the table. */
  method MarkAsRead(table: NotificationTable, me: UserId, id: int) returns (r: Reply<()>)
    requires table.Valid()
    modifies table
    ensures table.Valid() && table.nextId == old(table.nextId)
    ensures table.rows == MarkOne(old(table.rows), me, id)
    ensures r == Ok(())
  {
    var k := 0;
    while k < |table.rows|
      invariant 0 <= k <= |table.rows| == |old(table.rows)|
      invariant table.nextId == old(table.nextId)
      invariant forall i | 0 <= i < |table.rows| ::
        table.rows[i] == if i < k then MarkOne(old(table.rows), me, id)[i] else old(table.rows)[i]
    {
      var n := table.rows[k];
      if n.id == id && n.userId == me {
        table.rows := table.rows[k := n.(isRead := true)];
      }
      k := k + 1;
    }
    MarkingKeepsIds(old(table.rows), table.rows);
    r := Ok(());
  }

  /** The UPDATE of `markAllAsRead`, a scan over the table. */
  method MarkAllAsRead(table: NotificationTable, me: UserId) returns (r: Reply<()>)
    requires table.Valid()
    modifies table
    ensures table.Valid() && table.nextId == old(table.nextId)
    ensures table.rows == MarkAll(old(table.rows), me)
    ensures r == Ok(())
  {
    var k := 0;
    while k < |table.rows|
      invariant 0 <= k <= |table.rows| == |old(table.rows)|
      invariant table.nextId == old(table.nextId)
      invariant forall i | 0 <= i < |table.rows| ::
        table.rows[i] == if i < k then MarkAll(old(table.rows), me)[i] else old(table.rows)[i]
    {
      var n := table.rows[k];
      if n.userId == me && !n.isRead {
        table.rows := table.rows[k := n.(isRead := true)];
      }
      k := k + 1;
    }
    MarkingKeepsIds(old(table.rows), table.rows);
    r := Ok(());
  }

  /** The WHERE clause of the unread count: addressed to `me` and not yet read. */
  function UnreadFor(me: UserId): Notification -> bool {
    (n: Notification) => n.userId == me && !n.isRead
  }

  /** `SELECT COUNT(*) ... WHERE userId = @userId AND isRead = 0`: the number of rows the
      WHERE clause keeps. */
  function UnreadCount(rows: seq<Notification>, me: UserId): (c: nat)
    ensures c <= |rows|
  {
    if rows == [] then 0
    else
      var k := |rows| - 1;
      UnreadCount(rows[..k], me) + (if rows[k].userId == me && !rows[k].isRead then 1 else 0)
  }
  /** The recursive count is the number of rows the WHERE clause keeps. */
  lemma {:induction false} UnreadCountIsFilter(rows: seq<Notification>, me: UserId)
    ensures UnreadCount(rows, me) == |Filter(rows, UnreadFor(me))|
  {
    if rows != [] {
      UnreadCountIsFilter(rows[..|rows| - 1], me);
    }
  }


  /** `createNotification`: one row with the given fields, unread, returned; when the
      INSERT fails the error goes to the caller and nothing is written. */
  method CreateNotification(table: NotificationTable, userId: UserId, kind: string, title: string,
                            message: string, relatedUserId: Option<UserId>, now: Millis, dbOk: bool)
    returns (r: Reply<Notification>)
    requires table.Valid()
    modifies table
    ensures table.Valid()
    ensures !dbOk ==> r == Err(500, ServerError) && table.rows == old(table.rows) && table.nextId == old(table.nextId)
    ensures dbOk ==> r == Ok(Notification(old(table.nextId), userId, kind, title, message, relatedUserId, false, now))
    ensures dbOk ==> table.rows == old(table.rows) + [r.value]
  {
    if !dbOk {
      return Err(500, ServerError);
    }
    var n := table.Insert(userId, kind, title, message, relatedUserId, now);
    r := Ok(n);
  }

  // ---------------------------------------------------------------------------------------
  // Properties

  /** After `markAllAsRead` the caller has nothing unread, and every other user's count is
      what it was. */
  lemma {:induction false} MarkAllClearsUnread(rows: seq<Notification>, me: UserId, other: UserId)
    requires other != me
    ensures UnreadCount(MarkAll(rows, me), me) == 0
    ensures UnreadCount(MarkAll(rows, me), other) == UnreadCount(rows, other)
  {
    if rows != [] {
      var k := |rows| - 1;
      assert MarkAll(rows, me)[..k] == MarkAll(rows[..k], me);
      MarkAllClearsUnread(rows[..k], me, other);
    }
  }

  /** Ids are unique in the table, so `markAsRead` lowers the caller's unread count by one
      when the id names one of their unread rows, and leaves it as it is otherwise. */
  lemma {:induction false} MarkOneLowersByOne(rows: seq<Notification>, me: UserId, id: int)
    requires forall i, j | 0 <= i < j < |rows| :: rows[i].id < rows[j].id
    ensures UnreadCount(MarkOne(rows, me, id), me) ==
      UnreadCount(rows, me) - (if exists k | 0 <= k < |rows| :: rows[k].id == id && rows[k].userId == me && !rows[k].isRead then 1 else 0)
  {
    if rows != [] {
      var k := |rows| - 1;
      var prefix := rows[..k];
      assert MarkOne(rows, me, id)[..k] == MarkOne(prefix, me, id);
      MarkOneLowersByOne(prefix, me, id);
      if rows[k].id == id {
        forall i | 0 <= i < k
          ensures prefix[i].id != id
        {
          assert rows[i].id < rows[k].id;
        }
      }
      if exists i | 0 <= i < k :: prefix[i].id == id && prefix[i].userId == me && !prefix[i].isRead {
        var i :| 0 <= i < k && prefix[i].id == id && prefix[i].userId == me && !prefix[i].isRead;
        assert rows[i] == prefix[i];
      }
      if exists i | 0 <= i < |rows| :: rows[i].id == id && rows[i].userId == me && !rows[i].isRead {
        var i :| 0 <= i < |rows| && rows[i].id == id && rows[i].userId == me && !rows[i].isRead;
        if i < k {
          assert prefix[i] == rows[i];
        }
      }
    }
  }

  /** A created notification adds one to its recipient's unread count and nothing to
      anybody else's. */
  lemma CreateAddsOne(rows: seq<Notification>, n: Notification, u: UserId)
    requires !n.isRead
    ensures UnreadCount(rows + [n], u) == UnreadCount(rows, u) + (if n.userId == u then 1 else 0)
  {
    assert (rows + [n])[..|rows|] == rows;
  }

  /** Page `page` of size `limit` shows, at position `j`, the caller's notification at
      place `(page - 1) * limit + j` of the inbox; with `OnePlacePerRow`, every notification
      of the caller is listed on exactly one page. */
  lemma PageShowsInbox(rows: seq<Notification>, users: map<UserId, User>, me: UserId,
                       page: nat, limit: nat, j: nat)
    requires page > 0 && limit > 0 && j < limit
    requires PageRequest(page, limit).Offset() + j < |Inbox(rows, me)|
    ensures var r := GetNotifications(rows, users, me, Some(DecimalString(page)), Some(DecimalString(limit)));
      var o := PageRequest(page, limit).Offset();
      && r.Ok? && j < |r.value| && o >= 0
      && r.value[j] == ViewOf(Inbox(rows, me)[o + j], users)
  {
    var inbox := Inbox(rows, me);
    var p := PageRequest(page, limit);
    assert ReadPage(Some(DecimalString(page)), Some(DecimalString(limit)), DefaultLimit) == p by {
      DecimalParameters(page, limit, DefaultLimit);
    }
    assert p.Fetchable() && p.Offset() >= 0 by {
      PositivePageOffset(page, limit);
    }
    var o := p.Offset();
    var w := Window(inbox, o, limit);
    var r := GetNotifications(rows, users, me, Some(DecimalString(page)), Some(DecimalString(limit)));
    assert r == Ok(Views(w, users));
    assert j < |w| && w[j] == inbox[o + j];
  }

  /** The inbox holds the caller's notifications and only theirs, each as often as it is
      stored. */
  lemma InboxIsMine(rows: seq<Notification>, me: UserId, n: Notification)
    ensures n in Inbox(rows, me) <==> n in rows && n.userId == me
  {
    assert n in Inbox(rows, me) <==> n in multiset(Inbox(rows, me));
    assert n in rows <==> n in multiset(rows);
  }
}

=== FILE: paging.dfy ===
/** The list endpoints of backend/controllers/notificationController.js and
    backend/controllers/chatController.js page their results the same way: `page` and
    `limit` come from the query string through `parseInt(x) || default`, the offset is
    `(page - 1) * limit`, and SQL Server's `ORDER BY createdAt DESC OFFSET @offset ROWS
    FETCH NEXT @limit ROWS ONLY` cuts the window. */
module Paging {
  import opened Common
  import opened Js

  // ---------------------------------------------------------------------------------------
  // Query parameters

  datatype PageRequest = PageRequest(page: int, limit: int)
  {
    /** `(page - 1) * limit`. */
    function Offset(): int {
      (page - 1) * limit
    }

    /** SQL Server refuses a negative OFFSET and a FETCH of no rows; the statement then
        fails and the handler answers 500. */
    predicate Fetchable() {
      Offset() >= 0 && limit > 0
    }
  }

  /** `parseInt(req.query.page) || 1` and `parseInt(req.query.limit) || defaultLimit`. */
  function ReadPage(page: Option<string>, limit: Option<string>, defaultLimit: int): (p: PageRequest)
    requires defaultLimit > 0
    ensures p.page != 0 && p.limit != 0
    ensures ParseInt(page).None? || ParseInt(page) == Some(0) ==> p.page == 1
    ensures ParseInt(limit).None? || ParseInt(limit) == Some(0) ==> p.limit == defaultLimit
    ensures ParseInt(page).Some? && ParseInt(page).value != 0 ==> p.page == ParseInt(page).value
    ensures ParseInt(limit).Some? && ParseInt(limit).value != 0 ==> p.limit == ParseInt(limit).value
  {
    PageRequest(IntOr(ParseInt(page), 1), IntOr(ParseInt(limit), defaultLimit))
  }

  /** `page` and `limit` are never 0 after the `||` default, so a request fails exactly when
      one of them parses to a negative number. */
  lemma FetchableIff(page: Option<string>, limit: Option<string>, defaultLimit: int)
    requires defaultLimit > 0
    ensures var p := ReadPage(page, limit, defaultLimit);
      p.Fetchable() <==> p.page > 0 && p.limit > 0
  {
    var p := ReadPage(page, limit, defaultLimit);
    if p.limit > 0 {
      if p.page > 0 {
        PositivePageOffset(p.page, p.limit);
      } else {
        NegativePageOffset(p.page, p.limit);
      }
    }
  }

  /** Pages from the first on start at a non-negative offset. */
  lemma PositivePageOffset(page: int, limit: nat)
    requires page > 0
    ensures PageRequest(page, limit).Offset() >= 0
  {
    MulLe(0, page - 1, limit);
  }

  /** A page number below 0 asks for a negative offset. */
  lemma NegativePageOffset(page: int, limit: nat)
    requires page < 0 && limit > 0
    ensures PageRequest(page, limit).Offset() < 0
  {
    MulLe(page - 1, -1, limit);
  }

  lemma {:induction false} MulLe(a: int, b: int, c: nat)
    requires a <= b
    ensures a * c <= b * c
    decreases b - a
  {
    if a < b {
      MulLe(a, b - 1, c);
      assert b * c == (b - 1) * c + c;
    }
  }

  /** Without parameters the first page of `defaultLimit` rows is served. */
  lemma NoParametersFirstPage(defaultLimit: int)
    requires defaultLimit > 0
    ensures ReadPage(None, None, defaultLimit) == PageRequest(1, defaultLimit)
    ensures ReadPage(None, None, defaultLimit).Offset() == 0
  {
  }

  /** Page numbers and limits written as decimal numbers reach the query unchanged. */
  lemma DecimalParameters(page: nat, limit: nat, defaultLimit: int)
    requires page > 0 && limit > 0 && defaultLimit > 0
    ensures ReadPage(Some(DecimalString(page)), Some(DecimalString(limit)), defaultLimit) == PageRequest(page, limit)
  {
    ParseIntOfNumber(page);
    ParseIntOfNumber(limit);
    assert IntOr(ParseInt(Some(DecimalString(page))), 1) == page;
    assert IntOr(ParseInt(Some(DecimalString(limit))), defaultLimit) == limit;
  }

  // ---------------------------------------------------------------------------------------
  // Rows

  /** The rows of `s` that satisfy `keep`, in order (a WHERE clause). */
  function Filter<T(!new)>(s: seq<T>, keep: T -> bool): (r: seq<T>)
    ensures |r| <= |s|
    ensures forall i | 0 <= i < |r| :: keep(r[i])
    ensures forall x :: multiset(r)[x] == if keep(x) then multiset(s)[x] else 0
  {
    if s == [] then []
    else
      var k := |s| - 1;
      assert s == s[..k] + [s[k]];
      Filter(s[..k], keep) + (if keep(s[k]) then [s[k]] else [])
  }

  /** Keys never increase along `s`. */
  predicate SortedDesc<T>(s: seq<T>, key: T -> int) {
    forall i, j | 0 <= i < j < |s| :: key(s[i]) >= key(s[j])
  }

  /** Keys never decrease along `s`. */
  predicate SortedAsc<T>(s: seq<T>, key: T -> int) {
    forall i, j | 0 <= i < j < |s| :: key(s[i]) <= key(s[j])
  }

  /** Puts `x` before the first element whose key is not larger. */
  function InsertDesc<T>(x: T, s: seq<T>, key: T -> int): (r: seq<T>)
    requires SortedDesc(s, key)
    ensures |r| == |s| + 1
    ensures forall y | y in r :: y == x || y in s
    ensures SortedDesc(r, key)
    ensures multiset(r) == multiset(s) + multiset{x}
  {
    if s == [] then [x]
    else if key(x) >= key(s[0]) then [x] + s
    else
      var rest := InsertDesc(x, s[1..], key);
      TailBelowHead(s, key);
      ConsSorted(s[0], rest, key);
      assert s == [s[0]] + s[1..];
      [s[0]] + rest
  }

  lemma ConsSorted<T>(h: T, rest: seq<T>, key: T -> int)
    requires SortedDesc(rest, key)
    requires forall y | y in rest :: key(y) <= key(h)
    ensures SortedDesc([h] + rest, key)
  {
    var r := [h] + rest;
    forall i, j | 0 <= i < j < |r|
      ensures key(r[i]) >= key(r[j])
    {
      assert r[j] == rest[j - 1];
      if i > 0 {
        assert r[i] == rest[i - 1];
      } else {
        assert rest[j - 1] in rest;
      }
    }
  }

  /** In a list sorted by decreasing key nothing after the head has a larger key. */
  lemma TailBelowHead<T>(s: seq<T>, key: T -> int)
    requires SortedDesc(s, key) && s != []
    ensures forall y | y in s[1..] :: key(y) <= key(s[0])
  {
    forall y | y in s[1..]
      ensures key(y) <= key(s[0])
    {
      var k :| 0 <= k < |s[1..]| && s[1..][k] == y;
      assert s[k + 1] == y;
    }
  }

  /** `ORDER BY key DESC`, by insertion. Rows with equal keys come out later row first;
      SQL leaves their order open. */
  function SortDesc<T>(s: seq<T>, key: T -> int): (r: seq<T>)
    ensures SortedDesc(r, key)
    ensures multiset(r) == multiset(s)
    ensures |r| == |s|
  {
    if s == [] then []
    else
      var k := |s| - 1;
      assert s == s[..k] + [s[k]];
      InsertDesc(s[k], SortDesc(s[..k], key), key)
  }

  /** `OFFSET offset ROWS FETCH NEXT limit ROWS ONLY`. */
  function Window<T>(s: seq<T>, offset: nat, limit: nat): (r: seq<T>)
    ensures |r| == if offset >= |s| then 0 else if |s| - offset < limit then |s| - offset else limit
    ensures forall i | 0 <= i < |r| :: r[i] == s[offset + i]
  {
    if offset >= |s| then []
    else if |s| - offset < limit then s[offset..]
    else s[offset..offset + limit]
  }

  function Reverse<T>(s: seq<T>): (r: seq<T>)
    ensures |r| == |s|
    ensures forall i | 0 <= i < |s| :: r[i] == s[|s| - 1 - i]
  {
    if s == [] then [] else Reverse(s[1..]) + [s[0]]
  }

  // ---------------------------------------------------------------------------------------
  // Properties

  /** Successive pages tile the ordered rows: row `i` is on page `i / limit + 1`, at
      position `i % limit`, and a row's page and position are the only ones that show it. */
  lemma RowOnItsPage<T>(s: seq<T>, limit: nat, i: nat)
    requires limit > 0 && i < |s|
    ensures var p := PageRequest(i / limit + 1, limit);
      p.Fetchable() && i % limit < |Window(s, p.Offset(), limit)|
      && Window(s, p.Offset(), limit)[i % limit] == s[i]
  {
    var p := PageRequest(i / limit + 1, limit);
    assert p.Offset() == (i / limit) * limit;
    assert (i / limit) * limit + i % limit == i;
  }

  /** Reversed, a window shows its `j`-th row `j` places from the end. */
  lemma ReversedWindowAt<T>(s: seq<T>, offset: nat, limit: nat, j: nat)
    requires j < limit && offset + j < |s|
    ensures var shown := Reverse(Window(s, offset, limit));
      j < |shown| && shown[|shown| - 1 - j] == s[offset + j]
  {
  }

  /** No row sits at two places: page and position are determined by the row's index. */
  lemma {:induction false} OnePlacePerRow(q1: nat, j1: nat, q2: nat, j2: nat, limit: nat)
    requires j1 < limit && j2 < limit
    requires q1 * limit + j1 == q2 * limit + j2
    ensures q1 == q2 && j1 == j2
  {
    if q1 < q2 {
      assert (q1 + 1) * limit == q1 * limit + limit;
      MulLe(q1 + 1, q2, limit);
    } else if q2 < q1 {
      assert (q2 + 1) * limit == q2 * limit + limit;
      MulLe(q2 + 1, q1, limit);
    }
  }

  /** Reversing a list sorted newest first gives it oldest first. */
  lemma ReverseSorted<T>(s: seq<T>, key: T -> int)
    requires SortedDesc(s, key)
    ensures SortedAsc(Reverse(s), key)
  {
  }

  /** A page of a list sorted newest first, turned around, is sorted oldest first and
      holds rows of the list only. */
  lemma ReversedPage<T>(s: seq<T>, offset: nat, limit: nat, key: T -> int)
    requires SortedDesc(s, key)
    ensures SortedAsc(Reverse(Window(s, offset, limit)), key)
    ensures forall i | 0 <= i < |Reverse(Window(s, offset, limit))| :: Reverse(Window(s, offset, limit))[i] in s
  {
    var w := Window(s, offset, limit);
    WindowSorted(s, offset, limit, key);
    ReverseSorted(w, key);
    forall i | 0 <= i < |Reverse(w)|
      ensures Reverse(w)[i] in s
    {
      assert Reverse(w)[i] == s[offset + (|w| - 1 - i)];
    }
  }

  /** A window of a sorted list is sorted. */
  lemma WindowSorted<T>(s: seq<T>, offset: nat, limit: nat, key: T -> int)
    requires SortedDesc(s, key)
    ensures SortedDesc(Window(s, offset, limit), key)
  {
  }

  /** The first window holds the largest key, when there is any row. */
  lemma FirstWindowHasTop<T>(s: seq<T>, limit: nat, key: T -> int)
    requires SortedDesc(s, key) && s != [] && limit > 0
    ensures Window(s, 0, limit) != []
    ensures forall j | 0 <= j < |s| :: key(Window(s, 0, limit)[0]) >= key(s[j])
  {
  }
}

=== FILE: parental.dfy ===
/** Parental mode of backend/controllers/userController.js: a parent asks to follow a child,
    the child accepts or rejects, and the parent sees the accepted children's locations. */
module Parental {
  import opened Common
  import opened Js
  import opened Schema

  /** A link row for (parent, child) exists, whatever its status. */
  predicate LinkFor(links: map<int, ParentalLink>, parent: UserId, child: UserId) {
    exists id | id in links :: links[id].parentId == parent && links[id].childId == child
  }

  /** The users table after `UPDATE Users SET isParent = 1 WHERE id = parent`. */
  function MarkParent(users: map<UserId, User>, parent: UserId): (r: map<UserId, User>)
    ensures r.Keys == users.Keys
    ensures forall id | id in users && id != parent :: r[id] == users[id]
    ensures parent in users ==> r[parent] == users[parent].(isParent := true)
  {
    if parent in users then users[parent := users[parent].(isParent := true)] else users
  }

  /** `sendParentalRequest`: the child is found by exact username; nobody adopts themselves,
      and a second request for the same pair is refused whatever became of the first. The
      out-parameter `child` is the user the lookup found. */
  method SendParentalRequest(db: Database, me: UserId, childUsername: Option<string>, now: Millis)
    returns (r: Reply<()>, child: Option<UserId>)
    requires db.Valid()
    modifies db.links, db.users
    ensures db.Valid()
    ensures child.None? <==>
      childUsername.None? || forall t | t in old(db.users.rows) :: old(db.users.rows)[t].username != childUsername.value
    ensures child.Some? ==>
      (child.value in old(db.users.rows) && childUsername == Some(old(db.users.rows)[child.value].username))
    ensures child.None? ==> r == Err(404, UserNotFound)
    ensures child.Some? ==>
      r == if child.value == me then Err(400, SelfRelation)
           else if LinkFor(old(db.links.rows), me, child.value) then Err(400, LinkExists)
           else Ok(())
    ensures r.Err? ==> db.links.rows == old(db.links.rows) && db.users.rows == old(db.users.rows)
    ensures r.Ok? ==>
      && db.links.rows == old(db.links.rows)[old(db.links.nextId) := ParentalLink(me, child.value, Pending, now)]
      && db.users.rows == MarkParent(old(db.users.rows), me)
  {
    var users := db.users.rows;
    if childUsername.None? || !exists t :: t in users && users[t].username == childUsername.value {
      return Err(404, UserNotFound), None;
    }
    var c :| c in users && users[c].username == childUsername.value;
    child := Some(c);
    if c == me {
      return Err(400, SelfRelation), child;
    }
    if LinkFor(db.links.rows, me, c) {
      return Err(400, LinkExists), child;
    }
    var id := db.links.nextId;
    db.links.rows := db.links.rows[id := ParentalLink(me, c, Pending, now)];
    db.links.nextId := id + 1;
    db.users.rows := MarkParent(users, me);
    r := Ok(());
  }

  /** The link table after `UPDATE ParentalLinks SET status = s WHERE id = requestId AND
      childId = me`: only the child a link names can change its status. */
  function SetLinkStatus(links: map<int, ParentalLink>, me: UserId, requestId: int, s: Status)
    : (r: map<int, ParentalLink>)
    ensures r.Keys == links.Keys
    ensures forall id | id in links ::
      r[id] == if id == requestId && links[id].childId == me then links[id].(status := s) else links[id]
  {
    if requestId in links && links[requestId].childId == me
    then links[requestId := links[requestId].(status := s)]
    else links
  }

  /** The second half of `acceptParentalRequest` as written: the caller's `parentId` becomes
      the parent of link `requestId`, looked up by id alone. */
  function AdoptAsWritten(users: map<UserId, User>, links: map<int, ParentalLink>, me: UserId, requestId: int)
    : (r: map<UserId, User>)
    ensures r.Keys == users.Keys
    ensures forall id | id in users && id != me :: r[id] == users[id]
    ensures me in users ==>
      r[me] == if requestId in links then users[me].(parentId := Some(links[requestId].parentId)) else users[me]
  {
    if requestId in links && me in users
    then users[me := users[me].(parentId := Some(links[requestId].parentId))]
    else users
  }

  /** The same step restricted to a link that names the caller as its child. */
  function Adopt(users: map<UserId, User>, links: map<int, ParentalLink>, me: UserId, requestId: int)
    : (r: map<UserId, User>)
    ensures r.Keys == users.Keys
    ensures forall id | id in users :: r[id].parentId != users[id].parentId ==>
      id == me && requestId in links && links[requestId].childId == me
      && r[id].parentId == Some(links[requestId].parentId)
  {
    if requestId in links && links[requestId].childId == me && me in users
    then users[me := users[me].(parentId := Some(links[requestId].parentId))]
    else users
  }

  /** `acceptParentalRequest`: the link addressed to the caller becomes accepted; then the
      link is read back by id alone and the caller's `parentId` takes its parent, whoever
      the link names as child. The reply is success whatever matched. `Adopt` is the step
      restricted to the caller's own links. */
  method AcceptParentalRequest(db: Database, me: UserId, requestId: int) returns (r: Reply<()>)
    requires db.Valid()
    modifies db.links, db.users
    ensures db.Valid()
    ensures r == Ok(())
    ensures db.links.rows == SetLinkStatus(old(db.links.rows), me, requestId, Accepted)
    ensures db.users.rows == AdoptAsWritten(old(db.users.rows), old(db.links.rows), me, requestId)
  {
    var before := db.links.rows;
    db.links.rows := SetLinkStatus(before, me, requestId, Accepted);
    if requestId in db.links.rows {
      var parent := db.links.rows[requestId].parentId;
      if me in db.users.rows {
        db.users.rows := db.users.rows[me := db.users.rows[me].(parentId := Some(parent))];
      }
    }
    r := Ok(());
  }

  /** `rejectParentalRequest`: only the child a link names can reject it; success always. */
  method RejectParentalRequest(db: Database, me: UserId, requestId: int) returns (r: Reply<()>)
    requires db.Valid()
    modifies db.links
    ensures db.Valid()
    ensures r == Ok(())
    ensures db.links.rows == SetLinkStatus(old(db.links.rows), me, requestId, Rejected)
  {
    db.links.rows := SetLinkStatus(db.links.rows, me, requestId, Rejected);
    r := Ok(());
  }

  datatype ChildView = ChildView(id: UserId, username: string, location: Option<(Coord, Coord)>, lastUpdate: Option<Millis>)

  /** One child of `getChildren`; the location is shown when both coordinates are truthy,
      and ghost mode is not consulted. */
  function ChildViewOf(id: UserId, u: User): (v: ChildView)
    ensures v.id == id && v.username == u.username && v.lastUpdate == u.lastUpdate
    ensures v.location.Some? <==> TruthyNumber(u.latitude) && TruthyNumber(u.longitude)
    ensures v.location.Some? ==> v.location.value == (u.latitude.value, u.longitude.value)
  {
    var shown := TruthyNumber(u.latitude) && TruthyNumber(u.longitude);
    ChildView(id, u.username, if shown then Some((u.latitude.value, u.longitude.value)) else None, u.lastUpdate)
  }

  /** `getChildren`: the existing children of the caller's accepted links. */
  function GetChildren(links: map<int, ParentalLink>, users: map<UserId, User>, me: UserId): (r: set<ChildView>)
    ensures forall v | v in r ::
      (v.id in users && v == ChildViewOf(v.id, users[v.id])
       && exists id | id in links :: links[id] == ParentalLink(me, v.id, Accepted, links[id].createdAt))
    ensures forall id | id in links && links[id].parentId == me && links[id].status == Accepted
      && links[id].childId in users :: ChildViewOf(links[id].childId, users[links[id].childId]) in r
  {
    set id | id in links && links[id].parentId == me && links[id].status == Accepted && links[id].childId in users
      :: ChildViewOf(links[id].childId, users[links[id].childId])
  }

  datatype ParentRequestView = ParentRequestView(id: int, createdAt: Millis, parentId: UserId, parentUsername: string)

  /** `getParentalRequests`: the pending links naming the caller as child, with the parent. */
  function GetParentalRequests(links: map<int, ParentalLink>, users: map<UserId, User>, me: UserId)
    : (r: set<ParentRequestView>)
    ensures forall v | v in r ::
      (v.id in links && links[v.id].childId == me && links[v.id].status == Pending
       && v.parentId == links[v.id].parentId && v.parentId in users && v.parentUsername == users[v.parentId].username)
    ensures forall id | id in links && links[id].childId == me && links[id].status == Pending
      && links[id].parentId in users :: exists v | v in r :: v.id == id
  {
    var r := set id | id in links && links[id].childId == me && links[id].status == Pending && links[id].parentId in users
      :: ParentRequestView(id, links[id].createdAt, links[id].parentId, users[links[id].parentId].username);
    assert forall id | id in links && links[id].childId == me && links[id].status == Pending && links[id].parentId in users
      :: ParentRequestView(id, links[id].createdAt, links[id].parentId, users[links[id].parentId].username) in r;
    r
  }

  // ---------------------------------------------------------------------------------------
  // Properties

  /** Accepting or rejecting never creates nor removes a (parent, child) pair, so a link,
      once requested, blocks every later request for the pair, also after a rejection. */
  lemma StatusChangeKeepsPairs(links: map<int, ParentalLink>, me: UserId, requestId: int, s: Status,
                               parent: UserId, child: UserId)
    ensures LinkFor(SetLinkStatus(links, me, requestId, s), parent, child) == LinkFor(links, parent, child)
  {
    var after := SetLinkStatus(links, me, requestId, s);
    if LinkFor(links, parent, child) {
      var id :| id in links && links[id].parentId == parent && links[id].childId == child;
      assert after[id].parentId == parent && after[id].childId == child;
    }
    if LinkFor(after, parent, child) {
      var id :| id in after && after[id].parentId == parent && after[id].childId == child;
      assert links[id].parentId == parent && links[id].childId == child;
    }
  }

  /** A child who accepts a link addressed to them is linked: the link is accepted and the
      child's `parentId` names the requesting parent. */
  lemma AcceptLinksChild(users: map<UserId, User>, links: map<int, ParentalLink>, me: UserId, requestId: int)
    requires requestId in links && links[requestId].childId == me && me in users
    ensures SetLinkStatus(links, me, requestId, Accepted)[requestId].status == Accepted
    ensures AdoptAsWritten(users, links, me, requestId)[me].parentId == Some(links[requestId].parentId)
    ensures AdoptAsWritten(users, links, me, requestId) == Adopt(users, links, me, requestId)
  {
  }

  /** As written, any user who names the id of a link addressed to someone else takes that
      link's parent as their own, while the link itself stays as it was. */
  lemma ForeignLinkAdopts(users: map<UserId, User>, links: map<int, ParentalLink>, me: UserId, requestId: int)
    requires requestId in links && links[requestId].childId != me && me in users
    ensures SetLinkStatus(links, me, requestId, Accepted) == links
    ensures AdoptAsWritten(users, links, me, requestId)[me].parentId == Some(links[requestId].parentId)
    ensures Adopt(users, links, me, requestId) == users
  {
  }

  /** A concrete case: link 1 asks child 3 to accept parent 2; user 4 accepts it instead. */
  lemma ForeignLinkExample()
    ensures var links := map[1 := ParentalLink(2, 3, Pending, 0)];
      var users := map[4 := NewUser("mallory", None, "$2b$", None)];
      && AdoptAsWritten(users, links, 4, 1)[4].parentId == Some(2)
      && Adopt(users, links, 4, 1)[4].parentId == None
  {
  }
}

=== FILE: presence.dfy ===
/** Who is online: the process-wide `userSockets` map of backend/server.js, filled by the
    socket `join` event and emptied by `disconnect`. It holds one socket per user, keyed by
    `userId.toString()`; user ids are integers, whose decimal rendering is injective, so the
    model keys it by the id itself. */
module Presence {
  import opened Common

  /** A socket.io connection; `userId` is what its last `join` attached to it. */
  class Socket {
    const id: SocketId
    var userId: Option<UserId>

    constructor (id: SocketId)
      ensures this.id == id && userId.None?
    {
      this.id := id;
      userId := None;
    }
  }

  class Registry {
    var sockets: map<UserId, SocketId>

    constructor ()
      ensures sockets == map[]
    {
      sockets := map[];
    }

    /** `join`: the user's entry now names this socket, replacing any earlier one, and the
        socket remembers the user. */
    method Join(socket: Socket, userId: UserId)
      modifies this, socket
      ensures sockets == old(sockets)[userId := socket.id]
      ensures socket.userId == Some(userId)
    {
      sockets := sockets[userId := socket.id];
      socket.userId := Some(userId);
    }

    /** `disconnect`: the entry of the socket's user goes, whichever socket it names. A
        socket that never joined changes nothing. */
    method Disconnect(socket: Socket)
      modifies this
      ensures socket.userId.Some? ==> sockets == old(sockets) - {socket.userId.value}
      ensures socket.userId.None? ==> sockets == old(sockets)
    {
      if socket.userId.Some? {
        sockets := sockets - {socket.userId.value};
      }
    }

    /** `userSockets.get(id.toString())`. */
    function Lookup(userId: UserId): (r: Option<SocketId>)
      reads this
      ensures r.Some? <==> userId in sockets
      ensures r.Some? ==> r.value == sockets[userId]
    {
      if userId in sockets then Some(sockets[userId]) else None
    }
  }

  // ---------------------------------------------------------------------------------------
  // Properties, as short runs of events

  /** A user who joins from a second tab is reachable only there: the later `join` wins. */
  method LaterJoinWins(reg: Registry, first: Socket, second: Socket, u: UserId)
    requires first != second
    modifies reg, first, second
    ensures reg.Lookup(u) == Some(second.id)
    ensures first.userId == Some(u) && second.userId == Some(u)
  {
    reg.Join(first, u);
    reg.Join(second, u);
  }

  /** Closing the older tab takes the user offline although the newer tab is still open:
      `disconnect` deletes by user, not by socket. */
  method OlderDisconnectDropsNewer(reg: Registry, older: Socket, newer: Socket, u: UserId)
    requires older != newer
    modifies reg, older, newer
    ensures reg.Lookup(u).None?
    ensures newer.userId == Some(u)
  {
    reg.Join(older, u);
    reg.Join(newer, u);
    reg.Disconnect(older);
  }

  /** A socket that joins as a second user leaves its first entry in place, and its
      disconnect removes only the second. */
  method RejoinLeavesStaleEntry(reg: Registry, socket: Socket, u: UserId, v: UserId)
    requires u != v
    modifies reg, socket
    ensures reg.Lookup(u) == Some(socket.id)
    ensures reg.Lookup(v).None?
  {
    reg.Join(socket, u);
    reg.Join(socket, v);
    reg.Disconnect(socket);
  }
}

=== FILE: realtime.dfy ===
/** The socket.io handlers of backend/server.js: `sendMessage`, `updateLocation` and
    `sendSOS`. Each handler is modelled by the database writes it performs and the events
    it emits, in order, as one trace of effects. */
module Realtime {
  import opened Common
  import opened Js
  import opened Schema
  import opened GhostMode
  import opened Presence
  import opened FriendGraph
  import opened Sos

  /** The events the server emits. */
  datatype Event =
    | NewMessage(record: Message)
    | MessageSent(record: Message)
    | MessageError
    | FriendLocationUpdate(friendId: UserId, lat: Coord, lng: Coord)
    | SosAlertEvent(fromUserId: UserId, fromUsername: Option<string>, lat: Coord, lng: Coord,
                    message: string, timestamp: Millis)
    | SosSent
    | SosError

  /** The database statements whose order against the emits matters. */
  datatype Write =
    | MessageStored(id: int)
    | GhostCleared(userId: UserId)
    | LocationStored(userId: UserId)
    | AlertStored(id: int)
    | NotificationStored(id: int, userId: UserId)

  datatype Effect = Persist(write: Write) | Emit(to: SocketId, event: Event)

  // ---------------------------------------------------------------------------------------
  // Fan-out to the users online

  /** `io.to(userSockets.get(v)).emit(ev)` when v is online, nothing otherwise. */
  function PushIfOnline(v: UserId, reg: map<UserId, SocketId>, ev: Event): (r: seq<Effect>)
    ensures v in reg ==> r == [Emit(reg[v], ev)]
    ensures v !in reg ==> r == []
  {
    if v in reg then [Emit(reg[v], ev)] else []
  }

  /** The users of `order` that are online, in order, repeats kept. */
  function Registered(order: seq<UserId>, reg: map<UserId, SocketId>): (r: seq<UserId>)
    ensures forall i | 0 <= i < |r| :: r[i] in reg
  {
    if order == [] then []
    else
      var k := |order| - 1;
      Registered(order[..k], reg) + (if order[k] in reg then [order[k]] else [])
  }

  /** Each online user occurs in `Registered(order, reg)` as often as in `order`; nobody
      else occurs. */
  lemma {:induction false} RegisteredCounts(order: seq<UserId>, reg: map<UserId, SocketId>, v: UserId)
    ensures multiset(Registered(order, reg))[v] == if v in reg then multiset(order)[v] else 0
  {
    if order != [] {
      var k := |order| - 1;
      assert order == order[..k] + [order[k]];
      RegisteredCounts(order[..k], reg, v);
    }
  }

  /** One `emit` of `ev` per row of `order` whose user is online: never more emits than
      rows. */
  function Broadcast(order: seq<UserId>, reg: map<UserId, SocketId>, ev: Event): (r: seq<Effect>)
    ensures |r| <= |order|
  {
    if order == [] then []
    else
      var k := |order| - 1;
      Broadcast(order[..k], reg, ev) + PushIfOnline(order[k], reg, ev)
  }

  /** A broadcast is one `emit` of `ev` to the socket of each online user of `order`, in
      order. */
  lemma {:induction false} BroadcastTargets(order: seq<UserId>, reg: map<UserId, SocketId>, ev: Event)
    ensures |Broadcast(order, reg, ev)| == |Registered(order, reg)|
    ensures forall i | 0 <= i < |Registered(order, reg)| ::
      Broadcast(order, reg, ev)[i] == Emit(reg[Registered(order, reg)[i]], ev)
  {
    if order != [] {
      var k := |order| - 1;
      var b0, r0 := Broadcast(order[..k], reg, ev), Registered(order[..k], reg);
      var b, r := Broadcast(order, reg, ev), Registered(order, reg);
      assert |b0| == |r0| && forall i | 0 <= i < |r0| :: b0[i] == Emit(reg[r0[i]], ev) by {
        BroadcastTargets(order[..k], reg, ev);
      }
      assert b == b0 + PushIfOnline(order[k], reg, ev);
      assert r == r0 + (if order[k] in reg then [order[k]] else []);
      forall i | 0 <= i < |r|
        ensures b[i] == Emit(reg[r[i]], ev)
      {
        if i < |r0| {
          assert b[i] == b0[i] && r[i] == r0[i];
        }
      }
    }
  }

  /** The `forEach` over the rows of a friends query: emit `ev` to each user online. */
  method BroadcastEach(reg: Registry, order: seq<UserId>, ev: Event) returns (effects: seq<Effect>)
    ensures effects == Broadcast(order, reg.sockets, ev)
  {
    effects := [];
    var k := 0;
    while k < |order|
      invariant 0 <= k <= |order|
      invariant effects == Broadcast(order[..k], reg.sockets, ev)
    {
      var to := reg.Lookup(order[k]);
      assert order[..k + 1][..k] == order[..k];
      if to.Some? {
        effects := effects + [Emit(to.value, ev)];
      }
      k := k + 1;
    }
    assert order[..k] == order;
  }

  /** The emits of a trace, in order. */
  function Pushes(t: seq<Effect>): seq<Effect> {
    if t == [] then []
    else
      var k := |t| - 1;
      Pushes(t[..k]) + (if t[k].Emit? then [t[k]] else [])
  }

  /** The users that notification writes of a trace address, in order. */
  function NotifiedUsers(t: seq<Effect>): seq<UserId> {
    if t == [] then []
    else
      var k := |t| - 1;
      NotifiedUsers(t[..k])
        + (if t[k].Persist? && t[k].write.NotificationStored? then [t[k].write.userId] else [])
  }

  lemma {:induction false} PushesAppend(a: seq<Effect>, b: seq<Effect>)
    ensures Pushes(a + b) == Pushes(a) + Pushes(b)
    decreases |b|
  {
    if b != [] {
      var k := |b| - 1;
      assert (a + b)[..|a + b| - 1] == a + b[..k];
      PushesAppend(a, b[..k]);
    } else {
      assert a + b == a;
    }
  }

  lemma {:induction false} NotifiedUsersAppend(a: seq<Effect>, b: seq<Effect>)
    ensures NotifiedUsers(a + b) == NotifiedUsers(a) + NotifiedUsers(b)
    decreases |b|
  {
    if b != [] {
      var k := |b| - 1;
      assert (a + b)[..|a + b| - 1] == a + b[..k];
      NotifiedUsersAppend(a, b[..k]);
    } else {
      assert a + b == a;
    }
  }

  /** A broadcast is nothing but emits, and writes nothing. */
  lemma {:induction false} BroadcastOnlyPushes(order: seq<UserId>, reg: map<UserId, SocketId>, ev: Event)
    ensures Pushes(Broadcast(order, reg, ev)) == Broadcast(order, reg, ev)
    ensures NotifiedUsers(Broadcast(order, reg, ev)) == []
  {
    if order != [] {
      var k := |order| - 1;
      BroadcastOnlyPushes(order[..k], reg, ev);
      PushesAppend(Broadcast(order[..k], reg, ev), PushIfOnline(order[k], reg, ev));
      NotifiedUsersAppend(Broadcast(order[..k], reg, ev), PushIfOnline(order[k], reg, ev));
    }
  }

  // ---------------------------------------------------------------------------------------
  // sendMessage

  /** Store, then `newMessage` to the receiver if online, then `messageSent` to the sender's
      own socket. */
  function MessageTrace(m: Message, reg: map<UserId, SocketId>, self: SocketId): (r: seq<Effect>)
    ensures |r| == if m.receiverId in reg then 3 else 2
    ensures r[0] == Persist(MessageStored(m.id)) && r[|r| - 1] == Emit(self, MessageSent(m))
  {
    [Persist(MessageStored(m.id))] + PushIfOnline(m.receiverId, reg, NewMessage(m)) + [Emit(self, MessageSent(m))]
  }

  /** `sendMessage`. The sender id comes from the event's payload, not from the socket. A
      failed INSERT emits `messageError` to the caller and nothing else. */
  method SendMessage(messages: MessageTable, reg: Registry, socket: Socket, senderId: UserId, receiverId: UserId,
                     message: string, now: Millis, dbOk: bool) returns (effects: seq<Effect>)
    requires messages.Valid()
    modifies messages
    ensures messages.Valid()
    ensures !dbOk ==> messages.rows == old(messages.rows) && effects == [Emit(socket.id, MessageError)]
    ensures dbOk ==>
      var m := Message(old(messages.nextId), senderId, receiverId, message, false, now);
      messages.rows == old(messages.rows) + [m] && effects == MessageTrace(m, reg.sockets, socket.id)
  {
    if !dbOk {
      return [Emit(socket.id, MessageError)];
    }
    var m := messages.Insert(senderId, receiverId, message, now);
    effects := [Persist(MessageStored(m.id))];
    var to := reg.Lookup(receiverId);
    if to.Some? {
      effects := effects + [Emit(to.value, NewMessage(m))];
    }
    effects := effects + [Emit(socket.id, MessageSent(m))];
  }

  /** The message is stored before anything is emitted; the receiver hears of it exactly
      when online, and the sender's socket always gets the acknowledgement, last. */
  lemma MessageDelivery(m: Message, reg: map<UserId, SocketId>, self: SocketId)
    ensures MessageTrace(m, reg, self)[0] == Persist(MessageStored(m.id))
    ensures Pushes(MessageTrace(m, reg, self)) ==
      (if m.receiverId in reg then [Emit(reg[m.receiverId], NewMessage(m))] else []) + [Emit(self, MessageSent(m))]
  {
    var t := MessageTrace(m, reg, self);
    var mid := PushIfOnline(m.receiverId, reg, NewMessage(m));
    PushesAppend([Persist(MessageStored(m.id))] + mid, [Emit(self, MessageSent(m))]);
    PushesAppend([Persist(MessageStored(m.id))], mid);
    assert Pushes([Persist(MessageStored(m.id))]) == [];
    assert Pushes(mid) == mid;
  }

  // ---------------------------------------------------------------------------------------
  // updateLocation

  /** Whether `updateLocation` treats the user as hidden: the stored flag, voided by a passed
      deadline; a missing user is not hidden. */
  predicate Hidden(rows: map<UserId, User>, u: UserId, now: Millis)
    ensures Hidden(rows, u, now) ==> u in rows && rows[u].ghostMode
    ensures u in rows && rows[u].ghostModeUntil.None? ==> (Hidden(rows, u, now) <==> rows[u].ghostMode)
  {
    u in rows && EffectiveGhost(rows[u].ghostMode, rows[u].ghostModeUntil, now)
  }

  /** The users table after `UPDATE Users SET latitude, longitude, lastUpdate`. */
  function StoreLocation(rows: map<UserId, User>, u: UserId, lat: Coord, lng: Coord, now: Millis)
    : (r: map<UserId, User>)
    ensures r.Keys == rows.Keys
    ensures forall id | id in rows && id != u :: r[id] == rows[id]
    ensures u in rows ==> r[u] == rows[u].(latitude := Some(lat), longitude := Some(lng), lastUpdate := Some(now))
  {
    if u in rows then rows[u := rows[u].(latitude := Some(lat), longitude := Some(lng), lastUpdate := Some(now))]
    else rows
  }

  /** The trace of `updateLocation`: the expiry write-back when due, the location write
      always, then the broadcast to the rows of the friends query unless hidden. */
  function LocationTrace(rows: map<UserId, User>, u: UserId, lat: Coord, lng: Coord, now: Millis,
                         order: seq<UserId>, reg: map<UserId, SocketId>): (r: seq<Effect>)
    ensures var w := if u in rows && Expired(rows[u].ghostMode, rows[u].ghostModeUntil, now) then 1 else 0;
      && w < |r| && r[w] == Persist(LocationStored(u))
      && (w == 1 ==> r[0] == Persist(GhostCleared(u)))
      && (Hidden(rows, u, now) ==> |r| == w + 1)
      && |r| <= w + 1 + |order|
  {
    var expired := u in rows && Expired(rows[u].ghostMode, rows[u].ghostModeUntil, now);
    (if expired then [Persist(GhostCleared(u))] else [])
      + [Persist(LocationStored(u))]
      + (if Hidden(rows, u, now) then [] else Broadcast(order, reg, FriendLocationUpdate(u, lat, lng)))
  }

  /** `updateLocation`. The ghost out-parameter `order` lists the rows of the friends query
      (one per Friends row, no DISTINCT) in the order the database returns them. */
  method UpdateLocation(users: UserTable, friends: FriendTable, reg: Registry, u: UserId, lat: Coord, lng: Coord, now: Millis)
    returns (effects: seq<Effect>, ghost order: seq<UserId>)
    requires users.Valid()
    modifies users
    ensures users.Valid()
    ensures users.rows == StoreLocation(WriteBackExpiry(old(users.rows), u, now), u, lat, lng, now)
    ensures !Hidden(old(users.rows), u, now) ==> multiset(order) == LinkRows(friends.rows, users.rows, u)
    ensures effects == LocationTrace(old(users.rows), u, lat, lng, now, order, reg.sockets)
  {
    var rows := users.rows;
    var isGhostMode := u in rows && rows[u].ghostMode;
    effects := [];
    if u in rows && Expired(rows[u].ghostMode, rows[u].ghostModeUntil, now) {
      users.rows := rows[u := ClearGhost(rows[u])];
      effects := [Persist(GhostCleared(u))];
      isGhostMode := false;
    }
    users.rows := StoreLocation(users.rows, u, lat, lng, now);
    effects := effects + [Persist(LocationStored(u))];
    order := [];
    if !isGhostMode {
      var friendRows := EnumerateBag(LinkRows(friends.rows, users.rows, u));
      order := friendRows;
      var pushes := BroadcastEach(reg, friendRows, FriendLocationUpdate(u, lat, lng));
      effects := effects + pushes;
    }
  }

  /** A hidden user's move reaches nobody. */
  lemma HiddenMoveIsSilent(rows: map<UserId, User>, u: UserId, lat: Coord, lng: Coord, now: Millis,
                           order: seq<UserId>, reg: map<UserId, SocketId>)
    requires Hidden(rows, u, now)
    ensures Pushes(LocationTrace(rows, u, lat, lng, now, order, reg)) == []
  {
    var t := LocationTrace(rows, u, lat, lng, now, order, reg);
    assert t == [Persist(LocationStored(u))] + [];
    assert Pushes([Persist(LocationStored(u))]) == [];
  }

  /** A visible user's move is pushed, after both writes, to every friend online and to
      nobody else: twice to each, since the friends query has no DISTINCT and the Friends
      table holds both directions of a friendship. */
  lemma VisibleMoveReachesFriendsTwice(rows: map<UserId, User>, friends: set<(UserId, UserId)>,
                                       u: UserId, lat: Coord, lng: Coord, now: Millis,
                                       order: seq<UserId>, reg: map<UserId, SocketId>)
    requires Symmetric(friends) && Irreflexive(friends)
    requires !Hidden(rows, u, now)
    requires multiset(order) == LinkRows(friends, rows, u)
    ensures Pushes(LocationTrace(rows, u, lat, lng, now, order, reg)) == Broadcast(order, reg, FriendLocationUpdate(u, lat, lng))
    ensures forall v :: multiset(Registered(order, reg))[v] == if v in reg && (u, v) in friends && v in rows then 2 else 0
  {
    VisibleMovePushes(rows, u, lat, lng, now, order, reg);
    forall v
      ensures multiset(Registered(order, reg))[v] == if v in reg && (u, v) in friends && v in rows then 2 else 0
    {
      RegisteredCounts(order, reg, v);
      EachFriendTwice(friends, rows, u, v);
    }
  }

  /** The pushes of a visible user's move are the broadcast alone: the writes push nothing. */
  lemma VisibleMovePushes(rows: map<UserId, User>, u: UserId, lat: Coord, lng: Coord, now: Millis,
                          order: seq<UserId>, reg: map<UserId, SocketId>)
    requires !Hidden(rows, u, now)
    ensures Pushes(LocationTrace(rows, u, lat, lng, now, order, reg)) == Broadcast(order, reg, FriendLocationUpdate(u, lat, lng))
  {
    var ev := FriendLocationUpdate(u, lat, lng);
    var expired := u in rows && Expired(rows[u].ghostMode, rows[u].ghostModeUntil, now);
    var cleared: seq<Effect> := if expired then [Persist(GhostCleared(u))] else [];
    var writes := cleared + [Persist(LocationStored(u))];
    assert LocationTrace(rows, u, lat, lng, now, order, reg) == writes + Broadcast(order, reg, ev);
    assert Pushes(writes) == [] by {
      PushesAppend(cleared, [Persist(LocationStored(u))]);
      assert Pushes([Persist(LocationStored(u))]) == [];
      assert Pushes(cleared) == [];
    }
    assert Pushes(Broadcast(order, reg, ev)) == Broadcast(order, reg, ev) by {
      BroadcastOnlyPushes(order, reg, ev);
    }
    PushesAppend(writes, Broadcast(order, reg, ev));
  }

  // ---------------------------------------------------------------------------------------
  // sendSOS

  /** One iteration of the SOS loop: the friend's notification, then the push if online. */
  function SosStep(v: UserId, id: int, reg: map<UserId, SocketId>, ev: Event): seq<Effect> {
    [Persist(NotificationStored(id, v))] + PushIfOnline(v, reg, ev)
  }

  /** The whole SOS loop over the rows of the friends query, notification ids from `firstId`. */
  function SosFanout(order: seq<UserId>, firstId: int, reg: map<UserId, SocketId>, ev: Event): seq<Effect> {
    if order == [] then []
    else
      var k := |order| - 1;
      SosFanout(order[..k], firstId, reg, ev) + SosStep(order[k], firstId + k, reg, ev)
  }

  /** The SOS loop of the socket handler, writing through the notifications table. */
  method FanOutSos(table: NotificationTable, reg: Registry, order: seq<UserId>, from: UserId,
                   text: string, ev: Event, now: Millis) returns (effects: seq<Effect>)
    requires table.Valid()
    modifies table
    ensures table.Valid()
    ensures table.rows == old(table.rows) + SosNotifications(order, old(table.nextId), from, text, now)
    ensures effects == SosFanout(order, old(table.nextId), reg.sockets, ev)
  {
    var first := table.nextId;
    effects := [];
    var k := 0;
    while k < |order|
      invariant 0 <= k <= |order|
      invariant table.Valid()
      invariant table.nextId == first + k
      invariant table.rows == old(table.rows) + SosNotifications(order[..k], first, from, text, now)
      invariant effects == SosFanout(order[..k], first, reg.sockets, ev)
    {
      var n := table.Insert(order[k], Kind, Title, text, Some(from), now);
      var step := [Persist(NotificationStored(n.id, order[k]))];
      var to := reg.Lookup(order[k]);
      if to.Some? {
        step := step + [Emit(to.value, ev)];
      }
      assert step == SosStep(order[k], first + k, reg.sockets, ev);
      assert SosFanout(order[..k + 1], first, reg.sockets, ev) == effects + step by {
        SosFanoutGrows(order, k, first, reg.sockets, ev);
      }
      assert SosNotifications(order[..k + 1], first, from, text, now)
          == SosNotifications(order[..k], first, from, text, now) + [n] by {
        SosNotificationsGrow(order, k, first, from, text, now);
      }
      effects := effects + step;
      k := k + 1;
    }
    assert order[..k] == order;
  }

  lemma SosFanoutGrows(order: seq<UserId>, k: nat, firstId: int, reg: map<UserId, SocketId>, ev: Event)
    requires k < |order|
    ensures SosFanout(order[..k + 1], firstId, reg, ev)
         == SosFanout(order[..k], firstId, reg, ev) + SosStep(order[k], firstId + k, reg, ev)
  {
    SosFanoutUnfold(order[..k + 1], firstId, reg, ev);
    assert order[..k + 1][..k] == order[..k];
  }

  lemma SosNotificationsGrow(order: seq<UserId>, k: nat, firstId: int, from: UserId, text: string, now: Millis)
    requires k < |order|
    ensures SosNotifications(order[..k + 1], firstId, from, text, now)
         == SosNotifications(order[..k], firstId, from, text, now)
            + [Notification(firstId + k, order[k], Kind, Title, text, Some(from), false, now)]
  {
    assert order[..k + 1][..k] == order[..k];
  }

  /** The payload of the `sosAlert` push. */
  function AlertEvent(users: map<UserId, User>, u: UserId, lat: Coord, lng: Coord, message: Option<string>, now: Millis)
    : Event {
    SosAlertEvent(u, SenderName(users, u), lat, lng, TextOr(message, DefaultMessage), now)
  }

  /** The socket `sendSOS`: store the alert, then notify and push friend by friend, then
      acknowledge with `sosSent`. Ghost mode is not consulted. A failed alert INSERT emits
      `sosError` and writes nothing. */
  method SendSos(users: UserTable, friends: FriendTable, alerts: SosTable,
                 notifications: NotificationTable, reg: Registry, socket: Socket, u: UserId, lat: Coord, lng: Coord,
                 message: Option<string>, now: Millis, dbOk: bool)
    returns (effects: seq<Effect>, ghost order: seq<UserId>)
    requires alerts.Valid() && notifications.Valid()
    modifies alerts, notifications
    ensures alerts.Valid() && notifications.Valid()
    ensures !dbOk ==>
      && alerts.rows == old(alerts.rows) && notifications.rows == old(notifications.rows)
      && effects == [Emit(socket.id, SosError)]
    ensures dbOk ==>
      && alerts.rows == old(alerts.rows)[old(alerts.nextId) :=
           SosAlert(u, lat, lng, TextOr(message, DefaultMessage), true, now, None)]
      && multiset(order) == multiset(Linked(friends.rows, users.rows, u))
      && notifications.rows == old(notifications.rows) + SosNotifications(order, old(notifications.nextId),
           u, NotificationText(SenderName(users.rows, u), message), now)
      && effects == SosTrace(old(alerts.nextId), order, old(notifications.nextId), reg.sockets,
                             AlertEvent(users.rows, u, lat, lng, message, now), socket.id)
  {
    if !dbOk {
      return [Emit(socket.id, SosError)], [];
    }
    var sosId := alerts.Insert(SosAlert(u, lat, lng, TextOr(message, DefaultMessage), true, now, None));
    var text := NotificationText(SenderName(users.rows, u), message);
    var list := Enumerate(Linked(friends.rows, users.rows, u));
    order := list;
    var fanout := FanOutSos(notifications, reg, list, u, text, AlertEvent(users.rows, u, lat, lng, message, now), now);
    effects := [Persist(AlertStored(sosId))] + fanout + [Emit(socket.id, SosSent)];
  }

  /** One loop iteration writes the friend's notification and pushes at most once. */
  lemma SosStepShape(v: UserId, id: int, reg: map<UserId, SocketId>, ev: Event)
    ensures NotifiedUsers(SosStep(v, id, reg, ev)) == [v]
    ensures Pushes(SosStep(v, id, reg, ev)) == PushIfOnline(v, reg, ev)
  {
    var w := [Persist(NotificationStored(id, v))];
    NotifiedUsersAppend(w, PushIfOnline(v, reg, ev));
    PushesAppend(w, PushIfOnline(v, reg, ev));
    assert NotifiedUsers(w) == [v] && Pushes(w) == [];
    BroadcastOnlyPushes([v], reg, ev);
    assert [v][..0] == [];
  }

  lemma SplitLast<T>(s: seq<T>)
    requires s != []
    ensures s[..|s| - 1] + [s[|s| - 1]] == s
  {
  }

  /** Gluing one loop iteration onto the trace of the earlier ones, for notifications. */
  lemma JoinNotified(whole: seq<Effect>, prefix: seq<Effect>, step: seq<Effect>, order: seq<UserId>)
    requires whole == prefix + step && order != []
    requires NotifiedUsers(prefix) == order[..|order| - 1]
    requires NotifiedUsers(step) == [order[|order| - 1]]
    ensures NotifiedUsers(whole) == order
  {
    NotifiedUsersAppend(prefix, step);
    SplitLast(order);
  }

  /** Gluing one loop iteration onto the trace of the earlier ones, for pushes. */
  lemma JoinPushes(whole: seq<Effect>, prefix: seq<Effect>, step: seq<Effect>, order: seq<UserId>,
                   reg: map<UserId, SocketId>, ev: Event)
    requires whole == prefix + step && order != []
    requires Pushes(prefix) == Broadcast(order[..|order| - 1], reg, ev)
    requires Pushes(step) == PushIfOnline(order[|order| - 1], reg, ev)
    ensures Pushes(whole) == Broadcast(order, reg, ev)
  {
    PushesAppend(prefix, step);
  }

  /** The SOS loop writes one notification per row of the friends query, in the listed
      order. */
  lemma {:induction false} SosFanoutNotifies(order: seq<UserId>, firstId: int, reg: map<UserId, SocketId>, ev: Event)
    ensures NotifiedUsers(SosFanout(order, firstId, reg, ev)) == order
  {
    if order != [] {
      var k := |order| - 1;
      SosFanoutNotifies(order[..k], firstId, reg, ev);
      SosStepShape(order[k], firstId + k, reg, ev);
      SosFanoutUnfold(order, firstId, reg, ev);
      JoinNotified(SosFanout(order, firstId, reg, ev), SosFanout(order[..k], firstId, reg, ev),
                   SosStep(order[k], firstId + k, reg, ev), order);
    }
  }

  /** The pushes of the SOS loop are exactly a broadcast of the alert to those online. */
  lemma {:induction false} SosFanoutPushes(order: seq<UserId>, firstId: int, reg: map<UserId, SocketId>, ev: Event)
    ensures Pushes(SosFanout(order, firstId, reg, ev)) == Broadcast(order, reg, ev)
  {
    if order != [] {
      var k := |order| - 1;
      SosFanoutPushes(order[..k], firstId, reg, ev);
      SosStepShape(order[k], firstId + k, reg, ev);
      SosFanoutUnfold(order, firstId, reg, ev);
      JoinPushes(SosFanout(order, firstId, reg, ev), SosFanout(order[..k], firstId, reg, ev),
                 SosStep(order[k], firstId + k, reg, ev), order, reg, ev);
    }
  }

  /** The SOS loop is the trace of the earlier iterations followed by the last one. */
  lemma SosFanoutUnfold(order: seq<UserId>, firstId: int, reg: map<UserId, SocketId>, ev: Event)
    requires order != []
    ensures SosFanout(order, firstId, reg, ev)
      == SosFanout(order[..|order| - 1], firstId, reg, ev) + SosStep(order[|order| - 1], firstId + |order| - 1, reg, ev)
  {
  }

  /** Every emit of `t` is of `ev`, right after the notification written for the online user
      it goes to. */
  predicate PushesFollowNotes(t: seq<Effect>, reg: map<UserId, SocketId>, ev: Event) {
    forall i | 0 <= i < |t| && t[i].Emit? ::
      (&& i > 0 && t[i - 1].Persist? && t[i - 1].write.NotificationStored?
       && t[i - 1].write.userId in reg && t[i] == Emit(reg[t[i - 1].write.userId], ev))
  }

  /** Every push of the SOS loop comes right after the notification written for the user it
      is sent to. */
  lemma {:induction false} SosPushFollowsNotification(order: seq<UserId>, firstId: int, reg: map<UserId, SocketId>, ev: Event)
    ensures PushesFollowNotes(SosFanout(order, firstId, reg, ev), reg, ev)
  {
    var t := SosFanout(order, firstId, reg, ev);
    if order != [] {
      var k := |order| - 1;
      var v := order[k];
      var prefix := SosFanout(order[..k], firstId, reg, ev);
      var step := SosStep(v, firstId + k, reg, ev);
      assert t == prefix + step;
      SosPushFollowsNotification(order[..k], firstId, reg, ev);
      assert PushesFollowNotes(prefix, reg, ev);
      forall i | 0 <= i < |t| && t[i].Emit?
        ensures (&& i > 0 && t[i - 1].Persist? && t[i - 1].write.NotificationStored?
                 && t[i - 1].write.userId in reg && t[i] == Emit(reg[t[i - 1].write.userId], ev))
      {
        if i < |prefix| {
          assert t[i] == prefix[i];
          if i > 0 {
            assert t[i - 1] == prefix[i - 1];
          }
        } else {
          assert step[0] == Persist(NotificationStored(firstId + k, v));
          assert i == |prefix| + 1 && t[i - 1] == step[0];
        }
      }
    } else {
      assert t == [];
    }
  }

  /** The full trace of a successful socket `sendSOS`. */
  function SosTrace(alertId: int, order: seq<UserId>, firstId: int, reg: map<UserId, SocketId>, ev: Event, self: SocketId)
    : (r: seq<Effect>)
    ensures |r| >= 2 && r[0] == Persist(AlertStored(alertId)) && r[|r| - 1] == Emit(self, SosSent)
  {
    [Persist(AlertStored(alertId))] + SosFanout(order, firstId, reg, ev) + [Emit(self, SosSent)]
  }

  /** The trace notifies the rows of the friends query in order, and its pushes are the
      broadcast of the alert followed by `sosSent`, which therefore comes last. */
  lemma SosTraceShape(alertId: int, order: seq<UserId>, firstId: int, reg: map<UserId, SocketId>, ev: Event, self: SocketId)
    ensures NotifiedUsers(SosTrace(alertId, order, firstId, reg, ev, self)) == order
    ensures Pushes(SosTrace(alertId, order, firstId, reg, ev, self)) == Broadcast(order, reg, ev) + [Emit(self, SosSent)]
  {
    SosTraceNotifies(alertId, order, firstId, reg, ev, self);
    SosTracePushes(alertId, order, firstId, reg, ev, self);
  }

  lemma SosTraceNotifies(alertId: int, order: seq<UserId>, firstId: int, reg: map<UserId, SocketId>, ev: Event, self: SocketId)
    ensures NotifiedUsers(SosTrace(alertId, order, firstId, reg, ev, self)) == order
  {
    var head := [Persist(AlertStored(alertId))];
    var fan := SosFanout(order, firstId, reg, ev);
    var tail := [Emit(self, SosSent)];
    assert SosTrace(alertId, order, firstId, reg, ev, self) == (head + fan) + tail;
    assert NotifiedUsers(fan) == order by {
      SosFanoutNotifies(order, firstId, reg, ev);
    }
    assert NotifiedUsers(head + fan) == order by {
      NotifiedUsersAppend(head, fan);
      assert NotifiedUsers(head) == [];
    }
    assert NotifiedUsers(tail) == [];
    NotifiedUsersAppend(head + fan, tail);
  }

  lemma SosTracePushes(alertId: int, order: seq<UserId>, firstId: int, reg: map<UserId, SocketId>, ev: Event, self: SocketId)
    ensures Pushes(SosTrace(alertId, order, firstId, reg, ev, self)) == Broadcast(order, reg, ev) + [Emit(self, SosSent)]
  {
    var head := [Persist(AlertStored(alertId))];
    var fan := SosFanout(order, firstId, reg, ev);
    var tail := [Emit(self, SosSent)];
    assert SosTrace(alertId, order, firstId, reg, ev, self) == (head + fan) + tail;
    assert Pushes(fan) == Broadcast(order, reg, ev) by {
      SosFanoutPushes(order, firstId, reg, ev);
    }
    assert Pushes(head + fan) == Broadcast(order, reg, ev) by {
      PushesAppend(head, fan);
      assert Pushes(head) == [];
    }
    assert Pushes(tail) == tail;
    PushesAppend(head + fan, tail);
  }

  /** Every friend of the sender gets exactly one SOS notification and, when online,
      exactly one push; nobody else gets either. */
  lemma SosReachesEachFriendOnce(friends: set<(UserId, UserId)>, users: map<UserId, User>, u: UserId,
                                 order: seq<UserId>, firstId: int, alertId: int, reg: map<UserId, SocketId>,
                                 self: SocketId, ev: Event, v: UserId)
    requires multiset(order) == multiset(Linked(friends, users, u))
    ensures multiset(NotifiedUsers(SosTrace(alertId, order, firstId, reg, ev, self)))[v]
      == if v in Linked(friends, users, u) then 1 else 0
    ensures multiset(Registered(order, reg))[v] == if v in reg && v in Linked(friends, users, u) then 1 else 0
  {
    SosTraceShape(alertId, order, firstId, reg, ev, self);
    RegisteredCounts(order, reg, v);
    EnumeratedOnce(order, Linked(friends, users, u), v);
  }

  /** Ghost mode has no say over who hears an SOS: changing any user's ghost fields leaves
      the audience unchanged. */
  lemma SosIgnoresGhostMode(friends: set<(UserId, UserId)>, users: map<UserId, User>, u: UserId,
                            w: UserId, flag: bool, until: Option<Millis>)
    requires w in users
    ensures Linked(friends, users[w := users[w].(ghostMode := flag, ghostModeUntil := until)], u)
         == Linked(friends, users, u)
  {
  }
}

=== FILE: schema.dfy ===
/** The SQL Server tables the handlers read and write, one class per table, and the
    invariants the handlers keep on them.

    Columns the handlers never look at (avatar, isOnline, lastSeen) are not modelled.
    Where a handler relies on a column default that the insert statement does not name,
    the default is the one the code evidently expects: a new user is visible, no parent,
    no reset token; a new parental link is 'pending'; a new SOS alert is active; a new
    notification or message is unread; `createdAt` is the insert time. */
module Schema {
  import opened Common

  datatype User = User(
    username: string,
    email: Option<string>,
    password: string,           // a bcrypt hash, or a legacy plain-text password
    googleId: Option<string>,
    latitude: Option<Coord>,
    longitude: Option<Coord>,
    lastUpdate: Option<Millis>,
    ghostMode: bool,
    ghostModeUntil: Option<Millis>,
    isParent: bool,
    parentId: Option<UserId>,
    resetToken: Option<string>,
    resetExpires: Option<Millis>)

  /** The row an INSERT naming only these columns creates. */
  function NewUser(username: string, email: Option<string>, password: string, googleId: Option<string>): User {
    User(username, email, password, googleId, None, None, None, false, None, false, None, None, None)
  }

  /** The `status` column of FriendRequests and of ParentalLinks. */
  datatype Status = Pending | Accepted | Rejected

  datatype FriendRequest = FriendRequest(
    senderId: UserId, receiverId: UserId, status: Status, createdAt: Millis, updatedAt: Option<Millis>)

  datatype ParentalLink = ParentalLink(parentId: UserId, childId: UserId, status: Status, createdAt: Millis)

  datatype SosAlert = SosAlert(
    userId: UserId, latitude: Coord, longitude: Coord, message: string,
    isActive: bool, createdAt: Millis, resolvedAt: Option<Millis>)

  datatype Notification = Notification(
    id: int, userId: UserId, kind: string, title: string, message: string,
    relatedUserId: Option<UserId>, isRead: bool, createdAt: Millis)

  datatype Message = Message(
    id: int, senderId: UserId, receiverId: UserId, message: string, isRead: bool, createdAt: Millis)

  /** Both directed rows of a pair are present or absent together. */
  ghost predicate Symmetric(rows: set<(UserId, UserId)>) {
    forall p | p in rows :: (p.1, p.0) in rows
  }

  ghost predicate Irreflexive(rows: set<(UserId, UserId)>) {
    forall p | p in rows :: p.0 != p.1
  }

  predicate SamePair(a: FriendRequest, b: FriendRequest) {
    (a.senderId == b.senderId && a.receiverId == b.receiverId)
    || (a.senderId == b.receiverId && a.receiverId == b.senderId)
  }

  /** A request row links the unordered pair {x, y}. */
  predicate Links(r: FriendRequest, x: UserId, y: UserId) {
    (r.senderId == x && r.receiverId == y) || (r.senderId == y && r.receiverId == x)
  }

  /** Ids are fresh below `next`, nobody asks themselves, and one row at most exists per
      unordered pair: `sendFriendRequest` reuses a pair's row instead of adding another. */
  ghost predicate RequestsWellFormed(rows: map<int, FriendRequest>, next: int) {
    && (forall id | id in rows :: id < next && rows[id].senderId != rows[id].receiverId)
    && UniquePairs(rows)
  }

  ghost predicate UniquePairs(rows: map<int, FriendRequest>) {
    forall i, j | i in rows && j in rows && SamePair(rows[i], rows[j]) :: i == j
  }

  class UserTable {
    var rows: map<UserId, User>
    var nextId: UserId

    ghost predicate Valid()
      reads this
    {
      forall id | id in rows :: id < nextId
    }

    constructor ()
      ensures Valid() && rows == map[]
    {
      rows, nextId := map[], 1;
    }

    /** INSERT with an IDENTITY key. */
    method Insert(u: User) returns (id: UserId)
      requires Valid()
      modifies this
      ensures Valid()
      ensures id == old(nextId) && id !in old(rows) && rows == old(rows)[id := u]
    {
      id := nextId;
      rows, nextId := rows[id := u], nextId + 1;
    }
  }

  /** The Friends table: one directed row (userId, friendId) per direction of a friendship. */
  class FriendTable {
    var rows: set<(UserId, UserId)>

    ghost predicate Valid()
      reads this
    {
      Symmetric(rows) && Irreflexive(rows)
    }

    constructor ()
      ensures Valid() && rows == {}
    {
      rows := {};
    }
  }

  class RequestTable {
    var rows: map<int, FriendRequest>
    var nextId: int

    ghost predicate Valid()
      reads this
    {
      RequestsWellFormed(rows, nextId)
    }

    constructor ()
      ensures Valid() && rows == map[]
    {
      rows, nextId := map[], 1;
    }
  }

  class LinkTable {
    var rows: map<int, ParentalLink>
    var nextId: int

    /** Ids are fresh below `nextId` and one row at most exists per (parent, child):
        `sendParentalRequest` refuses a second one whatever the first one's status. */
    ghost predicate Valid()
      reads this
    {
      && (forall id | id in rows :: id < nextId)
      && (forall i, j | i in rows && j in rows && rows[i].parentId == rows[j].parentId
            && rows[i].childId == rows[j].childId :: i == j)
    }

    constructor ()
      ensures Valid() && rows == map[]
    {
      rows, nextId := map[], 1;
    }
  }

  class SosTable {
    var rows: map<int, SosAlert>
    var nextId: int

    ghost predicate Valid()
      reads this
    {
      forall id | id in rows :: id < nextId
    }

    constructor ()
      ensures Valid() && rows == map[]
    {
      rows, nextId := map[], 1;
    }

    method Insert(a: SosAlert) returns (id: int)
      requires Valid()
      modifies this
      ensures Valid()
      ensures id == old(nextId) && id !in old(rows) && rows == old(rows)[id := a]
    {
      id := nextId;
      rows, nextId := rows[id := a], nextId + 1;
    }
  }

  /** Ids increase along a sequence of rows and stay below the next id to hand out. */
  ghost predicate IdsBelow(ids: seq<int>, next: int) {
    && (forall i | 0 <= i < |ids| :: ids[i] < next)
    && (forall i, j | 0 <= i < j < |ids| :: ids[i] < ids[j])
  }

  function NotificationIds(rows: seq<Notification>): (ids: seq<int>)
    ensures |ids| == |rows| && forall i | 0 <= i < |rows| :: ids[i] == rows[i].id
  {
    seq(|rows|, i requires 0 <= i < |rows| => rows[i].id)
  }

  function MessageIds(rows: seq<Message>): (ids: seq<int>)
    ensures |ids| == |rows| && forall i | 0 <= i < |rows| :: ids[i] == rows[i].id
  {
    seq(|rows|, i requires 0 <= i < |rows| => rows[i].id)
  }

  /** The Notifications table, its rows in the order a table scan meets them. */
  class NotificationTable {
    var rows: seq<Notification>
    var nextId: int

    ghost predicate Valid()
      reads this
    {
      IdsBelow(NotificationIds(rows), nextId)
    }

    constructor ()
      ensures Valid() && rows == []
    {
      rows, nextId := [], 1;
    }

    /** INSERT with the id and `createdAt` the database assigns; the row starts unread. */
    method Insert(userId: UserId, kind: string, title: string, message: string,
                  relatedUserId: Option<UserId>, now: Millis) returns (n: Notification)
      requires Valid()
      modifies this
      ensures Valid()
      ensures n == Notification(old(nextId), userId, kind, title, message, relatedUserId, false, now)
      ensures rows == old(rows) + [n] && nextId == old(nextId) + 1
    {
      n := Notification(nextId, userId, kind, title, message, relatedUserId, false, now);
      rows, nextId := rows + [n], nextId + 1;
    }
  }

  /** The Messages table, its rows in the order a table scan meets them. */
  class MessageTable {
    var rows: seq<Message>
    var nextId: int

    ghost predicate Valid()
      reads this
    {
      IdsBelow(MessageIds(rows), nextId)
    }

    constructor ()
      ensures Valid() && rows == []
    {
      rows, nextId := [], 1;
    }

    method Insert(senderId: UserId, receiverId: UserId, message: string, now: Millis) returns (m: Message)
      requires Valid()
      modifies this
      ensures Valid()
      ensures m == Message(old(nextId), senderId, receiverId, message, false, now)
      ensures rows == old(rows) + [m] && nextId == old(nextId) + 1
    {
      m := Message(nextId, senderId, receiverId, message, false, now);
      rows, nextId := rows + [m], nextId + 1;
    }
  }

  /** While a request is pending its two users are not friends: `sendFriendRequest` refuses
      friends, and accepting turns the request to 'accepted' as it adds the rows. So accept
      never inserts a Friends row that exists already, and a set of pairs is a faithful
      picture of the Friends table. */
  ghost predicate PendingNotFriends(requests: map<int, FriendRequest>, friends: set<(UserId, UserId)>) {
    forall id | id in requests && requests[id].status == Pending ::
      (requests[id].senderId, requests[id].receiverId) !in friends
  }

  /** The database the handlers share. */
  class Database {
    const users: UserTable
    const friends: FriendTable
    const requests: RequestTable
    const links: LinkTable
    const alerts: SosTable
    const notifications: NotificationTable
    const messages: MessageTable

    ghost predicate Valid()
      reads this, users, friends, requests, links, alerts, notifications, messages
    {
      Relations() && alerts.Valid() && notifications.Valid() && messages.Valid()
    }

    /** The invariants of the user and relation tables. */
    ghost predicate Relations()
      reads this, users, friends, requests, links
    {
      && users.Valid() && friends.Valid() && requests.Valid() && links.Valid()
      && PendingNotFriends(requests.rows, friends.rows)
    }

    constructor ()
      ensures Valid()
      ensures users.rows == map[] && friends.rows == {} && requests.rows == map[]
      ensures links.rows == map[] && alerts.rows == map[]
      ensures notifications.rows == [] && messages.rows == []
    {
      users := new UserTable();
      friends := new FriendTable();
      requests := new RequestTable();
      links := new LinkTable();
      alerts := new SosTable();
      notifications := new NotificationTable();
      messages := new MessageTable();
    }
  }
}

=== FILE: sos.dfy ===
/** SOS alerts over HTTP (backend/controllers/userController.js) and the alert texts the
    socket handler of backend/server.js shares with them. */
module Sos {
  import opened Common
  import opened Js
  import opened Schema
  import opened FriendGraph

  /** Stored when the sender gives no message. */
  const DefaultMessage: string := "Tôi cần giúp đỡ!"
  const Title: string := "🆘 SOS Khẩn cấp!"
  const Kind: string := "sos"
  const CallForHelp: string := " cần giúp đỡ! "

  /** `${username} cần giúp đỡ! ${message || ''}`: a missing sender row interpolates as
      "undefined", a missing message as nothing. */
  function NotificationText(username: Option<string>, message: Option<string>): (t: string)
    ensures username.Some? ==> StartsWith(t, username.value + CallForHelp)
    ensures username.None? ==> StartsWith(t, "undefined" + CallForHelp)
    ensures TruthyText(message) ==> |message.value| <= |t| && t[|t| - |message.value|..] == message.value
  {
    (if username.Some? then username.value else "undefined") + CallForHelp + TextOr(message, "")
  }

  /** The username the handlers look up for the sender, `undefined` when the row is gone. */
  function SenderName(users: map<UserId, User>, me: UserId): Option<string> {
    if me in users then Some(users[me].username) else None
  }

  /** The notification rows one alert adds, one per contact in the order the contact query
      lists them, with consecutive ids from `firstId`. */
  function SosNotifications(order: seq<UserId>, firstId: int, from: UserId, text: string, now: Millis)
    : (rows: seq<Notification>)
    ensures |rows| == |order|
    ensures forall k | 0 <= k < |order| ::
      rows[k] == Notification(firstId + k, order[k], Kind, Title, text, Some(from), false, now)
  {
    if order == [] then []
    else
      var k := |order| - 1;
      SosNotifications(order[..k], firstId, from, text, now)
        + [Notification(firstId + k, order[k], Kind, Title, text, Some(from), false, now)]
  }

  /** Parents of accepted links naming `me` as child, among existing users: a user is one
      exactly when an accepted link names them as the parent of `me`, they exist, and they
      are not `me`. */
  function AcceptedParents(links: map<int, ParentalLink>, users: map<UserId, User>, me: UserId): (r: set<UserId>)
    ensures forall v :: v in r <==>
      (v in users && v != me
       && exists id | id in links :: links[id].parentId == v && links[id].childId == me && links[id].status == Accepted)
  {
    set id | id in links && links[id].childId == me && links[id].status == Accepted
      && links[id].parentId in users && links[id].parentId != me :: links[id].parentId
  }

  /** The contacts the HTTP `sendSOS` alerts: friends in either direction and accepted
      parents, each once (the query is DISTINCT). The sender is never among them; every
      friend and every accepted parent is. */
  function Contacts(friends: set<(UserId, UserId)>, links: map<int, ParentalLink>, users: map<UserId, User>, me: UserId)
    : (r: set<UserId>)
    ensures me !in r
    ensures Linked(friends, users, me) <= r && AcceptedParents(links, users, me) <= r
    ensures forall v | v in r :: v in Linked(friends, users, me) || v in AcceptedParents(links, users, me)
  {
    Linked(friends, users, me) + AcceptedParents(links, users, me)
  }

  datatype SosReceipt = SosReceipt(sosId: int, notifiedFriends: nat)

  /** The HTTP `sendSOS`: store the alert, then one notification per contact. It reads the
      user, friend and parental-link rows and writes only the alert and notification
      tables. The ghost out-parameter `order` is the order in which the database lists the
      contacts. */
  method SendSos(users: UserTable, friends: FriendTable, links: LinkTable, alerts: SosTable,
                 notifications: NotificationTable, me: UserId, lat: Coord, lng: Coord, message: Option<string>,
                 now: Millis)
    returns (r: Reply<SosReceipt>, ghost order: seq<UserId>)
    requires alerts.Valid() && notifications.Valid()
    modifies alerts, notifications
    ensures alerts.Valid() && notifications.Valid()
    ensures alerts.rows == old(alerts.rows)[old(alerts.nextId) :=
      SosAlert(me, lat, lng, TextOr(message, DefaultMessage), true, now, None)]
    ensures multiset(order) == multiset(Contacts(friends.rows, links.rows, users.rows, me))
    ensures notifications.rows == old(notifications.rows) + SosNotifications(order, old(notifications.nextId),
      me, NotificationText(SenderName(users.rows, me), message), now)
    ensures r == Ok(SosReceipt(old(alerts.nextId), |Contacts(friends.rows, links.rows, users.rows, me)|))
  {
    var text := NotificationText(SenderName(users.rows, me), message);
    var list := Enumerate(Contacts(friends.rows, links.rows, users.rows, me));
    var sosId := alerts.Insert(SosAlert(me, lat, lng, TextOr(message, DefaultMessage), true, now, None));
    NotifyContacts(notifications, list, me, text, now);
    order := list;
    r := Ok(SosReceipt(sosId, |list|));
  }

  /** The `for` loop of `sendSOS`: one notification per contact, in the listed order. */
  method NotifyContacts(table: NotificationTable, order: seq<UserId>, from: UserId, text: string, now: Millis)
    requires table.Valid()
    modifies table
    ensures table.Valid()
    ensures table.rows == old(table.rows) + SosNotifications(order, old(table.nextId), from, text, now)
    ensures table.nextId == old(table.nextId) + |order|
  {
    var first := table.nextId;
    var k := 0;
    while k < |order|
      invariant 0 <= k <= |order|
      invariant table.Valid()
      invariant table.rows == old(table.rows) + SosNotifications(order[..k], first, from, text, now)
      invariant table.nextId == first + k
    {
      var n := table.Insert(order[k], Kind, Title, text, Some(from), now);
      assert order[..k + 1][..k] == order[..k];
      k := k + 1;
    }
    assert order[..k] == order;
  }

  /** The alert table after `resolveSOS`: only the owner's own alert is closed. */
  function ResolveAlert(alerts: map<int, SosAlert>, me: UserId, sosId: int, now: Millis): (r: map<int, SosAlert>)
    ensures r.Keys == alerts.Keys
    ensures forall id | id in alerts && (id != sosId || alerts[id].userId != me) :: r[id] == alerts[id]
    ensures sosId in alerts && alerts[sosId].userId == me ==>
      !r[sosId].isActive && r[sosId].resolvedAt == Some(now)
  {
    if sosId in alerts && alerts[sosId].userId == me
    then alerts[sosId := alerts[sosId].(isActive := false, resolvedAt := Some(now))]
    else alerts
  }

  /** `resolveSOS`: answers success whether or not an alert was closed. */
  method ResolveSos(db: Database, me: UserId, sosId: int, now: Millis) returns (r: Reply<()>)
    requires db.Valid()
    modifies db.alerts
    ensures db.Valid()
    ensures r == Ok(())
    ensures db.alerts.rows == ResolveAlert(old(db.alerts.rows), me, sosId, now)
  {
    db.alerts.rows := ResolveAlert(db.alerts.rows, me, sosId, now);
    r := Ok(());
  }

  datatype SosView = SosView(
    id: int, userId: UserId, latitude: Coord, longitude: Coord, message: string,
    createdAt: Millis, username: string)

  function ViewOf(id: int, a: SosAlert, owner: User): SosView {
    SosView(id, a.userId, a.latitude, a.longitude, a.message, a.createdAt, owner.username)
  }

  /** How many Friends rows the `getActiveSOS` join matches for an alert of `owner`: one per
      row (me, owner) or (owner, me); a row (me, me) matches both halves but is one row. */
  function MatchingFriendRows(friends: set<(UserId, UserId)>, me: UserId, owner: UserId): nat {
    if owner == me then (if (me, me) in friends then 1 else 0)
    else (if (me, owner) in friends then 1 else 0) + (if (owner, me) in friends then 1 else 0)
  }

  /** Alert `id` is in the `getActiveSOS` result shape: active, owner present. */
  predicate Shown(alerts: map<int, SosAlert>, users: map<UserId, User>, id: int) {
    id in alerts && alerts[id].isActive && alerts[id].userId in users
  }

  /** The rows of `getActiveSOS` drawn from the alerts in `ids`: each active alert of an
      existing user once per matching Friends row. */
  ghost function ActiveSosOver(ids: set<int>, alerts: map<int, SosAlert>, users: map<UserId, User>,
                               friends: set<(UserId, UserId)>, me: UserId): (r: multiset<SosView>)
    requires ids <= alerts.Keys
    ensures forall v ::
      r[v] == (if v.id in ids && Shown(alerts, users, v.id) && v == ViewOf(v.id, alerts[v.id], users[alerts[v.id].userId])
       then MatchingFriendRows(friends, me, alerts[v.id].userId) else 0)
    decreases ids
  {
    if ids == {} then multiset{}
    else
      var id := Pick(ids);
      var rest := ActiveSosOver(ids - {id}, alerts, users, friends, me);
      if Shown(alerts, users, id) then
        var a := alerts[id];
        rest[ViewOf(id, a, users[a.userId]) := MatchingFriendRows(friends, me, a.userId)]
      else rest
  }

  /** `getActiveSOS`, without its ordering: every active alert of an existing user, listed
      once per Friends row that joins its owner to the caller. */
  ghost function GetActiveSos(alerts: map<int, SosAlert>, users: map<UserId, User>,
                              friends: set<(UserId, UserId)>, me: UserId): (r: multiset<SosView>)
    ensures forall v ::
      r[v] == (if Shown(alerts, users, v.id) && v == ViewOf(v.id, alerts[v.id], users[alerts[v.id].userId])
       then MatchingFriendRows(friends, me, alerts[v.id].userId) else 0)
  {
    ActiveSosOver(alerts.Keys, alerts, users, friends, me)
  }

  // ---------------------------------------------------------------------------------------
  // Properties

  /** The users a run of notification rows is addressed to. */
  function Recipients(rows: seq<Notification>): (r: seq<UserId>)
    ensures |r| == |rows| && forall k | 0 <= k < |rows| :: r[k] == rows[k].userId
  {
    seq(|rows|, k requires 0 <= k < |rows| => rows[k].userId)
  }

  /** Each contact gets exactly one SOS notification, nobody else gets one, and every one of
      them is an SOS naming the sender. */
  lemma OneNotificationPerContact(order: seq<UserId>, contacts: set<UserId>, firstId: int,
                                  from: UserId, text: string, now: Millis)
    requires multiset(order) == multiset(contacts)
    ensures var rows := SosNotifications(order, firstId, from, text, now);
      forall v :: multiset(Recipients(rows))[v] == if v in contacts then 1 else 0
    ensures forall n | n in SosNotifications(order, firstId, from, text, now) ::
      n.userId in contacts && n.kind == Kind && n.title == Title && n.relatedUserId == Some(from)
  {
    var rows := SosNotifications(order, firstId, from, text, now);
    assert Recipients(rows) == order;
    forall v
      ensures multiset(order)[v] == if v in contacts then 1 else 0
    {
      EnumeratedOnce(order, contacts, v);
    }
    forall n | n in rows
      ensures n.userId in contacts
    {
      var k :| 0 <= k < |rows| && rows[k] == n;
      assert order[k] in multiset(order);
    }
  }

  /** On a consistent database every friend's active alert is listed twice, once per
      direction of the friendship, and alerts of non-friends not at all. */
  lemma ActiveAlertsTwice(alerts: map<int, SosAlert>, users: map<UserId, User>,
                          friends: set<(UserId, UserId)>, me: UserId, id: int)
    requires Symmetric(friends) && Irreflexive(friends)
    requires Shown(alerts, users, id)
    ensures var a := alerts[id];
      GetActiveSos(alerts, users, friends, me)[ViewOf(id, a, users[a.userId])]
        == if (me, a.userId) in friends then 2 else 0
  {
    var o := alerts[id].userId;
    if (me, o) in friends {
      assert (o, me) in friends && o != me;
    }
    if (o, me) in friends {
      assert (me, o) in friends;
    }
  }

  /** A resolved alert leaves every caller's active list. */
  lemma ResolvedAlertHidden(alerts: map<int, SosAlert>, users: map<UserId, User>,
                            friends: set<(UserId, UserId)>, owner: UserId, viewer: UserId, id: int, now: Millis)
    requires id in alerts && alerts[id].userId == owner
    ensures forall v: SosView | v.id == id :: GetActiveSos(ResolveAlert(alerts, owner, id, now), users, friends, viewer)[v] == 0
  {
  }
}
